=== FILE: README.md ===
# simple-mcp-client, modelled in Dafny

A Dafny model of the backend core of simple-mcp-client. That is a chat client which connects a large language model to
MCP (Model Context Protocol) tool servers. The model covers:

- **Parameter corrector** (`ParameterCorrector`, corrector.dfy). When a tool call fails with a validation error, it
  reads the error text. It tries three general renaming heuristics from its table, then four hard-coded patterns. The
  first one that applies yields a corrected copy of the arguments. The regular expressions are written out as
  scanners.
- **Local process supervisor** (`Supervisor`, supervisor.dfy). This is the table of local MCP server processes and
  their configurations. It covers starting a server, with its 100 ms stabilisation polls. It also covers stopping
  (terminate, then kill), cleanup, status and health reports, the JSON-RPC exchange over a process's stdin and stdout,
  and the bulk operations.
- **MCP client message layer** (`Client`, client.dfy). These are the JSON-RPC 2.0 messages the client sends
  (initialize, the initialized notification, tools/list, tools/call), the HTTP headers, and how replies are read, for
  both local and remote servers.
- **HTTP routes** (`Routes`, routes.dfy):
  - the tool-call endpoint, with its result classification and its single corrected retry;
  - the two health endpoints, with their database status updates;
  - the tool list handed to the LLM by the chat endpoint.
- **Request and response records** (`Schemas`, schemas.dfy). These are the field defaults, the validation of a new
  server's configuration, and the provider enumeration.
- **Database** (`Database`, database.dfy). The three tables are modelled as sequences of rows, with their UNIQUE and
  NOT NULL constraints, AUTOINCREMENT ids and INSERT OR REPLACE. The model also covers the base64 key codec.
- **LLM request shaping** (`LlmService`, llm.dfy). It covers the client set-up for each provider, the conversion of
  the conversation into OpenAI's message format, and the prompt text sent to Gemini and Bedrock.

Supporting modules model the Python built-ins that the behaviour depends on:

- `Wrappers`: `Option` and `Result`.
- `Dict`: insertion-ordered dicts as association lists.
- `Json`: JSON values, `json.dumps`, `isinstance` and `in` on JSON values.
- `Text`: `str` operations.
- `Utf8` and `Base64`: the codecs behind `encode`, `decode`, `b64encode` and `b64decode`.

Everything the code cannot see is a parameter of the operation that uses it:

- the answer of each `poll()` of a process;
- whether `validate_command` found the executable;
- the process `Popen` returned;
- how `terminate`/`kill` went;
- the line read from a process;
- the HTTP reply;
- `json.loads`;
- the result of each MCP call.

## Model

| member | source | states |
|---|---|---|
| `ParameterCorrector.Rename` | backend/app/services/mcp_parameter_corrector.py:90-101 | the corrected arguments map the target name to the new value. They no longer hold the source name when it differs. Every other key keeps its value. The original arguments are recorded unchanged |
| `ParameterCorrector.Scan` | backend/app/services/mcp_parameter_corrector.py:109-109 | every token found by `re.findall` over quoted runs is free of quotes and belongs to the pattern's token class |
| `ParameterCorrector.ScanFirst` | backend/app/services/mcp_parameter_corrector.py:109-111 | the first quoted run of the text is the first token, whatever comes after it |
| `ParameterCorrector.UnderscoreTokenBetweenQuotes` | backend/app/services/mcp_parameter_corrector.py:132-133 | suppose the first quoted run has no underscore but the text up to the next quote has one. Then the regex engine, restarting at the closing quote, returns that text as the first underscore token |
| `ParameterCorrector.SearchPathAt` | backend/app/services/mcp_parameter_corrector.py:82-82 | the position `re.search` stops at: the path pattern matches there and at no earlier position, and no position at all when none is returned |
| `ParameterCorrector.SearchPath` | backend/app/services/mcp_parameter_corrector.py:82-82 | a path name is found iff the `"path": ["name"]` form (blanks allowed) matches at some position, and the name is taken from the leftmost such position. The name is non-empty and free of quotes |
| `ParameterCorrector.MatchPathOfReport` | backend/app/services/mcp_parameter_corrector.py:82-84 | the path pattern recognises the `"path": ["name"]` text a validator writes and yields `name` |
| `ParameterCorrector.WrapValue` | backend/app/services/mcp_parameter_corrector.py:91-91 | `None` becomes an empty list. Any other value becomes a one-element list holding it |
| `ParameterCorrector.StringToArray` | backend/app/services/mcp_parameter_corrector.py:76-103 | a correction exists iff three things hold: the lowered text mentions "array" and also "string" or "undefined"; a path name is found; and some argument name overlaps it case-insensitively. The first such argument is renamed to the path name, with its value wrapped in a list |
| `ParameterCorrector.SingularToPlural` | backend/app/services/mcp_parameter_corrector.py:105-126 | a correction exists iff the text has at least two quoted tokens and some argument name equals the first token once trailing `s` are stripped, yet differs from it. The first such argument is renamed to the token, value unchanged |
| `ParameterCorrector.FirstVariant` | backend/app/services/mcp_parameter_corrector.py:135-139 | finds the first (token, argument) pair, tokens outermost, whose names agree up to underscores and case yet differ. It returns none iff no pair does |
| `ParameterCorrector.SnakeToCamel` | backend/app/services/mcp_parameter_corrector.py:128-152 | a correction exists iff some underscore-bearing quoted token has an argument equal to it up to underscores and case but different. The pair renamed is the first one: the first such token in the text, and for it the first such argument in dictionary order. The argument is renamed to the token, value unchanged |
| `ParameterCorrector.FirstAlias` | backend/app/services/mcp_parameter_corrector.py:186-188 | the first query alias, in list order, that is an argument name. It returns none iff no alias is one |
| `ParameterCorrector.IndicesPattern` | backend/app/services/mcp_parameter_corrector.py:157-181 | applies iff the text contains "indices" and `index` or `index_name` is an argument. `index` takes precedence. Its value moves to `indices` as a one-element list |
| `ParameterCorrector.QueryPattern` | backend/app/services/mcp_parameter_corrector.py:183-198 | applies iff the text contains "query" and "Required" and some alias is an argument. The first alias in list order is renamed to `query`, value unchanged |
| `ParameterCorrector.AsArray` | backend/app/services/mcp_parameter_corrector.py:213-216 | a list is kept as it is. Any other value is wrapped (`None` to `[]`) |
| `ParameterCorrector.ArrayPattern` | backend/app/services/mcp_parameter_corrector.py:200-226 | applies iff the text contains "Required" and "array", a path name is found, and some argument overlaps it after lowering and removing underscores. The first such argument is moved to the path name as a list |
| `ParameterCorrector.FuzzyPattern` | backend/app/services/mcp_parameter_corrector.py:228-254 | applies iff the text contains "Required" and "undefined", a path name is found, and some argument is similar to it. Similar means one cleaned name contains the other, or they share at least min(3, len // 2) distinct characters. The first such argument is renamed, value unchanged |
| `ParameterCorrector.SpecificPatterns` | backend/app/services/mcp_parameter_corrector.py:154-256 | a correction exists iff one of the four hard-coded patterns applies. They are tried in order: indices, query, array, fuzzy, and the first that applies is the answer. Every result renames one argument |
| `ParameterCorrector.FirstCorrection` | backend/app/services/mcp_parameter_corrector.py:58-66 | the loop returns the correction of the first table entry whose transform finds one, and none iff every transform finds none |
| `ParameterCorrector.RulesApplied` | backend/app/services/mcp_parameter_corrector.py:20-41 | with the source's table, the loop tries string_to_array, then singular_to_plural, then snake_to_camel |
| `ParameterCorrector.Analyze` | backend/app/services/mcp_parameter_corrector.py:43-74 | the general transforms take precedence in table order. The hard-coded patterns decide only when all three fail. Any correction renames one key of a copy and records the original arguments |
| `ParameterCorrector.PatternsNeverConsulted` | backend/app/services/mcp_parameter_corrector.py:22-41 | the regex texts of the table do not affect the outcome: two tables with the same transforms give the same correction |
| `ParameterCorrector.IndexBeforeIndexName` | backend/app/services/mcp_parameter_corrector.py:157-181 | with both `index` and `index_name` present, `index` is converted and `index_name` stays in the corrected arguments |
| `ParameterCorrector.FuzzyShortRequired` | backend/app/services/mcp_parameter_corrector.py:237-242 | a required name of at most one character after cleaning gives a threshold of zero, so every argument name counts as similar |
| `ParameterCorrector.FuzzyTakesFirst` | backend/app/services/mcp_parameter_corrector.py:228-254 | for such a required name, the fuzzy pattern always renames the first argument |
| `ParameterCorrector.ArrayPatternKeepsLists` | backend/app/services/mcp_parameter_corrector.py:213-214 | a list-valued argument is moved by the array pattern without being wrapped again |
| `Supervisor.EmptyValid` | backend/app/services/local_mcp_manager.py:15-19 | the empty manager keeps the process and configuration tables well-formed |
| `Supervisor.Register` | backend/app/services/local_mcp_manager.py:115-122 | the new process and configuration are stored under the id. Every other id is unaffected and the tables stay well-formed |
| `Supervisor.Cleanup` | backend/app/services/local_mcp_manager.py:203-208 | both entries of the id are removed and all others are kept. An unknown id leaves the tables unchanged |
| `Supervisor.CleanupRegister` | backend/app/services/local_mcp_manager.py:115-139 | cleaning up after registering a server gives the tables that cleaning up before would have given |
| `Supervisor.ServerStatus` | backend/app/services/local_mcp_manager.py:218-226 | "stopped" iff the id has no process. "running" iff its process is running. "error" iff it has a process whose poll returned an exit code |
| `Supervisor.CheckHealth` | backend/app/services/local_mcp_manager.py:285-319 | not_found iff the id has no process, and running iff the poll returns None. An exited report carries the poll's exit code. The pid comes from the table, and the name from the configuration with default `ID-<id>`. The command and log file come from the configuration, and are None when there is none |
| `Supervisor.StatusMatchesHealth` | backend/app/services/local_mcp_manager.py:218-226 | the status string and the health report agree: stopped with not_found, running with running, error with exited |
| `Supervisor.AllHealth` | backend/app/services/local_mcp_manager.py:321-326 | one report per managed process, in table order, each equal to the single check, and never not_found |
| `Supervisor.Select` | backend/app/services/local_mcp_manager.py:330-335 | exactly the managed ids that satisfy the test, each once when the dictionary's keys are distinct |
| `Supervisor.RunningServers` | backend/app/services/local_mcp_manager.py:281-283 | exactly the ids whose process is running, with no id repeated |
| `Supervisor.NormaliseArgs` | backend/app/services/local_mcp_manager.py:80-88 | a list is used as it is. A string that parses as a JSON list gives that list. Anything else gives no arguments |
| `Supervisor.CommandVector` | backend/app/services/local_mcp_manager.py:91-91 | the command comes first, followed by the arguments |
| `Supervisor.LogFile` | backend/app/services/local_mcp_manager.py:96-96 | the log path lies under `logs/mcp-` and ends in `.log` |
| `Supervisor.Stabilise` | backend/app/services/local_mcp_manager.py:124-143 | the wait reports a crash iff one of the first eleven polls sees an exit, and it reports the first such poll. Otherwise exactly eleven polls are made, because ten binary64 steps of 0.1 stay below 1.0 |
| `Supervisor.Start` | backend/app/services/local_mcp_manager.py:68-162 | start succeeds iff the command was found, the spawn succeeded, no stabilisation poll saw an exit and the final check did not. Success registers the process and its configuration. Any later failure leaves the id cleaned up. A missing command leaves the tables unchanged |
| `Supervisor.Launched` | backend/app/services/local_mcp_manager.py:116-122 | the recorded configuration holds the name, command, normalised arguments, working directory and log path of the server |
| `Supervisor.Stop` | backend/app/services/local_mcp_manager.py:164-201 | returns False iff the process was running and neither terminate nor kill ended it. In that case the tables are unchanged; otherwise the id is cleaned up. An unknown id returns True with no change |
| `Supervisor.StopTwice` | backend/app/services/local_mcp_manager.py:164-169 | stopping a server that was just stopped returns True and changes nothing |
| `Supervisor.ShutdownAll` | backend/app/services/local_mcp_manager.py:342-346 | afterwards exactly the servers whose stop failed remain, with their entries unchanged |
| `Supervisor.DeadServers` | backend/app/services/local_mcp_manager.py:330-335 | exactly the managed ids whose process has exited, with no id repeated |
| `Supervisor.CleanupDead` | backend/app/services/local_mcp_manager.py:328-340 | removes exactly the processes whose poll shows an exit and returns how many there were: the number of distinct managed ids with an exit status. Every other entry is kept |
| `Supervisor.Frame` | backend/app/services/local_mcp_manager.py:239-239 | the request goes out as one line: a single newline at the end and none before it |
| `Supervisor.FrameRoundTrip` | backend/app/services/local_mcp_manager.py:239-244 | the text up to the first newline of the written line is exactly `json.dumps` of the request |
| `Supervisor.SendRequest` | backend/app/services/local_mcp_manager.py:228-279 | a request is written iff the server is running and the request is a dict (the log line's `request.get` raises before the write otherwise), and what is written is the framed request. A response exists iff five things hold: the server is running, the request is a dict, a line was read, its stripped text is non-empty, and that text parses. The response is the parse of the stripped line |
| `Supervisor.BlankReplyIsNone` | backend/app/services/local_mcp_manager.py:256-262 | a reply line made only of whitespace gives no response |
| `Client.Request` | backend/app/services/mcp_client.py:13-28 | a JSON-RPC request carries `jsonrpc`, `id`, `method` and `params`, in that order, with the given id, method and parameters |
| `Client.InitializeParams` | backend/app/services/mcp_client.py:17-27 | protocol version 2025-06-18, then the capabilities, then the client info |
| `Client.CapabilitiesExactly` | backend/app/services/mcp_client.py:19-22 | the advertised capabilities are exactly `tools: {}` and `logging: {}` |
| `Client.InitializeRequest` | backend/app/services/mcp_client.py:62-77 | an initialize request with the given id |
| `Client.InitializeDiffersOnlyInId` | backend/app/services/mcp_client.py:62-77 | two initialize requests differ only in their id entry, so the local and remote forms coincide apart from the uuid |
| `Client.InitializedNotification` | backend/app/services/mcp_client.py:41-45 | a notification (no id) with method `notifications/initialized` and empty params |
| `Client.ListToolsRequest` | backend/app/services/mcp_client.py:109-114 | a `tools/list` request with empty params |
| `Client.CallToolRequest` | backend/app/services/mcp_client.py:155-163 | a `tools/call` request whose params hold the tool name, then the arguments |
| `Client.Headers` | backend/app/services/mcp_client.py:54-60 | JSON content type and accept headers. A User-Agent only on initialize. `Authorization: ApiKey <key>` iff a non-empty key is given |
| `Client.ToolsOf` | backend/app/services/mcp_client.py:147-149 | returns `result.tools` whenever the reply holds it. A reply without a result, or whose result dictionary has no tools, gives an empty list. Two dictionary levels never raise; a null, boolean or number reply raises the `in` TypeError |
| `Client.ReportsProtocolShape` | backend/app/services/mcp_client.py:203-203 | a connection test passes iff the reply has a `result` that contains `protocolVersion` |
| `Client.OrEmpty` | backend/app/services/mcp_client.py:35-35 | a non-empty reply is returned as it is. A missing or empty reply becomes `{}` |
| `Client.InitializeLocal` | backend/app/services/mcp_client.py:11-50 | initialize is sent first. The initialized notification follows iff the reply is truthy in Python's sense (a non-empty dict, list or string, `true`, or a non-zero number). The reply, or `{}`, is returned |
| `Client.ListLocalTools` | backend/app/services/mcp_client.py:107-124 | one `tools/list` request. The tools of the reply are returned, or an empty list when there is no usable reply or its result lists no tools |
| `Client.CallLocalTool` | backend/app/services/mcp_client.py:153-169 | one `tools/call` request. The reply, or `{}`, is returned |
| `Client.TestLocal` | backend/app/services/mcp_client.py:197-205 | sends nothing and fails when the server is not running. Otherwise it initializes and passes iff the reply reports a protocol version |
| `Client.InitializeRemote` | backend/app/services/mcp_client.py:52-89 | initialize is posted with the User-Agent headers. After a delivered reply, the notification is posted with the same headers and the body is returned. A transport failure gives the error "Failed to initialize MCP connection: ..." |
| `Client.ListRemoteTools` | backend/app/services/mcp_client.py:126-151 | one `tools/list` post without a User-Agent. The tools of a delivered reply are returned, an empty list when its result lists no tools. A transport failure gives "Failed to list tools: " and its detail; every error carries that prefix |
| `Client.CallRemoteTool` | backend/app/services/mcp_client.py:171-195 | one `tools/call` post. A delivered body is returned, and a failure gives "Failed to call tool <name>: ..." |
| `Client.TestRemote` | backend/app/services/mcp_client.py:207-213 | passes iff the reply was delivered and reports a protocol version |
| `Client.TestsAgree` | backend/app/services/mcp_client.py:197-213 | given the same non-empty reply, the local and remote connection tests give the same verdict |
| `Schemas.ParseProvider` | backend/app/models/schemas.py:5-8 | a text names a provider iff it is that provider's value. Any other text is rejected |
| `Schemas.ProviderRoundTrip` | backend/app/models/schemas.py:5-8 | every provider's value parses back to that provider |
| `Schemas.DefaultServerCreate` | backend/app/models/schemas.py:25-33 | a registration that only names the server is remote, auto-started, with every optional field absent |
| `Schemas.ValidateServerConfig` | backend/app/models/schemas.py:35-45 | accepts iff a remote server has a non-empty URL or a local server has a non-empty command. Each rejection carries its own message |
| `Schemas.DefaultsNeedUrl` | backend/app/models/schemas.py:27-39 | a registration that only names the server is rejected for its missing URL |
| `Schemas.Message` | backend/app/models/schemas.py:72-76 | a chat message defaults to no tool calls and no tool-call id |
| `Schemas.DefaultChatRequest` | backend/app/models/schemas.py:78-82 | a chat request defaults to an empty history, no configuration and tools included |
| `Schemas.Answer` | backend/app/models/schemas.py:93-95 | a tool-call answer with no error text |
| `Base64.Encode` | backend/app/core/database.py:119-119 | the encoding is ASCII, and its length is four characters for every started group of three bytes |
| `Base64.DecodeEncode` | backend/app/core/database.py:117-123 | decoding what was base64-encoded gives the bytes back |
| `Utf8.DecodeEncode` | backend/app/core/database.py:117-123 | decoding the UTF-8 encoding of a text gives the text back |
| `Database.EncodeApiKey` | backend/app/core/database.py:117-119 | the stored key is the base64 text of the key's UTF-8 bytes. It is ASCII, and empty exactly when the key is |
| `Database.DecodeApiKey` | backend/app/core/database.py:121-123 | decoding succeeds iff the text is valid base64 whose bytes are valid UTF-8 |
| `Database.ApiKeyRoundTrip` | backend/app/core/database.py:117-123 | a stored key decodes back to the original key |
| `Database.NextId` | backend/app/core/database.py:22-22 | an AUTOINCREMENT id exceeds the table's counter and every id in the table, and is one more than the largest of them |
| `Database.AddLlmConfig` | backend/app/core/database.py:126-134 | fails with the UNIQUE error iff the name is taken. Otherwise it appends an inactive row with the encoded key and a fresh id, and returns that id; other tables are untouched and the constraints still hold |
| `Database.GetLlmConfigWithKey` | backend/app/core/database.py:153-171 | none iff no row has the id. The key is absent iff the stored hash is empty. Otherwise it is undecodable iff decoding fails, and the decoded key otherwise |
| `Database.StoredKeyReadsBack` | backend/app/core/database.py:126-171 | reading a new configuration back returns its row and its original key (absent for an empty key) |
| `Database.SetActiveLlm` | backend/app/core/database.py:142-146 | changes only the active flags, and nothing else in any table |
| `Database.OnlyTargetActive` | backend/app/core/database.py:142-146 | afterwards a row is active iff it has the id. At most one row is active, and one is iff the id exists |
| `Database.AddMcpServer` | backend/app/core/database.py:174-185 | fails with the UNIQUE error iff the name is taken. Otherwise it appends a row with a fresh id and the column defaults (stopped, enabled, disconnected), holding an encoded key iff a non-empty key was given |
| `Database.UpdateServerStatus` | backend/app/core/database.py:207-210 | only the status of the row with the id changes |
| `Database.UpdateProcessStatus` | backend/app/core/database.py:212-215 | only the process status of the row with the id changes |
| `Database.StatusUpdatesIndependent` | backend/app/core/database.py:207-215 | the two updates commute, a second status update overrides the first, and both keep the constraints |
| `Database.BindText` | backend/app/core/database.py:235-238 | binding fails iff the value is a list or dict. None binds as NULL and a string as itself |
| `Database.ToolSchema` | backend/app/core/database.py:234-234 | `inputSchema` when present, else `schema`, else `{}` |
| `Database.ToolFields` | backend/app/core/database.py:232-238 | a tool yields a row iff it is a dict with a bindable name and description. Each failure carries the exception text of the source |
| `Database.Without` | backend/app/core/database.py:236-236 | the rows other than the one with this server and name, in order. The uniqueness constraints are kept |
| `Database.Replace` | backend/app/core/database.py:235-238 | INSERT OR REPLACE removes the row with the same server and name and appends a fresh, enabled row with a new id |
| `Database.ReplaceKeepsOthers` | backend/app/core/database.py:235-238 | rows of other servers are untouched, and every new row belongs to this server and is enabled |
| `Database.ReplaceStores` | backend/app/core/database.py:235-238 | the tool is stored afterwards, and every tool stored before still is |
| `Database.ReplaceValid` | backend/app/core/database.py:100-108 | INSERT OR REPLACE keeps ids unique and (server, name) unique |
| `Database.AddMcpTools` | backend/app/core/database.py:228-238 | succeeds iff every tool is insertable; otherwise the whole batch is rolled back. Rows of other servers are unchanged, new rows are enabled rows of this server, and every tool's name ends up stored |
| `Database.AddMcpToolsValid` | backend/app/core/database.py:228-238 | a committed batch keeps all table constraints |
| `Database.GetServerTools` | backend/app/core/database.py:240-248 | exactly the summaries of this server's rows. Under the constraints their names and ids are distinct |
| `Database.AddedToolsListed` | backend/app/core/database.py:228-248 | every tool of a committed batch is then listed, enabled, for its server |
| `Database.AddStoredKeepsCount` | backend/app/core/database.py:235-238 | re-adding tools that are already stored keeps the number of rows |
| `Database.ReAddReplaces` | backend/app/core/database.py:228-238 | adding the same batch twice succeeds and leaves as many rows as adding it once |
| `Routes.Classify` | backend/app/api/routes.py:448-454 | an `error` key means failure with its value. Otherwise a `result` key means success with its value. Anything else fails with "Invalid response format from MCP server" |
| `Routes.ErrorMessage` | backend/app/api/routes.py:474-474 | a dict's `message` entry when present. Otherwise `str` of the error |
| `Routes.CallTool` | backend/app/api/routes.py:456-505 | a missing server gives "404: Server not found". A first success is answered at once. A failed result whose error message is not a string fails with Python's "object has no attribute 'lower'" text. A validation message with a correction is retried exactly once, with the corrector's arguments. With no correction, or without validation wording, the original message is reported with no retry. A failed retry reports the original message. Exceptions become the error text |
| `Routes.FailureReportsOriginalMessage` | backend/app/api/routes.py:488-501 | after a failed first attempt whose error message is a string, a failure reports that message: when no retry is made, and when the retry replied without success. A retry that raised reports its own exception text instead (stated by `Routes.CallTool`) |
| `Routes.NoRetryWithoutValidationWords` | backend/app/api/routes.py:477-501 | without "invalid", "required" or "expected" in the message, no retry is made |
| `Routes.StatusAfter` | backend/app/api/routes.py:287-290 | "error" iff the process exited with a non-zero code. Otherwise "stopped" |
| `Routes.StatusAfterAgrees` | backend/app/api/routes.py:283-290 | the recorded status is "error" iff the manager reports "error" and the exit code is not zero |
| `Routes.ServerHealth` | backend/app/api/routes.py:267-297 | a missing or remote server gives its error and no change. For a local server the manager's health report is always returned. A non-running server triggers the dead-process cleanup and the two status updates |
| `Routes.MarkedRow` | backend/app/api/routes.py:255-257 | a marked server is recorded as stopped, with status error after a non-zero exit |
| `Routes.MarkRows` | backend/app/api/routes.py:250-257 | exactly the local rows whose report says not running are marked. Other rows and tables are unchanged |
| `Routes.AllServersHealth` | backend/app/api/routes.py:239-262 | returns every managed process's report and the number cleaned up. Dead processes leave the manager. Rows are marked only if something was cleaned |
| `Routes.SchemaFrom` | backend/app/api/routes.py:353-359 | a non-empty dict parsed from the stored text is used. Anything else gives the default object schema |
| `Routes.ChatToolsAsWritten` | backend/app/api/routes.py:342-368 | the offered tools are exactly the enabled tools of enabled, connected servers, each with the default schema |
| `Routes.ChatTools` | backend/app/api/routes.py:342-368 | the offered tools are exactly the enabled tools of enabled, connected servers, each with its stored schema when that parses to a non-empty dict |
| `Routes.AsWrittenDropsSchema` | backend/app/api/routes.py:346-357 | a tool with a non-default stored schema is offered with it by the corrected listing and never by the listing as written |
| `Routes.RegisteredSchemaReachesChat` | backend/app/api/routes.py:346-368 | a tool registered with an `inputSchema` on an enabled, connected server is offered to the model with that schema |
| `LlmService.CleanBaseUrl` | backend/app/services/llm_service.py:15-19 | one trailing `/chat/completions` is removed from the base URL. Any other URL is kept. An empty or missing URL, or one that is exactly `/chat/completions`, means the default |
| `LlmService.SuffixRemovedOnce` | backend/app/services/llm_service.py:18-19 | a URL ending in the suffix twice loses only one copy |
| `LlmService.GeminiModel` | backend/app/services/llm_service.py:27-27 | the configured model, or `gemini-pro` when it is empty |
| `LlmService.BedrockCredentials` | backend/app/services/llm_service.py:28-34 | a key without a colon is the access key with an empty secret. Otherwise the text before the first colon is the access key and the text up to the next colon the secret. The region is the base URL or us-east-1 |
| `LlmService.Setup` | backend/app/services/llm_service.py:15-34 | each provider gets its client from the corresponding parameters. An unknown provider gets none |
| `LlmService.ConvertToolCall` | backend/app/services/llm_service.py:82-89 | a tool call in OpenAI's form: its id, type function, and its name with its arguments as JSON text |
| `LlmService.ConvertMessage` | backend/app/services/llm_service.py:68-95 | role and content are kept. A tool message also gets its call id. An assistant message with tool calls gets them converted. Nothing else is added |
| `LlmService.ConvertMessages` | backend/app/services/llm_service.py:50-95 | one converted message per message, in order |
| `LlmService.BuildOpenAiRequest` | backend/app/services/llm_service.py:97-106 | the model, the converted messages and 1000 tokens. Tools, and tool choice auto, iff a non-empty tool list is given |
| `LlmService.PromptLinesRecoverable` | backend/app/services/llm_service.py:130-130 | when no role or content contains a newline, splitting the prompt at newlines gives one `role: content` line per message |
| `LlmService.BedrockRequest` | backend/app/services/llm_service.py:142-149 | the prompt is the conversation between the Human turn and the Assistant cue. The stop sequence is the Human turn, with 1000 tokens |
| `Text.StripEmptyIffBlank` | backend/app/services/local_mcp_manager.py:256-256 | a stripped line is empty iff it consists only of whitespace |

## Left out

- Process plumbing is outside the model: spawning, pipes, `select`, time-outs, sleeping, log files and `which`. Their
  outcomes are parameters: each poll, the spawn result, the termination outcome, the line read, and the verdict of
  `validate_command`. `startup_cleanup` is not modelled.
- Single-poll snapshot: each operation of the supervisor and the health routes sees one answer per process for the
  whole call. In the source a process could exit between two polls of the same call.
- The HTTP transport and the LLM SDKs (OpenAI, Gemini, Bedrock) are outside the model. A reply is a parameter. Reading
  the model's answer (`generate_response`'s result dict, the chat endpoint's answer assembly) is left out because it
  only copies SDK fields.
- The SQLite engine itself is modelled only by its observable effect on the three tables. The engine is left out:
  connections, foreign keys, `ON DELETE CASCADE`, the `ALTER TABLE` migrations and `created_at`.
- The remaining database methods are left out because they are single-statement reads, toggles or deletes that no
  modelled property uses: `get_llm_configs`, `delete_llm_config`, `get_mcp_servers`, `get_mcp_server_with_key`,
  `toggle_server_enabled`, `delete_mcp_server` and `toggle_tool_enabled`. `hash_api_key` (SHA-256) is only used for
  legacy rows.
- The remaining routes are left out because they only forward to the database or the manager: LLM configs, server
  creation, start and stop, toggling, deletion, and the rest of `chat`.
- `str.lower` is modelled for ASCII letters only. Unicode case mapping is left out.
- Floats are left out. A correction's confidence is kept in hundredths. The temperature 0.7 is not part of the
  request records. `json.dumps` is modelled for null, booleans, integers, strings, lists and dicts.
- `Database.GetServerTools`: SQL leaves the row order unspecified. The model returns rows in insertion (rowid) order,
  and its contract speaks only of membership and distinctness.
- Exception detail texts from outside the model are inputs: an HTTP error's text and the exception a tool call raises.
  The same holds for error texts from the corrector's `except` arm, which cannot be reached with string keys.
- `Routes.CallTool`: the remote path's `get_mcp_server_with_key` lookup and key decoding are part of the call attempt
  the caller supplies.
- `Supervisor.Start`: the interval between a crash and the final check is a poll answer like any other. Real timing
  is not modelled.
- `Supervisor.SendRequest`: a `json.loads` result that is not a dict is still returned as the response, as in the
  source.

## Findings

| source | as written | input that shows it | evidently intended | confidence | as-written member | corrected member |
|---|---|---|---|---|---|---|
| backend/app/api/routes.py:346-368 | `chat` reads each tool's schema with `tool.get("schema", "{}")`, but `get_server_tools` (backend/app/core/database.py:240-248) never selects the `schema` column. Every tool is therefore offered with the default `{"type": "object", "properties": {}}` | a tool registered through `add_mcp_tools` with `inputSchema` `{"type": "object", "properties": {"query": {"type": "string"}}, "required": ["query"]}` on an enabled, connected server is offered to the model with no parameters | the stored schema of each tool reaches the model, as the comment "Parse stored schema" says | not executed | `Routes.AsWrittenDropsSchema` | `Routes.RegisteredSchemaReachesChat` |

=== FILE: base64.dfy ===
/**
 * Base64 with the standard alphabet and `=` padding (section 4 of RFC 4648),
 * as Python's `base64.b64encode` writes it and as `base64.b64decode` in its
 * default, non-validating mode reads it: characters outside the alphabet are
 * skipped, a complete padding sequence ends the input, and a final group that
 * is neither complete nor padded is an error.
 */
module Base64 {
  import opened Wrappers
  import opened Utf8

  /** The padding character `=`. */
  const Pad: Byte := 0x3d

  /** The alphabet character for a six-bit value. */
  function Letter(v: nat): (b: Byte)
    requires v < 64
    ensures b < 0x80 && b != Pad
  {
    if v < 26 then 0x41 + v
    else if v < 52 then 0x61 + (v - 26)
    else if v < 62 then 0x30 + (v - 52)
    else if v == 62 then 0x2b
    else 0x2f
  }

  /** The six-bit value of an alphabet character; `None` for every other byte. */
  function Value(b: Byte): (r: Option<nat>)
    ensures r.Some? ==> r.value < 64 && Letter(r.value) == b
  {
    if 0x41 <= b <= 0x5a then Some(b - 0x41)
    else if 0x61 <= b <= 0x7a then Some(b - 0x61 + 26)
    else if 0x30 <= b <= 0x39 then Some(b - 0x30 + 52)
    else if b == 0x2b then Some(62)
    else if b == 0x2f then Some(63)
    else None
  }

  /** Reading a letter back gives the value it was written for. */
  lemma ValueLetter(v: nat)
    requires v < 64
    ensures Value(Letter(v)) == Some(v)
  {
  }

  /** Every byte of `bs` is ASCII. */
  predicate IsAscii(bs: seq<Byte>) {
    forall i :: 0 <= i < |bs| ==> bs[i] < 0x80
  }

  /** Three bytes as four letters. */
  function EncodeGroup(b0: Byte, b1: Byte, b2: Byte): seq<Byte> {
    [Letter(b0 / 4), Letter(b0 % 4 * 16 + b1 / 16), Letter(b1 % 16 * 4 + b2 / 64), Letter(b2 % 64)]
  }

  /** `base64.b64encode(bs)`: four letters per three bytes, the last group padded with `=`. */
  function Encode(bs: seq<Byte>): (r: seq<Byte>)
    ensures |r| % 4 == 0
    ensures |r| == (|bs| + 2) / 3 * 4
    ensures IsAscii(r)
  {
    if |bs| == 0 then []
    else if |bs| == 1 then [Letter(bs[0] / 4), Letter(bs[0] % 4 * 16), Pad, Pad]
    else if |bs| == 2 then [Letter(bs[0] / 4), Letter(bs[0] % 4 * 16 + bs[1] / 16), Letter(bs[1] % 16 * 4), Pad]
    else EncodeGroup(bs[0], bs[1], bs[2]) + Encode(bs[3..])
  }

  /** `Some(x :: rest)` when the rest decoded, else the failure. */
  function Cons(x: Byte, rest: Option<seq<Byte>>): (r: Option<seq<Byte>>)
    ensures r.Some? <==> rest.Some?
  {
    match rest
    case None => None
    case Some(t) => Some([x] + t)
  }

  /**
   * The non-strict decoding loop from the data position `quad` (0 to 3) of
   * the current group: `left` holds the bits not yet written and `pads` the
   * `=` seen since the last letter. A `=` counts only once two letters of the
   * group are in, and ends the input when it completes the group. At the end
   * of the input, a group with letters in it is an error.
   */
  function Run(input: seq<Byte>, quad: nat, left: nat, pads: nat): Option<seq<Byte>>
    requires quad < 4
    requires quad == 0 ==> left == 0
    requires quad == 1 ==> left < 64
    requires quad == 2 ==> left < 16
    requires quad == 3 ==> left < 4
    decreases |input|
  {
    if |input| == 0 then (if quad == 0 then Some([]) else None)
    else
      var c := input[0];
      var rest := input[1..];
      if c == Pad then
        if quad >= 2 && quad + pads + 1 >= 4 then Some([])
        else Run(rest, quad, left, if quad >= 2 then pads + 1 else pads)
      else match Value(c)
        case None => Run(rest, quad, left, pads)
        case Some(v) =>
          if quad == 0 then Run(rest, 1, v, 0)
          else if quad == 1 then Cons(left * 4 + v / 16, Run(rest, 2, v % 16, 0))
          else if quad == 2 then Cons(left * 16 + v / 4, Run(rest, 3, v % 4, 0))
          else Cons(left * 64 + v, Run(rest, 0, 0, 0))
  }

  /** `base64.b64decode(bs)`: `None` where Python raises `binascii.Error`. */
  function Decode(bs: seq<Byte>): Option<seq<Byte>> {
    Run(bs, 0, 0, 0)
  }

  /** One step of the loop on an alphabet letter. */
  lemma StepLetter(input: seq<Byte>, quad: nat, left: nat, v: nat)
    requires |input| > 0 && v < 64 && input[0] == Letter(v)
    requires quad < 4
    requires quad == 0 ==> left == 0
    requires quad == 1 ==> left < 64
    requires quad == 2 ==> left < 16
    requires quad == 3 ==> left < 4
    ensures quad == 0 ==> Run(input, quad, left, 0) == Run(input[1..], 1, v, 0)
    ensures quad == 1 ==> Run(input, quad, left, 0) == Cons(left * 4 + v / 16, Run(input[1..], 2, v % 16, 0))
    ensures quad == 2 ==> Run(input, quad, left, 0) == Cons(left * 16 + v / 4, Run(input[1..], 3, v % 4, 0))
    ensures quad == 3 ==> Run(input, quad, left, 0) == Cons(left * 64 + v, Run(input[1..], 0, 0, 0))
  {
    ValueLetter(v);
  }

  /** The four sextets of a group put back together give its three bytes. */
  lemma GroupArithmetic(b0: Byte, b1: Byte, b2: Byte)
    ensures b0 / 4 * 4 + (b0 % 4 * 16 + b1 / 16) / 16 == b0
    ensures (b0 % 4 * 16 + b1 / 16) % 16 == b1 / 16
    ensures b1 / 16 * 16 + (b1 % 16 * 4 + b2 / 64) / 4 == b1
    ensures (b1 % 16 * 4 + b2 / 64) % 4 == b2 / 64
    ensures b2 / 64 * 64 + b2 % 64 == b2
  {
  }

  /** One full group decodes to its three bytes ahead of whatever follows. */
  lemma DecodeGroup(b0: Byte, b1: Byte, b2: Byte, rest: seq<Byte>)
    ensures Run(EncodeGroup(b0, b1, b2) + rest, 0, 0, 0) == Cons(b0, Cons(b1, Cons(b2, Run(rest, 0, 0, 0))))
  {
    var s0, s1, s2, s3 := b0 / 4, b0 % 4 * 16 + b1 / 16, b1 % 16 * 4 + b2 / 64, b2 % 64;
    var e := EncodeGroup(b0, b1, b2) + rest;
    var e1, e2, e3 := e[1..], e[2..], e[3..];
    assert e1[1..] == e2 && e2[1..] == e3 && e3[1..] == rest;
    GroupArithmetic(b0, b1, b2);
    StepLetter(e, 0, 0, s0);
    StepLetter(e1, 1, s0, s1);
    StepLetter(e2, 2, s1 % 16, s2);
    StepLetter(e3, 3, s2 % 4, s3);
  }

  /** A final group holding one byte, `xy==`, decodes to that byte. */
  lemma DecodeOne(b0: Byte)
    ensures Decode(Encode([b0])) == Some([b0])
  {
    var s0, s1 := b0 / 4, b0 % 4 * 16;
    var e := Encode([b0]);
    assert e == [Letter(s0), Letter(s1), Pad, Pad];
    assert e[1..][1..] == [Pad, Pad] && [Pad, Pad][1..] == [Pad];
    StepLetter(e, 0, 0, s0);
    StepLetter(e[1..], 1, s0, s1);
    assert Run([Pad, Pad], 2, 0, 0) == Run([Pad], 2, 0, 1) == Some([]);
    assert s0 * 4 + s1 / 16 == b0;
    assert s1 % 16 == 0;
    assert Run(e[1..], 1, s0, 0) == Cons(b0, Run([Pad, Pad], 2, 0, 0));
    assert [b0] + [] == [b0];
  }

  /** A final group holding two bytes, `xyz=`, decodes to those bytes. */
  lemma DecodeTwo(b0: Byte, b1: Byte)
    ensures Decode(Encode([b0, b1])) == Some([b0, b1])
  {
    var s0, s1, s2 := b0 / 4, b0 % 4 * 16 + b1 / 16, b1 % 16 * 4;
    var e := Encode([b0, b1]);
    assert e == [Letter(s0), Letter(s1), Letter(s2), Pad];
    var e1, e2 := e[1..], e[2..];
    assert e1[1..] == e2 && e2[1..] == [Pad];
    GroupArithmetic(b0, b1, 0);
    StepLetter(e, 0, 0, s0);
    StepLetter(e1, 1, s0, s1);
    StepLetter(e2, 2, s1 % 16, s2);
    assert s2 % 4 == 0;
    assert Run([Pad], 3, 0, 0) == Some([]);
    assert Run(e2, 2, s1 % 16, 0) == Cons(b1, Some([]));
    assert [b0] + ([b1] + []) == [b0, b1];
  }

  /** `b64decode(b64encode(bs)) == bs` for every byte string. */
  lemma {:induction false} DecodeEncode(bs: seq<Byte>)
    ensures Decode(Encode(bs)) == Some(bs)
    decreases |bs|
  {
    if |bs| == 0 {
    } else if |bs| == 1 {
      DecodeOne(bs[0]);
      assert bs == [bs[0]];
    } else if |bs| == 2 {
      DecodeTwo(bs[0], bs[1]);
      assert bs == [bs[0], bs[1]];
    } else {
      var rest := Encode(bs[3..]);
      assert Encode(bs) == EncodeGroup(bs[0], bs[1], bs[2]) + rest;
      DecodeGroup(bs[0], bs[1], bs[2], rest);
      DecodeEncode(bs[3..]);
      assert bs == [bs[0]] + ([bs[1]] + ([bs[2]] + bs[3..]));
    }
  }
}

=== FILE: client.dfy ===
/**
 * The MCP client's message layer: the JSON-RPC 2.0 requests and
 * notifications it builds (sections 4 and 4.1 of the JSON-RPC 2.0
 * Specification), the HTTP headers of the remote variant, and what it takes
 * out of the replies (section 5).
 *
 * Transport is a parameter. A local reply is whatever the supervisor's
 * `send_request` returned, `None` included. A remote reply is an
 * `HttpReply`. Request ids come from `uuid4()` in the source and are
 * parameters here.
 */
module Client {
  import opened Wrappers
  import opened Dict
  import opened Json
  import opened Text

  const ProtocolVersion: string := "2025-06-18"

  // ---------------------------------------------------------------------------
  // JSON-RPC 2.0 message shapes

  /** A JSON-RPC 2.0 Request object: version "2.0", a method name, parameters, and an id. */
  predicate IsRequest(j: Json) {
    && Index(j, "jsonrpc") == Ok(Str("2.0"))
    && Index(j, "method").Ok? && Index(j, "method").value.Str?
    && Index(j, "id").Ok? && Index(j, "id").value.Str?
  }

  /** A JSON-RPC 2.0 Notification: a Request object without an `id` member. */
  predicate IsNotification(j: Json) {
    && Index(j, "jsonrpc") == Ok(Str("2.0"))
    && Index(j, "method").Ok? && Index(j, "method").value.Str?
    && Index(j, "id").Err?
  }

  /** `{"jsonrpc": "2.0", "id": id, "method": name, "params": params}` */
  function Request(id: string, name: string, params: Json): (r: Json)
    ensures IsRequest(r)
    ensures Index(r, "id") == Ok(Str(id))
    ensures Index(r, "method") == Ok(Str(name))
    ensures Index(r, "params") == Ok(params)
    ensures r.Obj? && Keys(r.entries) == ["jsonrpc", "id", "method", "params"]
  {
    var es := [Entry("jsonrpc", Str("2.0")), Entry("id", Str(id)), Entry("method", Str(name)), Entry("params", params)];
    assert "params"[0] != "method"[0];
    GetAt(es, 1);
    GetAt(es, 2);
    GetAt(es, 3);
    Obj(es)
  }

  /** The `initialize` parameters: protocol version, the two capabilities, and the client's identity. */
  function InitializeParams(): (r: Json)
    ensures Index(r, "protocolVersion") == Ok(Str(ProtocolVersion))
    ensures r.Obj? && Keys(r.entries) == ["protocolVersion", "capabilities", "clientInfo"]
  {
    Obj([
      Entry("protocolVersion", Str(ProtocolVersion)),
      Entry("capabilities", Obj([Entry("tools", EmptyObj), Entry("logging", EmptyObj)])),
      Entry("clientInfo", Obj([Entry("name", Str("simple-mcp-chat-client")), Entry("version", Str("1.0.0"))]))])
  }

  /** The `initialize` request, the same for local and remote servers. */
  function InitializeRequest(id: string): (r: Json)
    ensures IsRequest(r) && Index(r, "method") == Ok(Str("initialize"))
    ensures Index(r, "id") == Ok(Str(id))
  {
    Request(id, "initialize", InitializeParams())
  }

  /** Two `initialize` requests differ in their id and nowhere else. */
  lemma InitializeDiffersOnlyInId(a: string, b: string)
    ensures InitializeRequest(a).entries[1 := Entry("id", Str(b))] == InitializeRequest(b).entries
  {
  }

  /** The capabilities offered are exactly `tools` and `logging`, both empty. */
  lemma CapabilitiesExactly()
    ensures Index(InitializeParams(), "capabilities") == Ok(Obj([Entry("tools", EmptyObj), Entry("logging", EmptyObj)]))
  {
  }

  /** `{"jsonrpc": "2.0", "method": "notifications/initialized", "params": {}}` */
  function InitializedNotification(): (r: Json)
    ensures IsNotification(r)
    ensures Index(r, "method") == Ok(Str("notifications/initialized"))
    ensures Index(r, "params") == Ok(EmptyObj)
  {
    var es := [Entry("jsonrpc", Str("2.0")), Entry("method", Str("notifications/initialized")), Entry("params", EmptyObj)];
    assert "params"[0] != "method"[0];
    GetAt(es, 1);
    GetAt(es, 2);
    assert forall j :: 0 <= j < |es| ==> es[j].key != "id";
    Obj(es)
  }

  /** The `tools/list` request. */
  function ListToolsRequest(id: string): (r: Json)
    ensures IsRequest(r) && Index(r, "method") == Ok(Str("tools/list"))
    ensures Index(r, "params") == Ok(EmptyObj)
  {
    Request(id, "tools/list", EmptyObj)
  }

  /** The `tools/call` request: its parameters are exactly the tool name and the arguments as given. */
  function CallToolRequest(id: string, name: string, arguments: Json): (r: Json)
    ensures IsRequest(r) && Index(r, "method") == Ok(Str("tools/call"))
    ensures Index(r, "params") == Ok(Obj([Entry("name", Str(name)), Entry("arguments", arguments)]))
  {
    Request(id, "tools/call", Obj([Entry("name", Str(name)), Entry("arguments", arguments)]))
  }

  // ---------------------------------------------------------------------------
  // HTTP headers

  /**
   * The headers of a remote call: JSON in both directions, a user agent on
   * `initialize` only, and `Authorization: ApiKey <key>` when a key is given.
   */
  function Headers(apiKey: Option<string>, withUserAgent: bool): (r: seq<Entry<string, string>>)
    ensures Get(r, "Content-Type") == Some("application/json")
    ensures Get(r, "Accept") == Some("application/json")
    ensures HasKey(r, "User-Agent") <==> withUserAgent
    ensures HasKey(r, "Authorization") <==> Given(apiKey)
    ensures Given(apiKey) ==> Get(r, "Authorization") == Some("ApiKey " + apiKey.value)
  {
    var base := [Entry("Content-Type", "application/json"), Entry("Accept", "application/json")];
    var agent := if withUserAgent then base + [Entry("User-Agent", "simple-mcp-chat-client/1.0")] else base;
    assert forall j :: 0 <= j < |agent| ==> agent[j].key != "Authorization";
    assert withUserAgent ==> agent[2].key == "User-Agent";
    assert !withUserAgent ==> forall j :: 0 <= j < |agent| ==> agent[j].key != "User-Agent";
    assert HasKey(agent, "User-Agent") == withUserAgent;
    GetAt(agent, 0);
    GetAt(agent, 1);
    if Given(apiKey) then
      var r := Put(agent, "Authorization", "ApiKey " + apiKey.value);
      assert Get(r, "User-Agent") == Get(agent, "User-Agent");
      assert Get(r, "Accept") == Get(agent, "Accept");
      assert Get(r, "Content-Type") == Get(agent, "Content-Type");
      r
    else agent
  }

  // ---------------------------------------------------------------------------
  // Replies

  /** What an HTTP POST gave back: a decoded body, or the text of what was raised on the way. */
  datatype HttpReply =
    | Delivered(body: Json)
    | Failed(detail: string)   // transport error, error status, or undecodable body

  /** One HTTP POST of a JSON body. */
  datatype Post = Post(url: string, body: Json, headers: seq<Entry<string, string>>)

  /** `result["result"]["tools"]` when both levels are dictionaries holding the key. */
  ghost predicate ListsTools(j: Json, tools: Json) {
    && j.Obj?
    && Get(j.entries, "result").Some?
    && Get(j.entries, "result").value.Obj?
    && Get(Get(j.entries, "result").value.entries, "tools") == Some(tools)
  }

  /** Both levels are dictionaries, but the inner one has no `tools` key. */
  ghost predicate ListsNoTools(j: Json) {
    && j.Obj?
    && Get(j.entries, "result").Some?
    && Get(j.entries, "result").value.Obj?
    && !HasKey(Get(j.entries, "result").value.entries, "tools")
  }

  /**
   * `result["result"]["tools"] if "result" in result and "tools" in
   * result["result"] else []`, with the `TypeError` Python raises when a
   * level is not a container or is a list or string holding the key.
   */
  function ToolsOf(j: Json): (r: Result<Json>)
    ensures forall tools :: ListsTools(j, tools) ==> r == Ok(tools)
    ensures r.Ok? && r.value != Arr([]) ==> ListsTools(j, r.value)
    ensures j.Obj? && !HasKey(j.entries, "result") ==> r == Ok(Arr([]))
    ensures ListsNoTools(j) ==> r == Ok(Arr([]))
    ensures j.Obj? && (HasKey(j.entries, "result") ==> Get(j.entries, "result").value.Obj?) ==> r.Ok?
    ensures j.Null? || j.Bool? || j.Num? ==> r.Err?
  {
    var hasResult :- In("result", j);
    if !hasResult then Ok(Arr([]))
    else
      var inner :- Index(j, "result");
      var hasTools :- In("tools", inner);
      if !hasTools then Ok(Arr([])) else Index(inner, "tools")
  }

  /**
   * `"result" in result and "protocolVersion" in result.get("result", {})`,
   * false where Python raises (the caller catches everything).
   */
  predicate ReportsProtocol(j: Json) {
    && In("result", j) == Ok(true)
    && GetOrDefault(j, "result", EmptyObj).Ok?
    && In("protocolVersion", GetOrDefault(j, "result", EmptyObj).value) == Ok(true)
  }

  /** Only a dictionary with a `result` member that holds `protocolVersion` passes the connection test. */
  lemma ReportsProtocolShape(j: Json)
    ensures ReportsProtocol(j) <==>
      j.Obj? && HasKey(j.entries, "result") && In("protocolVersion", GetOr(j.entries, "result", EmptyObj)) == Ok(true)
  {
  }

  // ---------------------------------------------------------------------------
  // Local servers, through the supervisor

  /** The messages handed to `send_request`, and what the call returned or raised. */
  datatype LocalCall = LocalCall(sent: seq<Json>, result: Result<Json>)

  /** `reply or {}` */
  function OrEmpty(reply: Option<Json>): (r: Json)
    ensures reply.Some? && Truthy(reply.value) ==> r == reply.value
    ensures !(reply.Some? && Truthy(reply.value)) ==> r == EmptyObj
  {
    if reply.Some? && Truthy(reply.value) then reply.value else EmptyObj
  }

  /**
   * `initialize_local_connection(id)`: the `initialize` request goes out,
   * the `initialized` notification follows only when the reply is truthy,
   * and the reply is returned, `{}` when there was none.
   */
  function InitializeLocal(requestId: string, reply: Option<Json>): (r: LocalCall)
    ensures |r.sent| >= 1 && r.sent[0] == InitializeRequest(requestId)
    ensures |r.sent| == 2 <==> reply.Some? && Truthy(reply.value)
    ensures |r.sent| == 2 ==> IsNotification(r.sent[1]) && r.sent[1] == InitializedNotification()
    ensures |r.sent| <= 2
    ensures r.result == Ok(OrEmpty(reply))
  {
    var notify := if reply.Some? && Truthy(reply.value) then [InitializedNotification()] else [];
    LocalCall([InitializeRequest(requestId)] + notify, Ok(OrEmpty(reply)))
  }

  /** `list_local_tools(id)` */
  function ListLocalTools(requestId: string, reply: Option<Json>): (r: LocalCall)
    ensures r.sent == [ListToolsRequest(requestId)]
    ensures !(reply.Some? && Truthy(reply.value)) ==> r.result == Ok(Arr([]))
    ensures reply.Some? ==> forall tools :: ListsTools(reply.value, tools) ==> r.result == Ok(tools)
    ensures reply.Some? && ListsNoTools(reply.value) ==> r.result == Ok(Arr([]))
    ensures r.result.Err? ==> IsPrefix("Failed to list local tools: ", r.result.error)
  {
    var result :=
      if reply.Some? && Truthy(reply.value) then
        match ToolsOf(reply.value)
        case Ok(tools) => Ok(tools)
        case Err(e) => Err("Failed to list local tools: " + e)
      else Ok(Arr([]));
    LocalCall([ListToolsRequest(requestId)], result)
  }

  /** `call_local_tool(id, name, arguments)`: the reply, `{}` when there was none. */
  function CallLocalTool(requestId: string, name: string, arguments: Json, reply: Option<Json>): (r: LocalCall)
    ensures r.sent == [CallToolRequest(requestId, name, arguments)]
    ensures r.result == Ok(OrEmpty(reply))
  {
    LocalCall([CallToolRequest(requestId, name, arguments)], Ok(OrEmpty(reply)))
  }

  /**
   * `test_local_connection(id)`: false without sending anything when the
   * server is not running, else whether the `initialize` reply reports a
   * protocol version.
   */
  function TestLocal(running: bool, requestId: string, reply: Option<Json>): (r: (seq<Json>, bool))
    ensures !running ==> r == ([], false)
    ensures running ==> r.0 == InitializeLocal(requestId, reply).sent
    ensures r.1 <==> running && reply.Some? && Truthy(reply.value) && ReportsProtocol(reply.value)
  {
    if !running then ([], false)
    else
      var call := InitializeLocal(requestId, reply);
      (call.sent, ReportsProtocol(call.result.value))
  }

  // ---------------------------------------------------------------------------
  // Remote servers, over HTTP

  /** The POSTs made and what the call returned or raised. */
  datatype RemoteCall = RemoteCall(posts: seq<Post>, result: Result<Json>)

  /**
   * `initialize_connection(url, key)`: after a delivered `initialize` the
   * notification is posted with the same headers; whatever happens to it is
   * swallowed, so the result is the `initialize` reply.
   */
  function InitializeRemote(url: string, apiKey: Option<string>, requestId: string, reply: HttpReply): (r: RemoteCall)
    ensures |r.posts| >= 1 && r.posts[0] == Post(url, InitializeRequest(requestId), Headers(apiKey, true))
    ensures |r.posts| == 2 <==> reply.Delivered?
    ensures |r.posts| == 2 ==> r.posts[1] == Post(url, InitializedNotification(), Headers(apiKey, true))
    ensures |r.posts| <= 2
    ensures reply.Delivered? ==> r.result == Ok(reply.body)
    ensures reply.Failed? ==> r.result == Err("Failed to initialize MCP connection: " + reply.detail)
  {
    var headers := Headers(apiKey, true);
    var first := Post(url, InitializeRequest(requestId), headers);
    match reply
    case Delivered(body) => RemoteCall([first, Post(url, InitializedNotification(), headers)], Ok(body))
    case Failed(detail) => RemoteCall([first], Err("Failed to initialize MCP connection: " + detail))
  }

  /** `list_tools(url, key)` */
  function ListRemoteTools(url: string, apiKey: Option<string>, requestId: string, reply: HttpReply): (r: RemoteCall)
    ensures r.posts == [Post(url, ListToolsRequest(requestId), Headers(apiKey, false))]
    ensures reply.Delivered? ==> forall tools :: ListsTools(reply.body, tools) ==> r.result == Ok(tools)
    ensures r.result.Ok? && r.result.value != Arr([]) ==> reply.Delivered? && ListsTools(reply.body, r.result.value)
    ensures reply.Delivered? && ListsNoTools(reply.body) ==> r.result == Ok(Arr([]))
    ensures reply.Failed? ==> r.result == Err("Failed to list tools: " + reply.detail)
    ensures r.result.Err? ==> IsPrefix("Failed to list tools: ", r.result.error)
  {
    var result :=
      match reply
      case Delivered(body) =>
        (match ToolsOf(body)
         case Ok(tools) => Ok(tools)
         case Err(e) => Err("Failed to list tools: " + e))
      case Failed(detail) => Err("Failed to list tools: " + detail);
    RemoteCall([Post(url, ListToolsRequest(requestId), Headers(apiKey, false))], result)
  }

  /** `call_tool(url, name, arguments, key)`: the decoded reply, whatever its shape. */
  function CallRemoteTool(url: string, name: string, arguments: Json, apiKey: Option<string>, requestId: string, reply: HttpReply): (r: RemoteCall)
    ensures r.posts == [Post(url, CallToolRequest(requestId, name, arguments), Headers(apiKey, false))]
    ensures reply.Delivered? ==> r.result == Ok(reply.body)
    ensures reply.Failed? ==> r.result == Err("Failed to call tool " + name + ": " + reply.detail)
  {
    var post := Post(url, CallToolRequest(requestId, name, arguments), Headers(apiKey, false));
    match reply
    case Delivered(body) => RemoteCall([post], Ok(body))
    case Failed(detail) => RemoteCall([post], Err("Failed to call tool " + name + ": " + detail))
  }

  /** `test_connection(url, key)`: never raises; true exactly when the reply reports a protocol version. */
  function TestRemote(url: string, apiKey: Option<string>, requestId: string, reply: HttpReply): (r: bool)
    ensures r <==> reply.Delivered? && ReportsProtocol(reply.body)
  {
    match InitializeRemote(url, apiKey, requestId, reply).result
    case Ok(body) => ReportsProtocol(body)
    case Err(_) => false
  }

  /** Both connection tests judge a delivered reply the same way. */
  lemma TestsAgree(requestId: string, url: string, apiKey: Option<string>, body: Json)
    requires Truthy(body)
    ensures TestLocal(true, requestId, Some(body)).1 == TestRemote(url, apiKey, requestId, Delivered(body))
  {
  }
}

=== FILE: corrector.dfy ===
/**
 * The parameter corrector: given the error text an MCP server returned for a
 * tool call and the arguments of that call, it tries a fixed sequence of
 * renaming heuristics and returns the first correction found.
 *
 * The regular expressions of the source are written out as scanners:
 * `QuotedTokens` for `"([^"]+)"`, `UnderscoreTokens` for `"([^"]*_[^"]*)"`
 * and `SearchPath` for `"path":\s*\[\s*"([^"]+)"\s*\]`.
 */
module ParameterCorrector {
  import opened Wrappers
  import opened Dict
  import opened Json
  import opened Text

  /** Tool-call arguments: a Python dict, so no key occurs twice. */
  type Params = d: seq<Entry<string, Json>> | Distinct(d) witness []

  /**
   * A correction that was found. `confidence` is kept in hundredths
   * (80 stands for 0.8); nothing in the system computes with it.
   */
  datatype Correction = Correction(original: Params, corrected: Params, applied: string, confidence: nat)

  /**
   * `c` is `params` with the value `v` stored under `to` and the key `from`
   * gone (when it differs from `to`); every other key keeps its value.
   */
  ghost predicate Renames(c: Correction, params: Params, from: string, to: string, v: Json) {
    && c.original == params
    && Get(c.corrected, to) == Some(v)
    && (from != to ==> !HasKey(c.corrected, from))
    && (forall k :: k != from && k != to ==> Get(c.corrected, k) == Get(params, k))
  }

  /** `c` renames some key of `params`. */
  ghost predicate IsRename(c: Correction, params: Params) {
    exists from, to, v :: Renames(c, params, from, to, v)
  }

  /** `params.copy()`, then store `v` under `to` and drop `from` when it differs. */
  function Rename(params: Params, from: string, to: string, v: Json, applied: string, confidence: nat): (c: Correction)
    ensures Renames(c, params, from, to, v) && IsRename(c, params)
    ensures c.applied == applied && c.confidence == confidence
  {
    var moved := Move(params, from, to, v);
    assert from != to ==> Get(moved, from) == None;
    var c := Correction(params, moved, applied, confidence);
    assert Renames(c, params, from, to, v);
    c
  }

  // ---------------------------------------------------------------------------
  // Scanners standing in for the regular expressions.

  /**
   * `re.findall('"(X)"', s)` where `X` is a run of non-quote characters that
   * `accept` admits. The engine tries every start position: at a quote it
   * takes the run up to the next quote; if the run is admitted the match ends
   * after the closing quote, otherwise the next try starts one character on,
   * which may be that closing quote. So the text between two quoted tokens can
   * itself be returned as a token.
   */
  function Scan(s: string, i: nat, accept: string -> bool): (tokens: seq<string>)
    requires i <= |s|
    ensures forall j :: 0 <= j < |tokens| ==> '"' !in tokens[j] && accept(tokens[j])
    decreases |s| - i
  {
    if i == |s| then []
    else if s[i] != '"' then Scan(s, i + 1, accept)
    else match IndexOfChar(s[i + 1..], '"')
      case None => Scan(s, i + 1, accept)
      case Some(k) =>
        var t := s[i + 1..i + 1 + k];
        assert t == s[i + 1..][..k];
        if accept(t) then [t] + Scan(s, i + 2 + k, accept) else Scan(s, i + 1, accept)
  }

  predicate NonEmpty(t: string) {
    |t| > 0
  }

  predicate HasUnderscore(t: string) {
    '_' in t
  }

  /** `re.findall(r'"([^"]+)"', s)` */
  function QuotedTokens(s: string): seq<string> {
    Scan(s, 0, NonEmpty)
  }

  /** `re.findall(r'"([^"]*_[^"]*)"', s)` */
  function UnderscoreTokens(s: string): seq<string> {
    Scan(s, 0, HasUnderscore)
  }

  /** Quote-free text before position `j` is passed over by the scan. */
  lemma {:induction false} ScanFrom(s: string, i: nat, j: nat, accept: string -> bool)
    requires i <= j < |s| && '"' !in s[i..j]
    ensures Scan(s, i, accept) == Scan(s, j, accept)
    decreases j - i
  {
    if i < j {
      assert s[i] == s[i..j][0];
      assert s[i + 1..j] == s[i..j][1..];
      ScanFrom(s, i + 1, j, accept);
    }
  }

  /**
   * From `i`, the first quote is at `j` and the run after it up to the next
   * quote is admitted: that run is the next token.
   */
  lemma ScanTakes(s: string, i: nat, j: nat, k: nat, accept: string -> bool)
    requires i <= j && j + 1 + k < |s| && '"' !in s[i..j] && s[j] == '"'
    requires s[j + 1 + k] == '"' && '"' !in s[j + 1..j + 1 + k] && accept(s[j + 1..j + 1 + k])
    ensures Scan(s, i, accept) == [s[j + 1..j + 1 + k]] + Scan(s, j + 2 + k, accept)
  {
    ScanFrom(s, i, j, accept);
    ScanTakesHere(s, j, k, accept);
  }

  /** At a quote whose run is admitted, the run is the next token. */
  lemma ScanTakesHere(s: string, j: nat, k: nat, accept: string -> bool)
    requires j + 1 + k < |s| && s[j] == '"'
    requires s[j + 1 + k] == '"' && '"' !in s[j + 1..j + 1 + k] && accept(s[j + 1..j + 1 + k])
    ensures Scan(s, j, accept) == [s[j + 1..j + 1 + k]] + Scan(s, j + 2 + k, accept)
  {
    var x := s[j + 1..];
    assert x[k] == '"' && x[..k] == s[j + 1..j + 1 + k];
    IndexOfCharAt(x, '"', k);
  }

  /** At a quote whose run is not admitted, the scan moves on by one character. */
  lemma ScanSkip(s: string, i: nat, k: nat, accept: string -> bool)
    requires i + 1 + k < |s| && s[i] == '"' && s[i + 1 + k] == '"' && '"' !in s[i + 1..i + 1 + k]
    requires !accept(s[i + 1..i + 1 + k])
    ensures Scan(s, i, accept) == Scan(s, i + 1, accept)
  {
    var x := s[i + 1..];
    assert x[k] == '"' && x[..k] == s[i + 1..i + 1 + k];
    IndexOfCharAt(x, '"', k);
  }

  /**
   * The first token is the first admitted quoted run: text with no quote,
   * then `"t"` with `t` admitted, finds `t` first.
   */
  lemma ScanFirst(a: string, t: string, b: string, accept: string -> bool)
    requires '"' !in a && '"' !in t && accept(t)
    ensures var s := a + "\"" + t + "\"" + b; |Scan(s, 0, accept)| > 0 && Scan(s, 0, accept)[0] == t
  {
    var s := a + "\"" + t + "\"" + b;
    var j := |a|;
    assert s[..j] == a && s[j + 1..j + 1 + |t|] == t;
    ScanTakes(s, 0, j, |t|, accept);
  }

  /**
   * Between a quoted name without an underscore and a later quote, the text in
   * between is itself returned as the first underscore token when it has one:
   * in `"a" x_y "b"` the first token is ` x_y `.
   */
  lemma UnderscoreTokenBetweenQuotes(a: string, m: string, b: string)
    requires '"' !in a && '_' !in a && '"' !in m && '_' in m
    ensures var s := "\"" + a + "\"" + m + "\"" + b; |UnderscoreTokens(s)| > 0 && UnderscoreTokens(s)[0] == m
  {
    QuotedLayout(a, m, b);
    ScanAfterRejected("\"" + a + "\"" + m + "\"" + b, 1 + |a|, |m|, HasUnderscore);
  }

  /** A rejected quoted run is followed by an admitted one: the admitted run is the first token. */
  lemma ScanAfterRejected(s: string, j: nat, k: nat, accept: string -> bool)
    requires 1 <= j && j + 1 + k < |s| && s[0] == '"' && '"' !in s[1..j] && s[j] == '"' && !accept(s[1..j])
    requires s[j + 1 + k] == '"' && '"' !in s[j + 1..j + 1 + k] && accept(s[j + 1..j + 1 + k])
    ensures |Scan(s, 0, accept)| > 0 && Scan(s, 0, accept)[0] == s[j + 1..j + 1 + k]
  {
    ScanSkip(s, 0, j - 1, accept);
    ScanTakes(s, 1, j, k, accept);
  }

  /** Where the pieces of `"a"m"b` sit. */
  lemma QuotedLayout(a: string, m: string, b: string)
    ensures var s := "\"" + a + "\"" + m + "\"" + b; var j := 1 + |a|;
      && |s| == j + |m| + 2 + |b| && s[0] == '"' && s[1..j] == a && s[j] == '"'
      && s[j + 1..j + 1 + |m|] == m && s[j + 1 + |m|] == '"'
  {
  }

  /** The text `"path":` that starts the path pattern. */
  const PathKey: string := "\"path\":"

  /** `\s*` then the character `c`: what follows `c`, if `s` has that shape. */
  function AfterBlanks(s: string, c: char): (r: Option<string>)
    ensures r.Some? ==> |r.value| < |s|
    decreases |s|
  {
    if |s| == 0 then None
    else if s[0] == c then Some(s[1..])
    else if IsSpace(s[0]) then AfterBlanks(s[1..], c)
    else None
  }

  /** A non-empty run of non-quote characters and its closing quote: the run and what follows. */
  function QuotedRun(s: string): (r: Option<(string, string)>)
    ensures r.Some? ==> |r.value.0| > 0 && '"' !in r.value.0
  {
    match IndexOfChar(s, '"')
    case None => None
    case Some(k) => if k == 0 then None else Some((s[..k], s[k + 1..]))
  }

  /** The literal `lit` at the start of `s`: what follows it. */
  function AfterLiteral(s: string, lit: string): (r: Option<string>)
    ensures r.Some? <==> IsPrefix(lit, s)
    ensures r.Some? ==> r.value == s[|lit|..]
    decreases |lit|
  {
    if |lit| == 0 then Some(s)
    else if |s| > 0 && s[0] == lit[0] then
      var r := AfterLiteral(s[1..], lit[1..]);
      assert IsPrefix(lit[1..], s[1..]) <==> IsPrefix(lit, s) by {
        if IsPrefix(lit[1..], s[1..]) {
          assert s[..|lit|] == [s[0]] + s[1..][..|lit| - 1];
        }
        if IsPrefix(lit, s) {
          assert s[1..][..|lit| - 1] == s[..|lit|][1..];
        }
      }
      r
    else None
  }

  /**
   * The path pattern tried at position `i`: `"path":`, blanks, `[`, blanks,
   * a quoted non-empty name, blanks, `]`. Every `\s*` is followed by a
   * character that is not a blank, so no backtracking can change the match.
   */
  function MatchPathAt(s: string, i: nat): (r: Option<string>)
    requires i <= |s|
    ensures r.Some? ==> |r.value| > 0 && '"' !in r.value
  {
    match AfterLiteral(s[i..], PathKey)
    case None => None
    case Some(t) => MatchPathTail(t)
  }

  /** The path pattern after `"path":`. */
  function MatchPathTail(t: string): (r: Option<string>)
    ensures r.Some? ==> |r.value| > 0 && '"' !in r.value
  {
    match AfterBlanks(t, '[')
    case None => None
    case Some(u) =>
      match AfterBlanks(u, '"')
      case None => None
      case Some(w) =>
        match QuotedRun(w)
        case None => None
        case Some(run) => if AfterBlanks(run.1, ']').Some? then Some(run.0) else None
  }

  /** The path pattern matches at no position in `[i, p)`. */
  predicate NoPathBefore(s: string, i: nat, p: nat)
    requires i <= p <= |s|
  {
    forall q :: i <= q < p ==> MatchPathAt(s, q).None?
  }

  /** Where `re.search(...)` finds the path pattern, from position `i` on: the leftmost match. */
  function SearchPathAt(s: string, i: nat): (r: Option<nat>)
    requires i <= |s|
    ensures r.Some? ==> i <= r.value <= |s| && MatchPathAt(s, r.value).Some? && NoPathBefore(s, i, r.value)
    ensures r.None? ==> NoPathBefore(s, i, |s|) && MatchPathAt(s, |s|).None?
    decreases |s| - i
  {
    if MatchPathAt(s, i).Some? then Some(i)
    else if i == |s| then None
    else SearchPathAt(s, i + 1)
  }

  /** `re.search(...)` for the path pattern, from position `i` on: the leftmost match wins. */
  function SearchPath(s: string, i: nat): (r: Option<string>)
    requires i <= |s|
    ensures r.Some? ==> exists p :: i <= p <= |s| && MatchPathAt(s, p) == r && NoPathBefore(s, i, p)
    ensures r.Some? ==> |r.value| > 0 && '"' !in r.value
    ensures r.None? ==> forall p :: i <= p <= |s| ==> MatchPathAt(s, p).None?
  {
    match SearchPathAt(s, i)
    case None => None
    case Some(p) => MatchPathAt(s, p)
  }

  /** The path name the error text reports, if any. */
  function PathName(msg: string): Option<string> {
    SearchPath(msg, 0)
  }

  /** The path pattern recognises the form `"path": ["name"]` a validator writes. */
  lemma MatchPathOfReport(name: string, rest: string)
    requires |name| > 0 && '"' !in name
    ensures MatchPathAt(PathKey + " [\"" + name + "\"]" + rest, 0) == Some(name)
  {
    var s := PathKey + " [\"" + name + "\"]" + rest;
    var u := " [\"" + name + "\"]" + rest;
    assert s[0..] == s && s[..|PathKey|] == PathKey && s[|PathKey|..] == u;
    MatchPathTailOfReport(name, rest);
  }

  lemma MatchPathTailOfReport(name: string, rest: string)
    requires |name| > 0 && '"' !in name
    ensures MatchPathTail(" [\"" + name + "\"]" + rest) == Some(name)
  {
    var u := " [\"" + name + "\"]" + rest;
    var w := "\"" + name + "\"]" + rest;
    var x := name + "\"]" + rest;
    assert u[1..] == "[" + w && ("[" + w)[1..] == w;
    assert AfterBlanks(u, '[') == Some(w);
    assert w[1..] == x;
    assert AfterBlanks(w, '"') == Some(x);
    assert x == name + "\"" + ("]" + rest);
    QuotedRunOf(name, "]" + rest);
  }

  /** A quote-free non-empty name, its closing quote and the rest. */
  lemma QuotedRunOf(name: string, rest: string)
    requires |name| > 0 && '"' !in name
    ensures QuotedRun(name + "\"" + rest) == Some((name, rest))
  {
    var x := name + "\"" + rest;
    assert x[|name|] == '"' && x[..|name|] == name && x[|name| + 1..] == rest;
    IndexOfCharAt(x, '"', |name|);
  }

  // ---------------------------------------------------------------------------
  // The transformations.

  /** `[v] if v is not None else []` */
  function WrapValue(v: Json): (r: Json)
    ensures r.Arr? && (v.Null? <==> r.items == [])
    ensures !v.Null? ==> r.items == [v]
  {
    if v.Null? then Arr([]) else Arr([v])
  }

  /** One of two names contains the other, after `lower()`. */
  predicate Overlap(name: string, expected: string) {
    Contains(Lower(expected), Lower(name)) || Contains(Lower(name), Lower(expected))
  }

  /** The error text speaks of an array and of a string or `undefined`, ignoring case. */
  predicate MentionsArray(msg: string) {
    var low := Lower(msg);
    Contains(low, "array") && (Contains(low, "string") || Contains(low, "undefined"))
  }

  /**
   * `_string_to_array_transform`: when the text mentions an array and reports
   * a path name, the first parameter overlapping that name is moved to it,
   * wrapped in a one-element list (`[]` for `None`).
   */
  function StringToArray(msg: string, params: Params): (r: Option<Correction>)
    ensures r.Some? ==> IsRename(r.value, params)
    ensures r.Some? <==>
      MentionsArray(msg) && PathName(msg).Some? && exists i :: 0 <= i < |params| && Overlap(params[i].key, PathName(msg).value)
    ensures r.Some? ==> exists i :: (0 <= i < |params|
      && Overlap(params[i].key, PathName(msg).value)
      && (forall j :: 0 <= j < i ==> !Overlap(params[j].key, PathName(msg).value))
      && Renames(r.value, params, params[i].key, PathName(msg).value, WrapValue(params[i].value)))
  {
    if !MentionsArray(msg) then None
    else match PathName(msg)
      case None => None
      case Some(expected) =>
        match FirstKey(params, k => Overlap(k, expected))
        case None => None
        case Some(i) =>
          var name := params[i].key;
          Some(Rename(params, name, expected, WrapValue(params[i].value),
                      "Converted '" + name + "' to '" + expected + "' array", 80))
  }

  /** Two names are equal once trailing `s` characters are stripped from both, yet differ as written. */
  predicate PluralOf(name: string, expected: string) {
    RStripChar(name, 's') == RStripChar(expected, 's') && name != expected
  }

  /**
   * `_singular_to_plural_transform`: with at least two quoted tokens in the
   * text, the first parameter that is a singular/plural variant of the first
   * token is renamed to it, its value unchanged.
   */
  function SingularToPlural(msg: string, params: Params): (r: Option<Correction>)
    ensures r.Some? ==> IsRename(r.value, params)
    ensures r.Some? <==>
      |QuotedTokens(msg)| >= 2 && exists i :: 0 <= i < |params| && PluralOf(params[i].key, QuotedTokens(msg)[0])
    ensures r.Some? ==> exists i :: (0 <= i < |params|
      && PluralOf(params[i].key, QuotedTokens(msg)[0])
      && (forall j :: 0 <= j < i ==> !PluralOf(params[j].key, QuotedTokens(msg)[0]))
      && Renames(r.value, params, params[i].key, QuotedTokens(msg)[0], params[i].value))
  {
    var tokens := QuotedTokens(msg);
    if |tokens| < 2 then None
    else
      var expected := tokens[0];
      match FirstKey(params, k => PluralOf(k, expected))
      case None => None
      case Some(i) =>
        var name := params[i].key;
        DistinctFind(params, i);
        Some(Rename(params, name, expected, params[i].value, "Renamed '" + name + "' to '" + expected + "'", 70))
  }

  /** A name with underscores removed and letters lowered. */
  function Squash(s: string): string {
    Lower(RemoveChar(s, '_'))
  }

  /** The two names agree up to underscores and case, yet differ as written. */
  predicate CaseVariant(name: string, expected: string) {
    Squash(name) == Squash(expected) && name != expected
  }

  /**
   * The first pair (token, parameter) in token-major order whose parameter is
   * a case variant of the token, as positions.
   */
  function FirstVariant(tokens: seq<string>, params: Params): (r: Option<(nat, nat)>)
    ensures r.Some? ==> r.value.0 < |tokens| && r.value.1 < |params|
    ensures r.Some? ==> CaseVariant(params[r.value.1].key, tokens[r.value.0])
    ensures r.Some? ==> forall t, j :: 0 <= t < r.value.0 && 0 <= j < |params| ==> !CaseVariant(params[j].key, tokens[t])
    ensures r.Some? ==> forall j :: 0 <= j < r.value.1 ==> !CaseVariant(params[j].key, tokens[r.value.0])
    ensures r.None? <==> forall t, j :: 0 <= t < |tokens| && 0 <= j < |params| ==> !CaseVariant(params[j].key, tokens[t])
  {
    if |tokens| == 0 then None
    else match FirstKey(params, k => CaseVariant(k, tokens[0]))
      case Some(j) => Some((0, j))
      case None =>
        match FirstVariant(tokens[1..], params)
        case None => None
        case Some(p) => Some((p.0 + 1, p.1))
  }

  /**
   * `_snake_to_camel_transform`: for the first underscore-bearing quoted token
   * that some parameter matches up to underscores and case, the first such
   * parameter is renamed to the token, its value unchanged.
   */
  function SnakeToCamel(msg: string, params: Params): (r: Option<Correction>)
    ensures r.Some? ==> IsRename(r.value, params)
    ensures r.Some? <==> exists t, j :: (0 <= t < |UnderscoreTokens(msg)| && 0 <= j < |params|
      && CaseVariant(params[j].key, UnderscoreTokens(msg)[t]))
    ensures r.Some? ==> exists t, j :: (0 <= t < |UnderscoreTokens(msg)| && 0 <= j < |params|
      && CaseVariant(params[j].key, UnderscoreTokens(msg)[t])
      && Renames(r.value, params, params[j].key, UnderscoreTokens(msg)[t], params[j].value))
    ensures r.Some? <==> FirstVariant(UnderscoreTokens(msg), params).Some?
    ensures r.Some? ==> var p := FirstVariant(UnderscoreTokens(msg), params).value;
      Renames(r.value, params, params[p.1].key, UnderscoreTokens(msg)[p.0], params[p.1].value)
  {
    var tokens := UnderscoreTokens(msg);
    match FirstVariant(tokens, params)
    case None => None
    case Some(p) =>
      var expected := tokens[p.0];
      var name := params[p.1].key;
      Some(Rename(params, name, expected, params[p.1].value, "Converted '" + name + "' to '" + expected + "'", 60))
  }

  // ---------------------------------------------------------------------------
  // The hard-coded patterns.

  /** Names a missing `query` parameter is looked for under, in order. */
  const QueryAliases: seq<string> := ["esql", "sql", "search", "statement", "command", "expression"]

  /** The first alias that is a key of `params`. */
  function FirstAlias(aliases: seq<string>, params: Params): (r: Option<nat>)
    ensures r.Some? ==> r.value < |aliases| && HasKey(params, aliases[r.value])
    ensures r.Some? ==> forall j :: 0 <= j < r.value ==> !HasKey(params, aliases[j])
    ensures r.None? <==> forall j :: 0 <= j < |aliases| ==> !HasKey(params, aliases[j])
  {
    if |aliases| == 0 then None
    else if HasKey(params, aliases[0]) then Some(0)
    else match FirstAlias(aliases[1..], params)
      case None => None
      case Some(j) => Some(j + 1)
  }

  /** A name lowered with underscores removed. */
  function Clean(s: string): string {
    RemoveChar(Lower(s), '_')
  }

  /** A name lowered with underscores and hyphens removed. */
  function CleanFuzzy(s: string): string {
    RemoveChar(RemoveChar(Lower(s), '_'), '-')
  }

  /** The characters of a string as a set. */
  function Chars(s: string): set<char> {
    set c | c in s
  }

  /**
   * One cleaned name contains the other, or they share at least
   * `min(3, len(required) // 2)` distinct characters.
   */
  predicate FuzzySimilar(name: string, required: string) {
    var p, q := CleanFuzzy(name), CleanFuzzy(required);
    Contains(q, p) || Contains(p, q) || |Chars(p) * Chars(q)| >= Min(3, |q| / 2)
  }

  function Min(a: int, b: int): int {
    if a <= b then a else b
  }

  /** A list is stored as it is; anything else is wrapped as by `WrapValue`. */
  function AsArray(v: Json): (r: Json)
    ensures r.Arr?
    ensures v.Arr? ==> r == v
    ensures !v.Arr? ==> r == WrapValue(v)
  {
    if v.Arr? then v else WrapValue(v)
  }

  /** The general-array pattern: the first parameter overlapping the path name, after cleaning. */
  predicate CleanOverlap(name: string, required: string) {
    Contains(Clean(required), Clean(name)) || Contains(Clean(name), Clean(required))
  }

  /** `index` or `index_name` renamed to `indices`, wrapped in a one-element list. */
  function IndicesPattern(msg: string, params: Params): (r: Option<Correction>)
    ensures r.Some? ==> IsRename(r.value, params)
    ensures r.Some? <==> Contains(msg, "indices") && (HasKey(params, "index") || HasKey(params, "index_name"))
    ensures r.Some? && HasKey(params, "index") ==> Renames(r.value, params, "index", "indices", Arr([Get(params, "index").value]))
    ensures r.Some? && !HasKey(params, "index") ==>
      Renames(r.value, params, "index_name", "indices", Arr([Get(params, "index_name").value]))
  {
    if !Contains(msg, "indices") then None
    else if HasKey(params, "index") then
      Some(Rename(params, "index", "indices", Arr([Get(params, "index").value]), "Converted 'index' string to 'indices' array", 90))
    else if HasKey(params, "index_name") then
      Some(Rename(params, "index_name", "indices", Arr([Get(params, "index_name").value]),
                  "Converted 'index_name' string to 'indices' array", 90))
    else None
  }

  /** A query alias renamed to `query` when the text names a required `query`. */
  function QueryPattern(msg: string, params: Params): (r: Option<Correction>)
    ensures r.Some? ==> IsRename(r.value, params)
    ensures r.Some? <==> (Contains(msg, "query") && Contains(msg, "Required")
      && exists j :: 0 <= j < |QueryAliases| && HasKey(params, QueryAliases[j]))
    ensures r.Some? ==> exists j :: (0 <= j < |QueryAliases| && HasKey(params, QueryAliases[j])
      && (forall i :: 0 <= i < j ==> !HasKey(params, QueryAliases[i]))
      && Renames(r.value, params, QueryAliases[j], "query", Get(params, QueryAliases[j]).value))
  {
    if !(Contains(msg, "query") && Contains(msg, "Required")) then None
    else match FirstAlias(QueryAliases, params)
      case None => None
      case Some(j) =>
        var alias := QueryAliases[j];
        Some(Rename(params, alias, "query", Get(params, alias).value, "Renamed '" + alias + "' to required 'query' parameter", 80))
  }

  /** A parameter overlapping the required path name stored there as a list. */
  function ArrayPattern(msg: string, params: Params): (r: Option<Correction>)
    ensures r.Some? ==> IsRename(r.value, params)
    ensures r.Some? <==> (Contains(msg, "Required") && Contains(msg, "array") && PathName(msg).Some?
      && exists i :: 0 <= i < |params| && CleanOverlap(params[i].key, PathName(msg).value))
    ensures r.Some? ==> exists i :: (0 <= i < |params|
      && CleanOverlap(params[i].key, PathName(msg).value)
      && (forall j :: 0 <= j < i ==> !CleanOverlap(params[j].key, PathName(msg).value))
      && Renames(r.value, params, params[i].key, PathName(msg).value, AsArray(params[i].value)))
  {
    if !(Contains(msg, "Required") && Contains(msg, "array")) then None
    else match PathName(msg)
      case None => None
      case Some(required) =>
        match FirstKey(params, k => CleanOverlap(k, required))
        case None => None
        case Some(i) =>
          var name := params[i].key;
          Some(Rename(params, name, required, AsArray(params[i].value),
                      "Converted '" + name + "' to required '" + required + "' array", 70))
  }

  /** A parameter fuzzily similar to the required path name renamed to it, its value unchanged. */
  function FuzzyPattern(msg: string, params: Params): (r: Option<Correction>)
    ensures r.Some? ==> IsRename(r.value, params)
    ensures r.Some? <==> (Contains(msg, "Required") && Contains(msg, "undefined") && PathName(msg).Some?
      && exists i :: 0 <= i < |params| && FuzzySimilar(params[i].key, PathName(msg).value))
    ensures r.Some? ==> exists i :: (0 <= i < |params|
      && FuzzySimilar(params[i].key, PathName(msg).value)
      && (forall j :: 0 <= j < i ==> !FuzzySimilar(params[j].key, PathName(msg).value))
      && Renames(r.value, params, params[i].key, PathName(msg).value, params[i].value))
  {
    if !(Contains(msg, "Required") && Contains(msg, "undefined")) then None
    else match PathName(msg)
      case None => None
      case Some(required) =>
        match FirstKey(params, k => FuzzySimilar(k, required))
        case None => None
        case Some(i) =>
          var name := params[i].key;
          Some(Rename(params, name, required, params[i].value, "Renamed '" + name + "' to required '" + required + "'", 60))
  }

  /** `_handle_specific_patterns`: the hard-coded patterns in their fixed order. */
  function SpecificPatterns(msg: string, params: Params): (r: Option<Correction>)
    ensures r.Some? ==> IsRename(r.value, params)
    ensures r.Some? <==>
      IndicesPattern(msg, params).Some? || QueryPattern(msg, params).Some?
      || ArrayPattern(msg, params).Some? || FuzzyPattern(msg, params).Some?
    ensures IndicesPattern(msg, params).Some? ==> r == IndicesPattern(msg, params)
    ensures IndicesPattern(msg, params).None? && QueryPattern(msg, params).Some? ==> r == QueryPattern(msg, params)
    ensures IndicesPattern(msg, params).None? && QueryPattern(msg, params).None? && ArrayPattern(msg, params).Some? ==>
      r == ArrayPattern(msg, params)
    ensures IndicesPattern(msg, params).None? && QueryPattern(msg, params).None? && ArrayPattern(msg, params).None? ==>
      r == FuzzyPattern(msg, params)
  {
    var indices := IndicesPattern(msg, params);
    if indices.Some? then indices
    else
      var query := QueryPattern(msg, params);
      if query.Some? then query
      else
        var arr := ArrayPattern(msg, params);
        if arr.Some? then arr else FuzzyPattern(msg, params)
  }

  // ---------------------------------------------------------------------------
  // The driver.

  /** One row of the transformation table. The `pattern` text is kept but never used. */
  datatype Rule = Rule(name: string, pattern: string, transform: (string, Params) -> Option<Correction>)

  /** The table of general transformations, in the order they are tried. */
  function Rules(): seq<Rule> {
    [ Rule("string_to_array", "Expected.*array.*received.*string|Required.*\\[\"([^\"]+)\"\\].*array", StringToArray),
      Rule("singular_to_plural", "Expected.*\"([^\"]*s)\".*received.*\"([^\"]*)\"(?!s)", SingularToPlural),
      Rule("snake_to_camel", "Expected.*\"([^\"]*_[^\"]*)\".*received.*\"([^\"]*)\"", SnakeToCamel) ]
  }

  /**
   * The loop over the table: the first rule whose transform returns a
   * correction decides. None of the transforms can raise on a dict with
   * string keys, so the `except: continue` arm never runs.
   */
  function FirstCorrection(rules: seq<Rule>, msg: string, params: Params): (r: Option<Correction>)
    ensures r.Some? ==> exists i :: (0 <= i < |rules| && rules[i].transform(msg, params) == r
      && forall j :: 0 <= j < i ==> rules[j].transform(msg, params).None?)
    ensures r.None? <==> forall i :: 0 <= i < |rules| ==> rules[i].transform(msg, params).None?
  {
    if |rules| == 0 then None
    else
      var c := rules[0].transform(msg, params);
      if c.Some? then c
      else
        var r := FirstCorrection(rules[1..], msg, params);
        assert forall i :: 1 <= i < |rules| ==> rules[i] == rules[1..][i - 1];
        if r.Some? then
          var i :| 0 <= i < |rules[1..]| && rules[1..][i].transform(msg, params) == r
            && forall j :: 0 <= j < i ==> rules[1..][j].transform(msg, params).None?;
          assert rules[i + 1].transform(msg, params) == r;
          r
        else r
  }

  /** The table loop returns the first of the three general transforms that applies. */
  lemma RulesApplied(msg: string, params: Params)
    ensures FirstCorrection(Rules(), msg, params) ==
      if StringToArray(msg, params).Some? then StringToArray(msg, params)
      else if SingularToPlural(msg, params).Some? then SingularToPlural(msg, params)
      else SnakeToCamel(msg, params)
  {
    var rules := Rules();
    assert rules[0].transform == StringToArray && rules[1].transform == SingularToPlural && rules[2].transform == SnakeToCamel;
    assert rules[1..][1..][1..] == [];
    assert FirstCorrection(rules[1..][1..][1..], msg, params) == None;
    assert FirstCorrection(rules[1..][1..], msg, params) == SnakeToCamel(msg, params);
  }

  /**
   * `analyze_error_and_correct`: the table's transforms in order, then the
   * hard-coded patterns; `None` when nothing applies. The arguments are
   * never changed: a correction renames one key of a copy.
   */
  function Analyze(msg: string, params: Params): (r: Option<Correction>)
    ensures r.Some? ==> r.value.original == params && IsRename(r.value, params)
    ensures StringToArray(msg, params).Some? ==> r == StringToArray(msg, params)
    ensures StringToArray(msg, params).None? && SingularToPlural(msg, params).Some? ==> r == SingularToPlural(msg, params)
    ensures StringToArray(msg, params).None? && SingularToPlural(msg, params).None? && SnakeToCamel(msg, params).Some? ==>
      r == SnakeToCamel(msg, params)
    ensures StringToArray(msg, params).None? && SingularToPlural(msg, params).None? && SnakeToCamel(msg, params).None? ==>
      r == SpecificPatterns(msg, params)
  {
    RulesApplied(msg, params);
    var general := FirstCorrection(Rules(), msg, params);
    if general.Some? then general else SpecificPatterns(msg, params)
  }

  /** The loop never looks at the `pattern` texts: two tables with the same transforms agree. */
  lemma {:induction false} PatternsNeverConsulted(a: seq<Rule>, b: seq<Rule>, msg: string, params: Params)
    requires |a| == |b|
    requires forall i :: 0 <= i < |a| ==> a[i].transform == b[i].transform
    ensures FirstCorrection(a, msg, params) == FirstCorrection(b, msg, params)
  {
    if |a| > 0 && a[0].transform(msg, params).None? {
      PatternsNeverConsulted(a[1..], b[1..], msg, params);
    }
  }

  /** `index` wins over `index_name` when both are present. */
  lemma IndexBeforeIndexName(msg: string, params: Params)
    requires Contains(msg, "indices") && HasKey(params, "index") && HasKey(params, "index_name")
    ensures SpecificPatterns(msg, params).Some?
    ensures Renames(SpecificPatterns(msg, params).value, params, "index", "indices", Arr([Get(params, "index").value]))
    ensures HasKey(SpecificPatterns(msg, params).value.corrected, "index_name")
  {
    var c := SpecificPatterns(msg, params).value;
    assert Get(c.corrected, "index_name") == Get(params, "index_name");
  }

  /** A required name that cleans to at most one character is fuzzily similar to every name. */
  lemma FuzzyShortRequired(name: string, required: string)
    requires |CleanFuzzy(required)| <= 1
    ensures FuzzySimilar(name, required)
  {
  }

  /** So, once the fuzzy pattern is reached with such a name, the first parameter is taken. */
  lemma FuzzyTakesFirst(msg: string, params: Params)
    requires Contains(msg, "Required") && Contains(msg, "undefined")
    requires PathName(msg).Some? && |CleanFuzzy(PathName(msg).value)| <= 1
    requires |params| > 0
    ensures FuzzyPattern(msg, params).Some?
    ensures Renames(FuzzyPattern(msg, params).value, params, params[0].key, PathName(msg).value, params[0].value)
  {
    FuzzyShortRequired(params[0].key, PathName(msg).value);
  }

  /** The general-array pattern leaves a list value as it is. */
  lemma ArrayPatternKeepsLists(msg: string, params: Params, i: nat)
    requires ArrayPattern(msg, params).Some?
    requires i < |params| && params[i].value.Arr?
    requires CleanOverlap(params[i].key, PathName(msg).value)
    requires forall j :: 0 <= j < i ==> !CleanOverlap(params[j].key, PathName(msg).value)
    ensures Get(ArrayPattern(msg, params).value.corrected, PathName(msg).value) == Some(params[i].value)
  {
    var required := PathName(msg).value;
    var c := ArrayPattern(msg, params).value;
    var i' :| 0 <= i' < |params|
      && CleanOverlap(params[i'].key, required)
      && (forall j :: 0 <= j < i' ==> !CleanOverlap(params[j].key, required))
      && Renames(c, params, params[i'].key, required, AsArray(params[i'].value));
    assert i' == i;
  }
}

=== FILE: database.dfy ===
/**
 * The SQLite store as tables of rows: LLM configurations, MCP servers and
 * their tools. Each statement the data layer issues becomes a function from
 * table contents to table contents; a statement that violates a constraint
 * is an `Err` and, since every method runs in one transaction, leaves the
 * tables as they were. API keys are stored base64-encoded.
 */
module Database {
  import opened Wrappers
  import opened Dict
  import opened Json
  import opened Text
  import Utf8
  import Base64

  // ---------------------------------------------------------------------------
  // API key codec

  /** The characters of ASCII bytes, as `bytes.decode()` gives them. */
  function AsciiText(bs: seq<Utf8.Byte>): (s: string)
    requires Base64.IsAscii(bs)
    ensures |s| == |bs|
    ensures forall i :: 0 <= i < |bs| ==> s[i] as int == bs[i]
  {
    if |bs| == 0 then "" else [bs[0] as char] + AsciiText(bs[1..])
  }

  /** ASCII text is its own UTF-8 encoding, in both directions. */
  lemma {:induction false} Utf8Ascii(bs: seq<Utf8.Byte>)
    requires Base64.IsAscii(bs)
    ensures Utf8.Encode(AsciiText(bs)) == bs
    ensures Utf8.Decode(bs) == Some(AsciiText(bs))
  {
    if |bs| > 0 {
      var s := AsciiText(bs);
      assert s[1..] == AsciiText(bs[1..]);
      Utf8Ascii(bs[1..]);
      assert Utf8.EncodeChar(s[0]) == [bs[0]];
      assert Utf8.SequenceLength(bs) == 1;
      assert Utf8.DecodeChar(bs) == s[0];
      assert bs == [bs[0]] + bs[1..];
    }
  }

  /** `base64.b64encode(api_key.encode()).decode()` */
  function EncodeApiKey(apiKey: string): (r: string)
    ensures Utf8.Encode(r) == Base64.Encode(Utf8.Encode(apiKey))
    ensures Utf8.Decode(Base64.Encode(Utf8.Encode(apiKey))) == Some(r)
    ensures forall i :: 0 <= i < |r| ==> r[i] as int < 0x80
    ensures |r| == 0 <==> |apiKey| == 0
  {
    var bs := Base64.Encode(Utf8.Encode(apiKey));
    assert |apiKey| > 0 ==> |Utf8.Encode(apiKey)| > 0;
    Utf8Ascii(bs);
    AsciiText(bs)
  }

  /**
   * `base64.b64decode(stored.encode()).decode()`: `None` where Python raises,
   * for a malformed base64 text or bytes that are not UTF-8.
   */
  function DecodeApiKey(stored: string): (r: Option<string>)
    ensures r.Some? <==> Base64.Decode(Utf8.Encode(stored)).Some? && Utf8.Decode(Base64.Decode(Utf8.Encode(stored)).value).Some?
  {
    match Base64.Decode(Utf8.Encode(stored))
    case None => None
    case Some(bytes) =>
      match Utf8.Decode(bytes)
      case None => None
      case Some(text) => Some(text)
  }

  /** Every stored key reads back as the key that was stored. */
  lemma {:induction false} ApiKeyRoundTrip(apiKey: string)
    ensures DecodeApiKey(EncodeApiKey(apiKey)) == Some(apiKey)
  {
    var e := EncodeApiKey(apiKey);
    Base64.DecodeEncode(Utf8.Encode(apiKey));
    Utf8.DecodeEncode(apiKey);
    assert Base64.Decode(Utf8.Encode(e)) == Some(Utf8.Encode(apiKey));
  }

  // ---------------------------------------------------------------------------
  // Tables

  /** A row of `llm_configs`; `apiKeyHash` holds the encoded key. */
  datatype LlmRow = LlmRow(
    id: int, name: string, url: string, apiKeyHash: string,
    provider: string, model: string, isActive: bool)

  /** A row of `mcp_servers`; NULL columns are `None`. */
  datatype ServerRow = ServerRow(
    id: int, name: string, serverType: string, url: Option<string>,
    apiKeyHash: Option<string>, command: Option<string>, args: Option<string>,
    autoStart: bool, processStatus: string, workingDirectory: Option<string>,
    isEnabled: bool, status: string)

  /** A row of `mcp_tools`; `schema` is the tool's input schema as JSON text. */
  datatype ToolRow = ToolRow(
    id: int, serverId: int, name: string, description: Option<string>,
    isEnabled: bool, schema: string)

  /**
   * The three tables in rowid order, with the largest id each AUTOINCREMENT
   * counter has handed out (the `sqlite_sequence` entries).
   */
  datatype Store = Store(
    llmConfigs: seq<LlmRow>, servers: seq<ServerRow>, tools: seq<ToolRow>,
    llmSeq: int, serverSeq: int, toolSeq: int)

  /** The tables as the schema creates them. */
  const Empty: Store := Store([], [], [], 0, 0, 0)

  /** The constraints of the schema: primary keys below their counters, UNIQUE names, UNIQUE(server_id, name) for tools. */
  ghost predicate Valid(db: Store) {
    && (forall i :: 0 <= i < |db.llmConfigs| ==> db.llmConfigs[i].id <= db.llmSeq)
    && (forall i, j :: 0 <= i < j < |db.llmConfigs| ==>
          db.llmConfigs[i].id != db.llmConfigs[j].id && db.llmConfigs[i].name != db.llmConfigs[j].name)
    && (forall i :: 0 <= i < |db.servers| ==> db.servers[i].id <= db.serverSeq)
    && (forall i, j :: 0 <= i < j < |db.servers| ==>
          db.servers[i].id != db.servers[j].id && db.servers[i].name != db.servers[j].name)
    && (forall i :: 0 <= i < |db.tools| ==> db.tools[i].id <= db.toolSeq)
    && ToolsUnique(db.tools)
  }

  /** Distinct tool ids, and no two tools of one server share a name. */
  ghost predicate ToolsUnique(tools: seq<ToolRow>) {
    forall i, j :: 0 <= i < j < |tools| ==>
      tools[i].id != tools[j].id && (tools[i].serverId, tools[i].name) != (tools[j].serverId, tools[j].name)
  }

  lemma EmptyValid()
    ensures Valid(Empty)
  {
  }

  /**
   * The rowid AUTOINCREMENT hands out: one more than both the counter and
   * every id in the table.
   */
  function NextId(counter: int, ids: seq<int>): (r: int)
    ensures r > counter && forall i :: 0 <= i < |ids| ==> ids[i] < r
    ensures r == counter + 1 || exists i :: 0 <= i < |ids| && r == ids[i] + 1
  {
    if |ids| == 0 then counter + 1
    else
      var m := NextId(counter, ids[1..]);
      assert m != counter + 1 ==> exists i :: 0 <= i < |ids| && m == ids[i] + 1 by {
        if m != counter + 1 {
          var i :| 0 <= i < |ids[1..]| && m == ids[1..][i] + 1;
          assert ids[i + 1] == ids[1..][i];
        }
      }
      if ids[0] < m then m else ids[0] + 1
  }

  /** The position of the LLM configuration with primary key `id`. */
  function LlmIndex(rows: seq<LlmRow>, id: int): (r: Option<nat>)
    ensures r.Some? ==> r.value < |rows| && rows[r.value].id == id
    ensures r.None? <==> forall i :: 0 <= i < |rows| ==> rows[i].id != id
  {
    if |rows| == 0 then None
    else if rows[0].id == id then Some(0)
    else match LlmIndex(rows[1..], id)
      case None => None
      case Some(k) => Some(k + 1)
  }

  /** Whether some LLM configuration is named `name`. */
  predicate LlmNamed(rows: seq<LlmRow>, name: string) {
    exists i :: 0 <= i < |rows| && rows[i].name == name
  }

  /** Whether some server is named `name`. */
  predicate ServerNamed(rows: seq<ServerRow>, name: string) {
    exists i :: 0 <= i < |rows| && rows[i].name == name
  }

  /**
   * `add_llm_config`: inserts a row with the encoded key and `is_active`
   * left at FALSE, and returns its id; a taken name violates UNIQUE.
   */
  function AddLlmConfig(db: Store, name: string, url: string, apiKey: string, provider: string, model: string): (r: Result<(Store, int)>)
    ensures r.Err? <==> LlmNamed(db.llmConfigs, name)
    ensures r.Err? ==> r.error == "UNIQUE constraint failed: llm_configs.name"
    ensures r.Ok? ==> var (db', id) := r.value;
      && db'.llmConfigs == db.llmConfigs + [LlmRow(id, name, url, EncodeApiKey(apiKey), provider, model, false)]
      && (forall i :: 0 <= i < |db.llmConfigs| ==> db.llmConfigs[i].id != id)
      && db'.servers == db.servers && db'.tools == db.tools
    ensures r.Ok? && Valid(db) ==> Valid(r.value.0)
  {
    if LlmNamed(db.llmConfigs, name) then Err("UNIQUE constraint failed: llm_configs.name")
    else
      var ids := seq(|db.llmConfigs|, i requires 0 <= i < |db.llmConfigs| => db.llmConfigs[i].id);
      var id := NextId(db.llmSeq, ids);
      assert forall i :: 0 <= i < |db.llmConfigs| ==> db.llmConfigs[i].id == ids[i];
      Ok((db.(llmConfigs := db.llmConfigs + [LlmRow(id, name, url, EncodeApiKey(apiKey), provider, model, false)], llmSeq := id), id))
  }

  /** What `get_llm_config_with_key` puts under `api_key`. */
  datatype KeyField =
    | Absent                   // the stored key is empty: no `api_key` entry at all
    | Undecodable              // decoding raised: `api_key` is None
    | Decoded(key: string)

  /** A configuration row with its decoded key. */
  datatype ConfigWithKey = ConfigWithKey(row: LlmRow, apiKey: KeyField)

  /**
   * `get_llm_config_with_key`: `None` for a missing id; otherwise the row,
   * with the key decoded when one is stored, and `None` in place of a key
   * that does not decode.
   */
  function GetLlmConfigWithKey(db: Store, id: int): (r: Option<ConfigWithKey>)
    ensures r.None? <==> forall i :: 0 <= i < |db.llmConfigs| ==> db.llmConfigs[i].id != id
    ensures r.Some? ==> r.value.row in db.llmConfigs && r.value.row.id == id
    ensures r.Some? ==> (r.value.apiKey.Absent? <==> r.value.row.apiKeyHash == "")
    ensures r.Some? && r.value.row.apiKeyHash != "" ==>
      (r.value.apiKey.Undecodable? <==> DecodeApiKey(r.value.row.apiKeyHash).None?)
    ensures r.Some? && r.value.apiKey.Decoded? ==> DecodeApiKey(r.value.row.apiKeyHash) == Some(r.value.apiKey.key)
  {
    match LlmIndex(db.llmConfigs, id)
    case None => None
    case Some(i) =>
      var row := db.llmConfigs[i];
      if row.apiKeyHash == "" then Some(ConfigWithKey(row, Absent))
      else match DecodeApiKey(row.apiKeyHash)
        case None => Some(ConfigWithKey(row, Undecodable))
        case Some(key) => Some(ConfigWithKey(row, Decoded(key)))
  }

  /**
   * A configuration added with a key reads back with that key; one added
   * with the empty key reads back with no `api_key` entry.
   */
  lemma StoredKeyReadsBack(db: Store, name: string, url: string, apiKey: string, provider: string, model: string)
    requires AddLlmConfig(db, name, url, apiKey, provider, model).Ok?
    ensures var (db', id) := AddLlmConfig(db, name, url, apiKey, provider, model).value;
      GetLlmConfigWithKey(db', id)
        == Some(ConfigWithKey(LlmRow(id, name, url, EncodeApiKey(apiKey), provider, model, false),
                              if apiKey == "" then Absent else Decoded(apiKey)))
  {
    var (db', id) := AddLlmConfig(db, name, url, apiKey, provider, model).value;
    var k := |db.llmConfigs|;
    assert LlmIndex(db'.llmConfigs, id) == Some(k) by {
      LlmIndexLast(db.llmConfigs, db'.llmConfigs[k]);
    }
    ApiKeyRoundTrip(apiKey);
  }

  /** A row appended under a fresh id is found at the end. */
  lemma {:induction false} LlmIndexLast(rows: seq<LlmRow>, row: LlmRow)
    requires forall i :: 0 <= i < |rows| ==> rows[i].id != row.id
    ensures LlmIndex(rows + [row], row.id) == Some(|rows|)
  {
    if |rows| > 0 {
      assert (rows + [row])[1..] == rows[1..] + [row];
      LlmIndexLast(rows[1..], row);
    }
  }

  /**
   * `set_active_llm`: every configuration is deactivated, then the one with
   * primary key `id` is activated; nothing else changes.
   */
  function SetActiveLlm(db: Store, id: int): (r: Store)
    ensures |r.llmConfigs| == |db.llmConfigs|
    ensures forall i :: 0 <= i < |r.llmConfigs| ==>
      r.llmConfigs[i].(isActive := db.llmConfigs[i].isActive) == db.llmConfigs[i]
    ensures r.servers == db.servers && r.tools == db.tools
    ensures r.llmSeq == db.llmSeq && r.serverSeq == db.serverSeq && r.toolSeq == db.toolSeq
  {
    db.(llmConfigs := seq(|db.llmConfigs|, i requires 0 <= i < |db.llmConfigs| =>
      db.llmConfigs[i].(isActive := db.llmConfigs[i].id == id)))
  }

  /**
   * After `set_active_llm(id)` the row with that id is the only active one,
   * and no row is active when the id is absent.
   */
  lemma OnlyTargetActive(db: Store, id: int)
    requires Valid(db)
    ensures var rows := SetActiveLlm(db, id).llmConfigs;
      && (forall i :: 0 <= i < |rows| ==> (rows[i].isActive <==> rows[i].id == id))
      && (forall i, j :: 0 <= i < |rows| && 0 <= j < |rows| && rows[i].isActive && rows[j].isActive ==> i == j)
      && ((exists i :: 0 <= i < |rows| && rows[i].isActive) <==> LlmIndex(db.llmConfigs, id).Some?)
  {
    var rows := SetActiveLlm(db, id).llmConfigs;
    if LlmIndex(db.llmConfigs, id).Some? {
      var k := LlmIndex(db.llmConfigs, id).value;
      assert rows[k].isActive;
    }
  }

  /**
   * The position of the server with primary key `id`. It mirrors `LlmIndex`
   * over the other table's row type: the two row datatypes share no field
   * accessor, and the lemmas about each table unfold their own finder.
   */
  function ServerIndex(rows: seq<ServerRow>, id: int): (r: Option<nat>)
    ensures r.Some? ==> r.value < |rows| && rows[r.value].id == id
    ensures r.None? <==> forall i :: 0 <= i < |rows| ==> rows[i].id != id
  {
    if |rows| == 0 then None
    else if rows[0].id == id then Some(0)
    else match ServerIndex(rows[1..], id)
      case None => None
      case Some(k) => Some(k + 1)
  }

  /**
   * `add_mcp_server`: inserts a row whose key column holds the encoded key
   * when a non-empty key is given and NULL otherwise, with process status
   * 'stopped', enabled, status 'disconnected'; a taken name violates UNIQUE.
   */
  function AddMcpServer(
    db: Store, name: string, serverType: string, url: Option<string>, apiKey: Option<string>,
    command: Option<string>, args: Option<string>, autoStart: bool, workingDirectory: Option<string>
  ): (r: Result<(Store, int)>)
    ensures r.Err? <==> ServerNamed(db.servers, name)
    ensures r.Err? ==> r.error == "UNIQUE constraint failed: mcp_servers.name"
    ensures r.Ok? ==> var (db', id) := r.value;
      && |db'.servers| == |db.servers| + 1 && db'.servers[..|db.servers|] == db.servers
      && (forall i :: 0 <= i < |db.servers| ==> db.servers[i].id != id)
      && db'.llmConfigs == db.llmConfigs && db'.tools == db.tools
    ensures r.Ok? ==> var row := r.value.0.servers[|db.servers|];
      && row.id == r.value.1 && row.name == name && row.serverType == serverType && row.url == url
      && row.command == command && row.args == args && row.autoStart == autoStart
      && row.workingDirectory == workingDirectory
      && row.processStatus == "stopped" && row.isEnabled && row.status == "disconnected"
      && (row.apiKeyHash.Some? <==> Given(apiKey))
      && (Given(apiKey) ==> DecodeApiKey(row.apiKeyHash.value) == Some(apiKey.value))
    ensures r.Ok? && Valid(db) ==> Valid(r.value.0)
  {
    if ServerNamed(db.servers, name) then Err("UNIQUE constraint failed: mcp_servers.name")
    else
      var ids := seq(|db.servers|, i requires 0 <= i < |db.servers| => db.servers[i].id);
      var id := NextId(db.serverSeq, ids);
      assert forall i :: 0 <= i < |db.servers| ==> db.servers[i].id == ids[i];
      var hash := if Given(apiKey) then Some(EncodeApiKey(apiKey.value)) else None;
      assert Given(apiKey) ==> DecodeApiKey(hash.value) == Some(apiKey.value) by {
        if Given(apiKey) { ApiKeyRoundTrip(apiKey.value); }
      }
      var row := ServerRow(id, name, serverType, url, hash, command, args, autoStart, "stopped", workingDirectory, true, "disconnected");
      Ok((db.(servers := db.servers + [row], serverSeq := id), id))
  }

  /** `update_server_status`: the `status` column of the row with that id, nothing else. */
  function UpdateServerStatus(db: Store, id: int, status: string): (r: Store)
    ensures |r.servers| == |db.servers|
    ensures forall i :: 0 <= i < |db.servers| ==>
      r.servers[i] == if db.servers[i].id == id then db.servers[i].(status := status) else db.servers[i]
    ensures r.llmConfigs == db.llmConfigs && r.tools == db.tools
    ensures r.llmSeq == db.llmSeq && r.serverSeq == db.serverSeq && r.toolSeq == db.toolSeq
  {
    db.(servers := seq(|db.servers|, i requires 0 <= i < |db.servers| =>
      if db.servers[i].id == id then db.servers[i].(status := status) else db.servers[i]))
  }

  /**
   * `update_process_status`: the `process_status` column of the row with that
   * id, nothing else. Kept apart from `UpdateServerStatus` because the two are
   * separate statements on separate columns, and the commuting lemma below
   * relates them.
   */
  function UpdateProcessStatus(db: Store, id: int, processStatus: string): (r: Store)
    ensures |r.servers| == |db.servers|
    ensures forall i :: 0 <= i < |db.servers| ==>
      r.servers[i] == if db.servers[i].id == id then db.servers[i].(processStatus := processStatus) else db.servers[i]
    ensures r.llmConfigs == db.llmConfigs && r.tools == db.tools
    ensures r.llmSeq == db.llmSeq && r.serverSeq == db.serverSeq && r.toolSeq == db.toolSeq
  {
    db.(servers := seq(|db.servers|, i requires 0 <= i < |db.servers| =>
      if db.servers[i].id == id then db.servers[i].(processStatus := processStatus) else db.servers[i]))
  }

  /**
   * The two status updates touch different columns: they commute, the later
   * of two updates of one column wins, and both keep the schema's constraints.
   */
  lemma StatusUpdatesIndependent(db: Store, id: int, a: string, b: string, p: string)
    ensures UpdateProcessStatus(UpdateServerStatus(db, id, a), id, p)
         == UpdateServerStatus(UpdateProcessStatus(db, id, p), id, a)
    ensures UpdateServerStatus(UpdateServerStatus(db, id, a), id, b) == UpdateServerStatus(db, id, b)
    ensures Valid(db) ==> Valid(UpdateServerStatus(db, id, a)) && Valid(UpdateProcessStatus(db, id, p))
  {
  }

  /**
   * Binding a decoded value as parameter `position` of a statement into a
   * TEXT column: None is NULL, bools and ints are stored as their decimal
   * text (the column's TEXT affinity), strings as themselves; lists and dicts
   * cannot be bound.
   */
  function BindText(j: Json, position: nat): (r: Result<Option<string>>)
    ensures r.Err? <==> j.Arr? || j.Obj?
    ensures r == Ok(None) <==> j.Null?
    ensures j.Str? ==> r == Ok(Some(j.s))
  {
    match j
    case Null => Ok(None)
    case Bool(b) => Ok(Some(if b then "1" else "0"))
    case Num(n) => Ok(Some(IntToString(n)))
    case Str(s) => Ok(Some(s))
    case _ => Err("Error binding parameter " + NatToString(position) + ": type '" + TypeName(j) + "' is not supported")
  }

  /** The schema `add_mcp_tools` stores: `inputSchema`, else `schema`, else `{}`. */
  function ToolSchema(es: seq<Entry<string, Json>>): (r: Json)
    ensures HasKey(es, "inputSchema") ==> Get(es, "inputSchema") == Some(r)
    ensures !HasKey(es, "inputSchema") && HasKey(es, "schema") ==> Get(es, "schema") == Some(r)
    ensures !HasKey(es, "inputSchema") && !HasKey(es, "schema") ==> r == EmptyObj
  {
    GetOr(es, "inputSchema", GetOr(es, "schema", EmptyObj))
  }

  /** A tool `add_mcp_tools` can store: a dict with a non-null scalar name and a scalar description. */
  predicate Insertable(tool: Json) {
    && tool.Obj?
    && HasKey(tool.entries, "name")
    && var name := Get(tool.entries, "name").value;
       var description := GetOr(tool.entries, "description", Str(""));
       (name.Bool? || name.Num? || name.Str?) && !description.Arr? && !description.Obj?
  }

  /**
   * The row one tool of `add_mcp_tools` inserts, or the exception it raises:
   * `tool.get` on a non-dict, `KeyError` for a missing name, a name or
   * description that cannot be bound, and NOT NULL for a None name (REPLACE
   * falls back to ABORT, as `name` has no default).
   */
  function ToolFields(tool: Json): (r: Result<(string, Option<string>, string)>)
    ensures r.Ok? <==> Insertable(tool)
    ensures r.Ok? ==> var (name, description, schema) := r.value;
      && BindText(Get(tool.entries, "name").value, 2) == Ok(Some(name))
      && BindText(GetOr(tool.entries, "description", Str("")), 3) == Ok(description)
      && schema == Dumps(ToolSchema(tool.entries))
    ensures tool.Obj? && !HasKey(tool.entries, "name") ==> r == Err("'name'")
  {
    var inner :- GetOrDefault(tool, "schema", EmptyObj);
    var schema := GetOr(tool.entries, "inputSchema", inner);
    var nameValue :- (assert ReprString("name") == "'name'" by { NameRepr(); } Index(tool, "name"));
    var descriptionValue := GetOr(tool.entries, "description", Str(""));
    var name :- BindText(nameValue, 2);
    var description :- BindText(descriptionValue, 3);
    if name.None? then Err("NOT NULL constraint failed: mcp_tools.name")
    else Ok((name.value, description, Dumps(schema)))
  }

  /** The `KeyError` text for the `name` key. */
  lemma NameRepr()
    ensures ReprString("name") == "'name'"
  {
    assert ReprBody("e", '\'') == "e";
    assert ReprBody("me", '\'') == "me";
    assert ReprBody("ame", '\'') == "ame";
    assert ReprBody("name", '\'') == "name";
  }

  /** The rows not keyed by `(serverId, name)`, in order. */
  function Without(tools: seq<ToolRow>, serverId: int, name: string): (r: seq<ToolRow>)
    ensures forall t :: t in r <==> t in tools && (t.serverId, t.name) != (serverId, name)
    ensures |r| <= |tools|
    ensures ToolsUnique(tools) ==> ToolsUnique(r)
  {
    if |tools| == 0 then []
    else
      var rest := Without(tools[1..], serverId, name);
      assert forall t :: t in tools[1..] ==> t in tools;
      if (tools[0].serverId, tools[0].name) == (serverId, name) then rest
      else
        assert ToolsUnique(tools) ==> forall t :: t in tools[1..] ==> t.id != tools[0].id && (t.serverId, t.name) != (tools[0].serverId, tools[0].name);
        [tools[0]] + rest
  }

  /**
   * One `INSERT OR REPLACE`: the row keyed by `(serverId, name)`, if any, is
   * deleted and a new row is appended under a fresh id, enabled.
   */
  function Replace(db: Store, serverId: int, name: string, description: Option<string>, schema: string): (r: Store)
    ensures r.tools == Without(db.tools, serverId, name) + [ToolRow(r.toolSeq, serverId, name, description, true, schema)]
    ensures r.toolSeq > db.toolSeq && forall i :: 0 <= i < |db.tools| ==> db.tools[i].id < r.toolSeq
    ensures r.llmConfigs == db.llmConfigs && r.servers == db.servers
    ensures r.llmSeq == db.llmSeq && r.serverSeq == db.serverSeq
  {
    var ids := seq(|db.tools|, i requires 0 <= i < |db.tools| => db.tools[i].id);
    var id := NextId(db.toolSeq, ids);
    assert forall i :: 0 <= i < |db.tools| ==> db.tools[i].id == ids[i];
    db.(tools := Without(db.tools, serverId, name) + [ToolRow(id, serverId, name, description, true, schema)], toolSeq := id)
  }

  /** A replacement touches only rows of its own server, and every row it adds is enabled. */
  lemma ReplaceKeepsOthers(db: Store, serverId: int, name: string, description: Option<string>, schema: string)
    ensures var r := Replace(db, serverId, name, description, schema);
      && (forall t: ToolRow :: t.serverId != serverId ==> (t in r.tools <==> t in db.tools))
      && (forall t :: t in r.tools ==> t in db.tools || (t.serverId == serverId && t.isEnabled))
  {
  }

  /** After a replacement the name is stored, and so is every name that was. */
  lemma ReplaceStores(db: Store, serverId: int, name: string, description: Option<string>, schema: string)
    ensures var r := Replace(db, serverId, name, description, schema);
      && Stored(r.tools, serverId, name)
      && forall n :: Stored(db.tools, serverId, n) ==> Stored(r.tools, serverId, n)
  {
    var r := Replace(db, serverId, name, description, schema);
    var kept := Without(db.tools, serverId, name);
    assert r.tools[|kept|].name == name;
    forall n | Stored(db.tools, serverId, n) ensures Stored(r.tools, serverId, n) {
      var i :| 0 <= i < |db.tools| && db.tools[i].serverId == serverId && db.tools[i].name == n && db.tools[i].isEnabled;
      if n != name {
        assert db.tools[i] in kept;
        var j :| 0 <= j < |kept| && kept[j] == db.tools[i];
        assert r.tools[j] == kept[j];
      }
    }
  }

  /** A replacement keeps the schema's constraints. */
  lemma ReplaceValid(db: Store, serverId: int, name: string, description: Option<string>, schema: string)
    requires Valid(db)
    ensures Valid(Replace(db, serverId, name, description, schema))
  {
    var r := Replace(db, serverId, name, description, schema);
    var kept := Without(db.tools, serverId, name);
    assert forall t :: t in kept ==> t.id < r.toolSeq && (t.serverId, t.name) != (serverId, name);
    assert ToolsUnique(kept);
    assert forall i :: 0 <= i < |kept| ==> kept[i] in kept;
  }

  /** Some enabled row of server `serverId` is named `name`. */
  predicate Stored(tools: seq<ToolRow>, serverId: int, name: string) {
    exists i :: 0 <= i < |tools| && tools[i].serverId == serverId && tools[i].name == name && tools[i].isEnabled
  }

  /**
   * `add_mcp_tools`: each tool in turn is inserted or replaces the row of
   * the same server and name. The statements share one transaction, so the
   * first tool that raises rolls the whole batch back: `Err`.
   */
  function AddMcpTools(db: Store, serverId: int, tools: seq<Json>): (r: Result<Store>)
    ensures r.Ok? <==> forall k :: 0 <= k < |tools| ==> Insertable(tools[k])
    ensures r.Ok? ==> r.value.llmConfigs == db.llmConfigs && r.value.servers == db.servers
    ensures r.Ok? ==> forall t: ToolRow :: t.serverId != serverId ==> (t in r.value.tools <==> t in db.tools)
    ensures r.Ok? ==> forall t :: t in r.value.tools ==> t in db.tools || (t.serverId == serverId && t.isEnabled)
    ensures r.Ok? ==> forall n :: Stored(db.tools, serverId, n) ==> Stored(r.value.tools, serverId, n)
    ensures r.Ok? ==> forall k :: 0 <= k < |tools| ==> Stored(r.value.tools, serverId, ToolFields(tools[k]).value.0)
    decreases |tools|
  {
    if |tools| == 0 then Ok(db)
    else match ToolFields(tools[0])
      case Err(e) => Err(e)
      case Ok((name, description, schema)) =>
        var next := Replace(db, serverId, name, description, schema);
        ReplaceKeepsOthers(db, serverId, name, description, schema);
        ReplaceStores(db, serverId, name, description, schema);
        var r := AddMcpTools(next, serverId, tools[1..]);
        assert forall k :: 1 <= k < |tools| ==> tools[k] == tools[1..][k - 1];
        r
  }

  /** A batch of tools keeps the schema's constraints. */
  lemma {:induction false} AddMcpToolsValid(db: Store, serverId: int, tools: seq<Json>)
    requires Valid(db) && AddMcpTools(db, serverId, tools).Ok?
    ensures Valid(AddMcpTools(db, serverId, tools).value)
    decreases |tools|
  {
    if |tools| > 0 {
      var (name, description, schema) := ToolFields(tools[0]).value;
      var next := Replace(db, serverId, name, description, schema);
      ReplaceValid(db, serverId, name, description, schema);
      assert AddMcpTools(db, serverId, tools) == AddMcpTools(next, serverId, tools[1..]);
      AddMcpToolsValid(next, serverId, tools[1..]);
    }
  }

  /** What `get_server_tools` reports about a tool: no schema. */
  datatype ToolSummary = ToolSummary(id: int, name: string, description: Option<string>, isEnabled: bool)

  function Summary(t: ToolRow): ToolSummary {
    ToolSummary(t.id, t.name, t.description, t.isEnabled)
  }

  /** `get_server_tools`: the tools of one server, without their schemas. */
  function GetServerTools(db: Store, serverId: int): (r: seq<ToolSummary>)
    ensures forall x :: x in r <==> exists t :: t in db.tools && t.serverId == serverId && x == Summary(t)
    ensures ToolsUnique(db.tools) ==> forall i, j :: 0 <= i < j < |r| ==> r[i].name != r[j].name && r[i].id != r[j].id
  {
    var r := ServerTools(db.tools, serverId);
    assert ToolsUnique(db.tools) ==> DistinctSummaries(r) by {
      if ToolsUnique(db.tools) { ServerToolsUnique(db.tools, serverId); }
    }
    r
  }

  function ServerTools(tools: seq<ToolRow>, serverId: int): (r: seq<ToolSummary>)
    ensures forall x :: x in r <==> exists t :: t in tools && t.serverId == serverId && x == Summary(t)
  {
    if |tools| == 0 then []
    else
      var rest := ServerTools(tools[1..], serverId);
      assert forall t :: t in tools[1..] ==> t in tools;
      assert forall t :: t in tools ==> t == tools[0] || t in tools[1..];
      assert tools[0] in tools;
      if tools[0].serverId == serverId then [Summary(tools[0])] + rest else rest
  }

  /** No two summaries share a name or an id. */
  ghost predicate DistinctSummaries(r: seq<ToolSummary>) {
    forall i, j :: 0 <= i < j < |r| ==> r[i].name != r[j].name && r[i].id != r[j].id
  }

  /** Under the schema's constraints a server's tools have distinct names and ids. */
  lemma {:induction false} ServerToolsUnique(tools: seq<ToolRow>, serverId: int)
    requires ToolsUnique(tools)
    ensures DistinctSummaries(ServerTools(tools, serverId))
  {
    if |tools| > 0 {
      var rest := ServerTools(tools[1..], serverId);
      ServerToolsUnique(tools[1..], serverId);
      if tools[0].serverId == serverId {
        var r := ServerTools(tools, serverId);
        assert r == [Summary(tools[0])] + rest;
        assert forall k :: 1 <= k < |r| ==> r[k] == rest[k - 1];
        forall j | 1 <= j < |r| ensures r[j].name != r[0].name && r[j].id != r[0].id {
          assert r[j] in rest;
          var t :| t in tools[1..] && t.serverId == serverId && r[j] == Summary(t);
          var m :| 0 <= m < |tools[1..]| && tools[1..][m] == t;
          assert t == tools[m + 1];
          assert tools[0].id != tools[m + 1].id;
          assert r[0] == Summary(tools[0]);
        }
        assert forall i, j :: 1 <= i < j < |r| ==> r[i].name != r[j].name && r[i].id != r[j].id;
      }
    }
  }

  /** Every tool `add_mcp_tools` stored is listed afterwards under its name, enabled. */
  lemma AddedToolsListed(db: Store, serverId: int, tools: seq<Json>, k: nat)
    requires AddMcpTools(db, serverId, tools).Ok? && k < |tools|
    ensures exists x :: (x in GetServerTools(AddMcpTools(db, serverId, tools).value, serverId)
      && x.name == ToolFields(tools[k]).value.0 && x.isEnabled)
  {
    var db' := AddMcpTools(db, serverId, tools).value;
    var i :| 0 <= i < |db'.tools| && db'.tools[i].serverId == serverId
      && db'.tools[i].name == ToolFields(tools[k]).value.0 && db'.tools[i].isEnabled;
    assert Summary(db'.tools[i]) in GetServerTools(db', serverId);
  }

  /** Removing a key no row has changes nothing. */
  lemma {:induction false} WithoutAbsent(tools: seq<ToolRow>, serverId: int, name: string)
    requires forall i :: 0 <= i < |tools| ==> (tools[i].serverId, tools[i].name) != (serverId, name)
    ensures Without(tools, serverId, name) == tools
  {
    if |tools| > 0 {
      WithoutAbsent(tools[1..], serverId, name);
    }
  }

  /** Under the schema's constraints, removing a key some row has removes exactly one row. */
  lemma {:induction false} WithoutPresent(tools: seq<ToolRow>, serverId: int, name: string, k: nat)
    requires ToolsUnique(tools)
    requires k < |tools| && (tools[k].serverId, tools[k].name) == (serverId, name)
    ensures |Without(tools, serverId, name)| == |tools| - 1
  {
    if k == 0 {
      WithoutAbsent(tools[1..], serverId, name);
    } else {
      WithoutPresent(tools[1..], serverId, name, k - 1);
    }
  }

  /** Adding tools whose names the server already has replaces rows one for one. */
  lemma {:induction false} AddStoredKeepsCount(db: Store, serverId: int, tools: seq<Json>)
    requires Valid(db) && AddMcpTools(db, serverId, tools).Ok?
    requires forall k :: 0 <= k < |tools| ==> Stored(db.tools, serverId, ToolFields(tools[k]).value.0)
    ensures |AddMcpTools(db, serverId, tools).value.tools| == |db.tools|
    decreases |tools|
  {
    if |tools| > 0 {
      var (name, description, schema) := ToolFields(tools[0]).value;
      var next := Replace(db, serverId, name, description, schema);
      var i :| 0 <= i < |db.tools| && db.tools[i].serverId == serverId && db.tools[i].name == name && db.tools[i].isEnabled;
      WithoutPresent(db.tools, serverId, name, i);
      ReplaceValid(db, serverId, name, description, schema);
      ReplaceStores(db, serverId, name, description, schema);
      assert AddMcpTools(db, serverId, tools) == AddMcpTools(next, serverId, tools[1..]);
      forall k | 0 <= k < |tools[1..]| ensures Stored(next.tools, serverId, ToolFields(tools[1..][k]).value.0) {
        assert tools[1..][k] == tools[k + 1];
      }
      AddStoredKeepsCount(next, serverId, tools[1..]);
    }
  }

  /**
   * Re-adding the same tools never duplicates a row: the second batch
   * succeeds and leaves as many rows as the first left.
   */
  lemma ReAddReplaces(db: Store, serverId: int, tools: seq<Json>)
    requires Valid(db) && AddMcpTools(db, serverId, tools).Ok?
    ensures var once := AddMcpTools(db, serverId, tools).value;
      AddMcpTools(once, serverId, tools).Ok? && |AddMcpTools(once, serverId, tools).value.tools| == |once.tools|
  {
    var once := AddMcpTools(db, serverId, tools).value;
    AddMcpToolsValid(db, serverId, tools);
    AddStoredKeepsCount(once, serverId, tools);
  }
}

=== FILE: dict.dfy ===
/**
 * Python dictionaries, as insertion-ordered association
 * lists. Order matters to the model: several operations of the system take
 * "the first key that matches", which Python defines by insertion order.
 */
module Dict {
  import opened Wrappers

  /** One key/value pair of a dictionary. */
  datatype Entry<K, V> = Entry(key: K, value: V)

  /** No key occurs twice: every Python dictionary has this shape. */
  ghost predicate Distinct<K, V>(d: seq<Entry<K, V>>) {
    forall i, j :: 0 <= i < j < |d| ==> d[i].key != d[j].key
  }

  /** `k in d` */
  predicate HasKey<K(==), V>(d: seq<Entry<K, V>>, k: K) {
    exists i :: 0 <= i < |d| && d[i].key == k
  }

  /** The position of the first entry with key `k`. */
  function Find<K(==), V>(d: seq<Entry<K, V>>, k: K): (r: Option<nat>)
    ensures r.Some? ==> r.value < |d| && d[r.value].key == k
    ensures r.Some? ==> forall j :: 0 <= j < r.value ==> d[j].key != k
    ensures r.None? <==> !HasKey(d, k)
  {
    if |d| == 0 then None
    else if d[0].key == k then Some(0)
    else match Find(d[1..], k)
      case None =>
        assert forall j :: 1 <= j < |d| ==> d[j] == d[1..][j - 1];
        None
      case Some(i) => Some(i + 1)
  }

  /** `d.get(k)`: the value stored under `k`, if any. */
  function Get<K(==), V>(d: seq<Entry<K, V>>, k: K): (r: Option<V>)
    ensures r.Some? <==> HasKey(d, k)
  {
    match Find(d, k)
    case None => None
    case Some(i) => Some(d[i].value)
  }

  /** `d.get(k, default)` */
  function GetOr<K(==), V>(d: seq<Entry<K, V>>, k: K, default: V): V {
    Get(d, k).GetOr(default)
  }

  /** The keys in insertion order: `list(d.keys())`. */
  function Keys<K(==), V>(d: seq<Entry<K, V>>): (ks: seq<K>)
    ensures |ks| == |d|
    ensures forall i :: 0 <= i < |d| ==> ks[i] == d[i].key
  {
    seq(|d|, i requires 0 <= i < |d| => d[i].key)
  }

  /** The position of the first entry whose key satisfies `p`: a `for k in d:` loop that stops at the first hit. */
  function FirstKey<K(==), V>(d: seq<Entry<K, V>>, p: K -> bool): (r: Option<nat>)
    ensures r.Some? ==> r.value < |d| && p(d[r.value].key)
    ensures r.Some? ==> forall j :: 0 <= j < r.value ==> !p(d[j].key)
    ensures r.None? <==> forall j :: 0 <= j < |d| ==> !p(d[j].key)
  {
    if |d| == 0 then None
    else if p(d[0].key) then Some(0)
    else match FirstKey(d[1..], p)
      case None =>
        assert forall j :: 1 <= j < |d| ==> d[j] == d[1..][j - 1];
        None
      case Some(i) => Some(i + 1)
  }

  /** Two positions of a distinct dictionary with the same key are the same position. */
  lemma DistinctFind<K, V>(d: seq<Entry<K, V>>, i: nat)
    requires Distinct(d)
    requires i < |d|
    ensures Find(d, d[i].key) == Some(i)
  {
  }

  /** `d[k] = v` on a copy: an existing key keeps its position, a new key goes last. */
  function Put<K(==, !new), V>(d: seq<Entry<K, V>>, k: K, v: V): (r: seq<Entry<K, V>>)
    ensures Get(r, k) == Some(v)
    ensures forall k' :: k' != k ==> Get(r, k') == Get(d, k')
    ensures HasKey(d, k) ==> Keys(r) == Keys(d)
    ensures !HasKey(d, k) ==> Keys(r) == Keys(d) + [k]
    ensures Distinct(d) ==> Distinct(r)
  {
    match Find(d, k)
    case Some(i) =>
      var r := d[i := Entry(k, v)];
      FindFirst(r, k, i);
      FindAgreeOthers(d, r, k);
      assert Keys(r) == Keys(d);
      r
    case None =>
      var r := d + [Entry(k, v)];
      FindFirst(r, k, |d|);
      FindAgreeOthers(d, r, k);
      assert Keys(r) == Keys(d) + [k];
      r
  }

  /** `Find` returns the first position holding the key. */
  lemma FindFirst<K, V>(d: seq<Entry<K, V>>, k: K, i: nat)
    requires i < |d| && d[i].key == k
    requires forall j :: 0 <= j < i ==> d[j].key != k
    ensures Find(d, k) == Some(i)
  {
  }

  /** Lookups agree in two lists whose common prefix has the same occurrences of `k` and whose tail lacks it. */
  lemma FindAgree<K, V>(d: seq<Entry<K, V>>, r: seq<Entry<K, V>>, k: K)
    requires |d| <= |r|
    requires forall j :: 0 <= j < |d| ==> (d[j].key == k <==> r[j].key == k)
    requires forall j :: |d| <= j < |r| ==> r[j].key != k
    ensures Find(r, k) == Find(d, k)
  {
    match Find(d, k)
    case Some(i) => FindFirst(r, k, i);
    case None =>
  }

  /** `FindAgree` for every key other than the one rewritten at the differing positions. */
  lemma FindAgreeOthers<K(!new), V>(d: seq<Entry<K, V>>, r: seq<Entry<K, V>>, k: K)
    requires |d| <= |r|
    requires forall j :: 0 <= j < |d| ==> (d[j].key == r[j].key || (d[j].key == k && r[j].key == k))
    requires forall j :: |d| <= j < |r| ==> r[j].key == k
    ensures forall k' :: k' != k ==> Find(r, k') == Find(d, k')
  {
    forall k' | k' != k
      ensures Find(r, k') == Find(d, k')
    {
      FindAgree(d, r, k');
    }
  }

  /** Removing position `i` shifts every other lookup by at most one position and keeps its value. */
  lemma GetAfterRemoval<K(!new), V>(d: seq<Entry<K, V>>, i: nat, k: K)
    requires i < |d| && d[i].key == k
    ensures forall k' :: k' != k ==> Get(d[..i] + d[i + 1..], k') == Get(d, k')
  {
    var r := d[..i] + d[i + 1..];
    assert forall j :: 0 <= j < i ==> r[j] == d[j];
    assert forall j :: i <= j < |r| ==> r[j] == d[j + 1];
    forall k' | k' != k
      ensures Get(r, k') == Get(d, k')
    {
      match Find(d, k')
      case None =>
      case Some(b) =>
        var jb := if b < i then b else b - 1;
        FindFirst(r, k', jb);
    }
  }

  /** `d.pop(k, None)` on a copy: the entry for `k` is removed, the rest keep their order. */
  function Pop<K(==, !new), V>(d: seq<Entry<K, V>>, k: K): (r: seq<Entry<K, V>>)
    ensures Distinct(d) ==> Get(r, k) == None
    ensures forall k' :: k' != k ==> Get(r, k') == Get(d, k')
    ensures HasKey(d, k) ==> |r| == |d| - 1
    ensures !HasKey(d, k) ==> r == d
    ensures Distinct(d) ==> Distinct(r)
  {
    match Find(d, k)
    case None => d
    case Some(i) =>
      var r := d[..i] + d[i + 1..];
      assert forall j :: 0 <= j < i ==> r[j] == d[j];
      assert forall j :: i <= j < |r| ==> r[j] == d[j + 1];
      assert Distinct(d) ==> !HasKey(r, k);
      GetAfterRemoval(d, i, k);
      r
  }

  /**
   * The copy-and-rename step shared by every parameter correction:
   * `c = d.copy(); c[to] = v; if from != to: c.pop(from, None)`.
   */
  function Move<K(==, !new), V>(d: seq<Entry<K, V>>, from: K, to: K, v: V): (r: seq<Entry<K, V>>)
    ensures Get(r, to) == Some(v)
    ensures from != to && Distinct(d) ==> Get(r, from) == None
    ensures forall k :: k != from && k != to ==> Get(r, k) == Get(d, k)
    ensures Distinct(d) ==> Distinct(r)
  {
    var put := Put(d, to, v);
    if from != to then Pop(put, from) else put
  }

  /** Writing a key and then popping it leaves what popping alone leaves: the earlier value under that key is gone as well. */
  lemma PopPut<K(!new), V>(d: seq<Entry<K, V>>, k: K, v: V)
    requires Distinct(d)
    ensures Pop(Put(d, k, v), k) == Pop(d, k)
  {
    var put := Put(d, k, v);
    match Find(d, k)
    case Some(i) =>
      FindFirst(put, k, i);
      assert put[..i] == d[..i] && put[i + 1..] == d[i + 1..];
    case None =>
      FindFirst(put, k, |d|);
      assert put[..|d|] + put[|d| + 1..] == d;
  }

  /** The entry at `i` is the one a lookup of its key finds when no earlier entry has that key. */
  lemma GetAt<K, V>(d: seq<Entry<K, V>>, i: nat)
    requires i < |d|
    requires forall j :: 0 <= j < i ==> d[j].key != d[i].key
    ensures Get(d, d[i].key) == Some(d[i].value)
  {
    FindFirst(d, d[i].key, i);
  }
}

=== FILE: json.dfy ===
/**
 * Decoded JSON values as Python holds them after `json.loads`, with the few
 * Python operations the system applies to them: truthiness, `in`,
 * subscription, `dict.get`, `json.dumps` and `str()`.
 * Floating-point numbers are not modelled: numbers are integers.
 */
module Json {
  import opened Wrappers
  import opened Dict
  import opened Text

  datatype Json =
    | Null
    | Bool(b: bool)
    | Num(n: int)
    | Str(s: string)
    | Arr(items: seq<Json>)
    | Obj(entries: seq<Entry<string, Json>>)

  /** The empty object `{}`. */
  const EmptyObj: Json := Obj([])

  /** Python truthiness: `None`, `False`, `0`, `""`, `[]` and `{}` are false. */
  predicate Truthy(j: Json) {
    match j
    case Null => false
    case Bool(b) => b
    case Num(n) => n != 0
    case Str(s) => |s| > 0
    case Arr(items) => |items| > 0
    case Obj(es) => |es| > 0
  }

  /** The Python type name of a decoded value, as exception texts print it. */
  function TypeName(j: Json): string {
    match j
    case Null => "NoneType"
    case Bool(_) => "bool"
    case Num(_) => "int"
    case Str(_) => "str"
    case Arr(_) => "list"
    case Obj(_) => "dict"
  }

  /**
   * Python's `key in j` for a string `key`: a key test on a dict, an element
   * test on a list, a substring test on a str. None, bool and int are not
   * containers, and Python raises `TypeError`.
   */
  function In(key: string, j: Json): (r: Result<bool>)
    ensures r.Err? <==> j.Null? || j.Bool? || j.Num?
    ensures j.Obj? ==> r == Ok(HasKey(j.entries, key))
  {
    match j
    case Obj(es) => Ok(HasKey(es, key))
    case Arr(items) => Ok(Str(key) in items)
    case Str(s) => Ok(Contains(s, key))
    case _ => Err("argument of type '" + TypeName(j) + "' is not iterable")
  }

  /**
   * Python's `j[key]` for a string `key`: the value stored under `key` in a
   * dict, `KeyError` (whose text is the key's `repr`) when it is missing, and
   * `TypeError` for every other type.
   */
  function Index(j: Json, key: string): (r: Result<Json>)
    ensures r.Ok? <==> j.Obj? && HasKey(j.entries, key)
    ensures r.Ok? ==> Get(j.entries, key) == Some(r.value)
  {
    match j
    case Obj(es) =>
      (match Get(es, key)
       case Some(v) => Ok(v)
       case None => Err(ReprString(key)))
    case Arr(_) => Err("list indices must be integers or slices, not str")
    case Str(_) => Err("string indices must be integers, not 'str'")
    case _ => Err("'" + TypeName(j) + "' object is not subscriptable")
  }

  /** Python's `j.get(key, default)`: only a dict has `get`; others raise `AttributeError`. */
  function GetOrDefault(j: Json, key: string, default: Json): (r: Result<Json>)
    ensures r.Ok? <==> j.Obj?
    ensures j.Obj? ==> r == Ok(GetOr(j.entries, key, default))
  {
    match j
    case Obj(es) => Ok(GetOr(es, key, default))
    case _ => Err("'" + TypeName(j) + "' object has no attribute 'get'")
  }

  // ---------------------------------------------------------------------------
  // json.dumps with its default settings: ensure_ascii=True and the
  // separators ", " and ": ".

  /** Every character is printable ASCII (space to tilde). */
  predicate Printable(s: string) {
    forall c :: c in s ==> ' ' <= c <= '~'
  }

  /** A lower-case hexadecimal digit. */
  function HexDigit(n: nat): (c: char)
    requires n < 16
    ensures '0' <= c <= '9' || 'a' <= c <= 'f'
  {
    if n < 10 then DigitChar(n) else ('a' as int + n - 10) as char
  }

  /** Exactly four lower-case hexadecimal digits. */
  function Hex4(n: nat): (r: string)
    requires n < 0x1_0000
    ensures |r| == 4 && Printable(r)
  {
    [HexDigit(n / 0x1000), HexDigit(n / 0x100 % 16), HexDigit(n / 16 % 16), HexDigit(n % 16)]
  }

  /** Exactly two lower-case hexadecimal digits. */
  function Hex2(n: nat): (r: string)
    requires n < 0x100
    ensures |r| == 2 && Printable(r)
  {
    [HexDigit(n / 16), HexDigit(n % 16)]
  }

  /**
   * How `json.dumps` writes one character of a string: the two-character
   * escapes, printable ASCII as itself, everything else as `\uXXXX`, with a
   * surrogate pair above the Basic Multilingual Plane.
   */
  function EscapeChar(c: char): (r: string)
    ensures Printable(r)
    ensures |r| >= 1
  {
    var n := c as int;
    if c == '"' then "\\\""
    else if c == '\\' then "\\\\"
    else if c == '\n' then "\\n"
    else if c == '\r' then "\\r"
    else if c == '\t' then "\\t"
    else if n == 0x08 then "\\b"
    else if n == 0x0c then "\\f"
    else if ' ' <= c <= '~' then [c]
    else if n < 0x1_0000 then "\\u" + Hex4(n)
    else
      var m := n - 0x1_0000;
      "\\u" + Hex4(0xd800 + m / 0x400) + "\\u" + Hex4(0xdc00 + m % 0x400)
  }

  /** The escaped body of a JSON string. */
  function Escape(s: string): (r: string)
    ensures Printable(r)
  {
    if |s| == 0 then "" else EscapeChar(s[0]) + Escape(s[1..])
  }

  /** A JSON string literal. */
  function DumpsString(s: string): (r: string)
    ensures Printable(r)
  {
    "\"" + Escape(s) + "\""
  }

  /** `json.dumps(j)`: the text is a single line of printable ASCII. */
  function Dumps(j: Json): (r: string)
    ensures Printable(r)
    ensures |r| >= 1
  {
    match j
    case Null => "null"
    case Bool(b) => if b then "true" else "false"
    case Num(n) => IntToString(n)
    case Str(s) => DumpsString(s)
    case Arr(items) => "[" + DumpsItems(items) + "]"
    case Obj(es) => "{" + DumpsEntries(es) + "}"
  }

  /** The comma-separated elements of a JSON array. */
  function DumpsItems(items: seq<Json>): (r: string)
    ensures Printable(r)
  {
    if |items| == 0 then ""
    else if |items| == 1 then Dumps(items[0])
    else Dumps(items[0]) + ", " + DumpsItems(items[1..])
  }

  /** The comma-separated members of a JSON object, in insertion order. */
  function DumpsEntries(es: seq<Entry<string, Json>>): (r: string)
    ensures Printable(r)
  {
    if |es| == 0 then ""
    else
      var e := es[0];
      assert e in es && e.value < e;
      var member := DumpsString(e.key) + ": " + Dumps(e.value);
      if |es| == 1 then member else member + ", " + DumpsEntries(es[1..])
  }

  // ---------------------------------------------------------------------------
  // str() and repr() of decoded values, used for error texts.

  /**
   * `repr` of one character inside a quoted literal: backslash and the quote
   * in use are escaped, tab/newline/return get short escapes, other control
   * characters and the Latin-1 non-printables get `\xNN`.
   */
  function ReprChar(c: char, quote: char): string {
    var n := c as int;
    if c == quote || c == '\\' then ['\\', c]
    else if c == '\t' then "\\t"
    else if c == '\n' then "\\n"
    else if c == '\r' then "\\r"
    else if n < 0x20 || (0x7f <= n <= 0xa0) || n == 0xad then "\\x" + Hex2(n)
    else [c]
  }

  /** The escaped body of a `repr` string literal. */
  function ReprBody(s: string, quote: char): string {
    if |s| == 0 then "" else ReprChar(s[0], quote) + ReprBody(s[1..], quote)
  }

  /** `repr(s)`: single quotes unless the text has a single quote and no double quote. */
  function ReprString(s: string): string {
    var quote := if '\'' in s && '"' !in s then '"' else '\'';
    [quote] + ReprBody(s, quote) + [quote]
  }

  /** `repr(j)` */
  function Repr(j: Json): string {
    match j
    case Null => "None"
    case Bool(b) => if b then "True" else "False"
    case Num(n) => IntToString(n)
    case Str(s) => ReprString(s)
    case Arr(items) => "[" + ReprItems(items) + "]"
    case Obj(es) => "{" + ReprEntries(es) + "}"
  }

  function ReprItems(items: seq<Json>): string {
    if |items| == 0 then ""
    else if |items| == 1 then Repr(items[0])
    else Repr(items[0]) + ", " + ReprItems(items[1..])
  }

  function ReprEntries(es: seq<Entry<string, Json>>): string {
    if |es| == 0 then ""
    else
      var e := es[0];
      assert e in es && e.value < e;
      var member := ReprString(e.key) + ": " + Repr(e.value);
      if |es| == 1 then member else member + ", " + ReprEntries(es[1..])
  }

  /** `str(j)`: a string is itself, everything else is its `repr`. */
  function PyStr(j: Json): string {
    match j
    case Str(s) => s
    case _ => Repr(j)
  }
}

=== FILE: llm.dfy ===
/**
 * What the LLM service prepares before it hands a conversation to a
 * provider's SDK: the client settings per provider, the OpenAI message
 * list and request options, and the single-prompt form that Gemini and
 * Bedrock receive. The SDK calls and their answers are not part of this
 * model; the sampling temperature (a float) is left out of the requests.
 */
module LlmService {
  import opened Wrappers
  import opened Dict
  import opened Json
  import opened Text
  import opened Schemas

  // ---------------------------------------------------------------------------
  // Client settings

  const ChatCompletions: string := "/chat/completions"

  /**
   * The OpenAI `base_url`: a URL ending in `/chat/completions` loses that
   * suffix (by `rsplit(..., 1)`), any other URL is kept, and an empty result
   * means the SDK's default (`None`).
   */
  function CleanBaseUrl(baseUrl: Option<string>): (r: Option<string>)
    ensures r.Some? ==> |r.value| > 0
    ensures r.Some? ==> baseUrl.Some? && (r.value == baseUrl.value || r.value + ChatCompletions == baseUrl.value)
    ensures Given(baseUrl) && !IsSuffix(ChatCompletions, baseUrl.value) ==> r == baseUrl
    ensures Given(baseUrl) && IsSuffix(ChatCompletions, baseUrl.value) && |baseUrl.value| > |ChatCompletions| ==>
      r == Some(baseUrl.value[..|baseUrl.value| - |ChatCompletions|])
    ensures baseUrl == Some(ChatCompletions) ==> r.None?
  {
    var clean :=
      if Given(baseUrl) && IsSuffix(ChatCompletions, baseUrl.value) then
        RSplitAtSuffix(baseUrl.value)
      else baseUrl;
    if Given(clean) then clean else None
  }

  /** `s.rsplit("/chat/completions", 1)[0]` for an `s` that ends with it: everything before that suffix. */
  function RSplitAtSuffix(s: string): (r: Option<string>)
    requires IsSuffix(ChatCompletions, s)
    ensures r == Some(s[..|s| - |ChatCompletions|])
    ensures r.value + ChatCompletions == s
  {
    var k := |s| - |ChatCompletions|;
    assert OccursAt(s, ChatCompletions, k);
    var head := RSplitHead(s, ChatCompletions);
    assert LastIndexOf(s, ChatCompletions) == Some(k);
    assert s[..k] + s[k..] == s;
    Some(head)
  }

  /** The suffix is removed once: a URL that ends in it twice keeps one. */
  lemma SuffixRemovedOnce(u: string)
    ensures CleanBaseUrl(Some(u + ChatCompletions + ChatCompletions)) == Some(u + ChatCompletions)
  {
    var s := u + ChatCompletions + ChatCompletions;
    assert IsSuffix(ChatCompletions, s) by {
      assert s[|s| - |ChatCompletions|..] == ChatCompletions;
    }
    assert s[..|s| - |ChatCompletions|] == u + ChatCompletions;
  }

  /** The Gemini model: the configured one, `gemini-pro` when it is empty. */
  function GeminiModel(model: string): (r: string)
    ensures |r| > 0
    ensures model != "" ==> r == model
  {
    if model == "" then "gemini-pro" else model
  }

  /** The AWS settings of the Bedrock client. */
  datatype AwsCredentials = AwsCredentials(accessKey: string, secretKey: string, region: string)

  /**
   * The Bedrock credentials packed into the API key as `access:secret`: the
   * access key is the text before the first `:`, the secret the text between
   * the first and the second `:` (anything after a second `:` is dropped),
   * and the secret is empty when there is no `:`. The region is the
   * configured URL, `us-east-1` when that is empty.
   */
  function BedrockCredentials(apiKey: string, baseUrl: Option<string>): (r: AwsCredentials)
    ensures ':' !in r.accessKey && ':' !in r.secretKey
    ensures ':' !in apiKey ==> r.accessKey == apiKey && r.secretKey == ""
    ensures ':' in apiKey ==>
      var i := IndexOfChar(apiKey, ':').value;
      && r.accessKey == apiKey[..i]
      && r.secretKey == BeforeColon(apiKey[i + 1..])
    ensures r.region == if Given(baseUrl) then baseUrl.value else "us-east-1"
  {
    var parts := Split(apiKey, ':');
    var region := if Given(baseUrl) then baseUrl.value else "us-east-1";
    if ':' in apiKey then
      var i := IndexOfChar(apiKey, ':').value;
      assert parts == [apiKey[..i]] + Split(apiKey[i + 1..], ':');
      SplitFirstPiece(apiKey[i + 1..], ':');
      AwsCredentials(parts[0], parts[1], region)
    else
      assert parts == [apiKey];
      AwsCredentials(apiKey, "", region)
  }

  /** The text up to the first `:`, or all of it when there is none. */
  function BeforeColon(s: string): (r: string)
    ensures IsPrefix(r, s) && ':' !in r
    ensures r == s || (|r| < |s| && s[|r|] == ':')
  {
    match IndexOfChar(s, ':')
    case None => s
    case Some(j) => s[..j]
  }

  /** The first piece of a split runs up to the first separator. */
  lemma SplitFirstPiece(s: string, sep: char)
    ensures Split(s, sep)[0] == match IndexOfChar(s, sep) case None => s case Some(j) => s[..j]
  {
  }

  /** The SDK client the service sets up. */
  datatype ClientSetup =
    | OpenAiClient(apiKey: string, baseUrl: Option<string>)
    | GeminiClient(model: string)
    | BedrockClient(credentials: AwsCredentials)
    | NoClient   // a provider string that is none of the three: no client, and no response later

  /** `LLMService.__init__` */
  function Setup(provider: string, apiKey: string, model: string, baseUrl: Option<string>): (r: ClientSetup)
    ensures r.NoClient? <==> ParseProvider(provider).None?
    ensures r.OpenAiClient? ==> provider == "openai" && r.baseUrl == CleanBaseUrl(baseUrl) && r.apiKey == apiKey
    ensures r.GeminiClient? ==> provider == "gemini" && r.model == GeminiModel(model)
    ensures r.BedrockClient? ==> provider == "bedrock" && r.credentials == BedrockCredentials(apiKey, baseUrl)
  {
    match ParseProvider(provider)
    case Some(OpenAi) => OpenAiClient(apiKey, CleanBaseUrl(baseUrl))
    case Some(Gemini) => GeminiClient(GeminiModel(model))
    case Some(Bedrock) => BedrockClient(BedrockCredentials(apiKey, baseUrl))
    case None => NoClient
  }

  // ---------------------------------------------------------------------------
  // OpenAI messages

  /** `tc.get(key)`, `null` when absent. */
  function Field(tc: seq<Entry<string, Json>>, key: string): Json {
    GetOr(tc, key, Null)
  }

  /** One tool call of an assistant message in OpenAI's format, with its arguments as JSON text. */
  function ConvertToolCall(tc: seq<Entry<string, Json>>): (r: Json)
    ensures Index(r, "id") == Ok(Field(tc, "id"))
    ensures Index(r, "type") == Ok(Str("function"))
    ensures Index(r, "function") == Ok(Obj([
      Entry("name", Field(tc, "name")),
      Entry("arguments", Str(Dumps(GetOr(tc, "arguments", EmptyObj))))]))
  {
    var es := [
      Entry("id", Field(tc, "id")),
      Entry("type", Str("function")),
      Entry("function", Obj([
        Entry("name", Field(tc, "name")),
        Entry("arguments", Str(Dumps(GetOr(tc, "arguments", EmptyObj))))]))];
    GetAt(es, 1);
    GetAt(es, 2);
    Obj(es)
  }

  /** Every tool call of a message converted, in order. */
  function ConvertToolCalls(calls: seq<seq<Entry<string, Json>>>): (r: seq<Json>)
    ensures |r| == |calls|
    ensures forall i :: 0 <= i < |calls| ==> r[i] == ConvertToolCall(calls[i])
  {
    if |calls| == 0 then [] else [ConvertToolCall(calls[0])] + ConvertToolCalls(calls[1..])
  }

  /** Whether the message carries a non-empty list of tool calls. */
  predicate HasToolCalls(m: ChatMessage) {
    m.toolCalls.Some? && |m.toolCalls.value| > 0
  }

  /** The optional tool call id as JSON: the text, or `null`. */
  function OptionalText(s: Option<string>): Json {
    match s
    case Some(t) => Str(t)
    case None => Null
  }

  /**
   * One message in OpenAI's format: a tool result keeps its tool call id,
   * an assistant message with tool calls carries them converted, and every
   * other message is its role and content.
   */
  function ConvertMessage(m: ChatMessage): (r: Json)
    ensures Index(r, "role") == Ok(Str(m.role))
    ensures Index(r, "content") == Ok(Str(m.content))
    ensures Index(r, "tool_call_id").Ok? <==> m.role == "tool"
    ensures m.role == "tool" ==> Index(r, "tool_call_id") == Ok(OptionalText(m.toolCallId))
    ensures Index(r, "tool_calls").Ok? <==> m.role == "assistant" && HasToolCalls(m)
    ensures Index(r, "tool_calls").Ok? ==> Index(r, "tool_calls") == Ok(Arr(ConvertToolCalls(m.toolCalls.value)))
    ensures r.Obj? && |r.entries| == if m.role == "tool" || (m.role == "assistant" && HasToolCalls(m)) then 3 else 2
  {
    var base := [Entry("role", Str(m.role)), Entry("content", Str(m.content))];
    GetAt(base, 1);
    if m.role == "tool" then
      var es := base + [Entry("tool_call_id", OptionalText(m.toolCallId))];
      GetAt(es, 0);
      GetAt(es, 1);
      GetAt(es, 2);
      Obj(es)
    else if m.role == "assistant" && HasToolCalls(m) then
      var calls := m.toolCalls.value;
      var es := base + [Entry("tool_calls", Arr(ConvertToolCalls(calls)))];
      GetAt(es, 0);
      GetAt(es, 1);
      GetAt(es, 2);
      Obj(es)
    else
      Obj(base)
  }

  /** The message list of the OpenAI request: one converted message per input message, in order. */
  function ConvertMessages(ms: seq<ChatMessage>): (r: seq<Json>)
    ensures |r| == |ms|
    ensures forall i :: 0 <= i < |ms| ==> r[i] == ConvertMessage(ms[i])
  {
    if |ms| == 0 then [] else [ConvertMessage(ms[0])] + ConvertMessages(ms[1..])
  }

  /** The keyword arguments of `chat.completions.create`, without the temperature. */
  datatype OpenAiRequest = OpenAiRequest(
    model: string,
    messages: seq<Json>,
    maxTokens: nat,
    tools: Option<seq<Json>>,
    toolChoice: Option<string>)

  /** The request: tools and `tool_choice: "auto"` only when there are tools. */
  function BuildOpenAiRequest(model: string, ms: seq<ChatMessage>, tools: Option<seq<Json>>): (r: OpenAiRequest)
    ensures r.model == model && r.maxTokens == 1000
    ensures r.messages == ConvertMessages(ms)
    ensures r.tools.Some? <==> tools.Some? && |tools.value| > 0
    ensures r.tools.Some? ==> r.tools == tools
    ensures r.toolChoice.Some? <==> r.tools.Some?
    ensures r.toolChoice.Some? ==> r.toolChoice.value == "auto"
  {
    if tools.Some? && |tools.value| > 0 then OpenAiRequest(model, ConvertMessages(ms), 1000, tools, Some("auto"))
    else OpenAiRequest(model, ConvertMessages(ms), 1000, None, None)
  }

  // ---------------------------------------------------------------------------
  // Single-prompt providers

  /** `f"{role}: {content}"` */
  function PromptLine(m: ChatMessage): string {
    m.role + ": " + m.content
  }

  /** The lines of the prompt, one per message. */
  function PromptLines(ms: seq<ChatMessage>): (r: seq<string>)
    ensures |r| == |ms|
    ensures forall i :: 0 <= i < |ms| ==> r[i] == PromptLine(ms[i])
  {
    if |ms| == 0 then [] else [PromptLine(ms[0])] + PromptLines(ms[1..])
  }

  /** The prompt of Gemini and Bedrock: the lines joined by newlines. */
  function Prompt(ms: seq<ChatMessage>): string {
    Join(PromptLines(ms), "\n")
  }

  /** When no role or content holds a newline, splitting the prompt at newlines gives back one line per message. */
  lemma PromptLinesRecoverable(ms: seq<ChatMessage>)
    requires |ms| >= 1
    requires forall i :: 0 <= i < |ms| ==> '\n' !in ms[i].role && '\n' !in ms[i].content
    ensures Split(Prompt(ms), '\n') == PromptLines(ms)
  {
    var lines := PromptLines(ms);
    forall i | 0 <= i < |lines|
      ensures '\n' !in lines[i]
    {
      LineWithoutNewline(ms[i]);
    }
    SplitJoin(lines, '\n');
  }

  /** A line holds a newline only when its role or content does. */
  lemma LineWithoutNewline(m: ChatMessage)
    requires '\n' !in m.role && '\n' !in m.content
    ensures '\n' !in PromptLine(m)
  {
    var s := PromptLine(m);
    forall k | 0 <= k < |s| ensures s[k] != '\n' {
      if k < |m.role| {
        assert s[k] == m.role[k];
      } else if k < |m.role| + 2 {
        assert s[k] == ": "[k - |m.role|];
      } else {
        assert s[k] == m.content[k - |m.role| - 2];
      }
    }
  }

  /** The JSON body sent to Bedrock, without the temperature. */
  datatype BedrockBody = BedrockBody(prompt: string, maxTokensToSample: nat, stopSequences: seq<string>)

  const HumanTurn: string := "\n\nHuman:"

  /** The prompt wrapped as one human turn followed by an open assistant turn, stopping at the next human turn. */
  function BedrockRequest(ms: seq<ChatMessage>): (r: BedrockBody)
    ensures IsPrefix(HumanTurn + " ", r.prompt) && IsSuffix("\n\nAssistant:", r.prompt)
    ensures |r.prompt| == |HumanTurn| + 1 + |Prompt(ms)| + |"\n\nAssistant:"|
    ensures r.prompt[|HumanTurn| + 1..|r.prompt| - |"\n\nAssistant:"|] == Prompt(ms)
    ensures r.stopSequences == [HumanTurn] && r.maxTokensToSample == 1000
  {
    var p := HumanTurn + " " + Prompt(ms) + "\n\nAssistant:";
    assert p[..|HumanTurn| + 1] == HumanTurn + " ";
    assert p[|p| - |"\n\nAssistant:"|..] == "\n\nAssistant:";
    BedrockBody(p, 1000, [HumanTurn])
  }
}

=== FILE: routes.dfy ===
/**
 * The decision logic of three HTTP endpoints: the tool-call endpoint with
 * its response classification and its one parameter-corrected retry, the
 * two health endpoints that map a health snapshot to stored status strings,
 * and the assembly of the tool list the chat endpoint offers the LLM.
 *
 * The MCP server's answers, process liveness and `json.loads` are inputs.
 */
module Routes {
  import opened Wrappers
  import opened Dict
  import opened Json
  import opened Text
  import opened Schemas
  import opened ParameterCorrector
  import opened Database
  import Supervisor

  // ---------------------------------------------------------------------------
  // Tool calls

  /** What one `_make_tool_call` did: the client's reply, or the text of the exception it raised. */
  datatype Attempt = Replied(result: Json) | Raised(text: string)

  /** The `(success, result_or_error)` pair `_make_tool_call` returns. */
  datatype Outcome = Succeeded(value: Json) | Failed(error: Json)

  const InvalidFormat := "Invalid response format from MCP server"

  /**
   * `_make_tool_call`'s classification of a reply: a JSON-RPC error wins
   * even when a result is present too; a result alone is a success; every
   * other reply, `{}` included, is an invalid format.
   */
  function Classify(result: Json): (r: Outcome)
    ensures result.Obj? && HasKey(result.entries, "error") ==> r == Failed(Get(result.entries, "error").value)
    ensures r.Succeeded? <==> result.Obj? && !HasKey(result.entries, "error") && HasKey(result.entries, "result")
    ensures r.Succeeded? ==> Get(result.entries, "result") == Some(r.value)
    ensures !(result.Obj? && (HasKey(result.entries, "error") || HasKey(result.entries, "result"))) ==>
      r == Failed(Str(InvalidFormat))
  {
    match result
    case Obj(es) =>
      if Truthy(result) && HasKey(es, "error") then Failed(Get(es, "error").value)
      else if Truthy(result) && HasKey(es, "result") then Succeeded(Get(es, "result").value)
      else Failed(Str(InvalidFormat))
    case _ => Failed(Str(InvalidFormat))
  }

  /**
   * The error message of a failed call: a dict error's "message" (defaulting
   * to the dict's `str`), and the `str` of any other error. The message of a
   * dict need not be a string.
   */
  function ErrorMessage(error: Json): (r: Json)
    ensures error.Obj? && HasKey(error.entries, "message") ==> Get(error.entries, "message") == Some(r)
    ensures error.Obj? && !HasKey(error.entries, "message") ==> r == Str(PyStr(error))
    ensures !error.Obj? ==> r == Str(PyStr(error))
  {
    match error
    case Obj(es) => GetOr(es, "message", Str(PyStr(error)))
    case _ => Str(PyStr(error))
  }

  /** Whether the lowercased message names a validation problem. */
  predicate ShouldCorrect(message: string) {
    var lower := Lower(message);
    Contains(lower, "invalid") || Contains(lower, "required") || Contains(lower, "expected")
  }

  /** The endpoint's answer, with the arguments of the retry if one was made. */
  datatype CallTrace = CallTrace(response: ToolCallResponse, retried: Option<Params>)

  /** A failed answer carrying `error`. */
  function Failure(error: string): (r: ToolCallResponse)
    ensures !r.success && r.result == Null && r.error == Some(error)
  {
    ToolCallResponse(false, Null, Some(error))
  }

  /**
   * `call_tool`: a missing server and every exception become a failed answer
   * with the exception's text; a first success is returned as is; otherwise
   * a correction is looked for only when the message names a validation
   * problem, and at most one retry is made with the corrected arguments,
   * whose failure reports the original message.
   */
  function CallTool(serverFound: bool, params: Params, first: Attempt, retry: Params -> Attempt): (r: CallTrace)
    ensures r.response.success ==> r.response.error.None?
    ensures !r.response.success ==> r.response.result == Null && r.response.error.Some?
    ensures !serverFound ==> r == CallTrace(Failure("404: Server not found"), None)
    ensures serverFound && first.Replied? && Classify(first.result).Succeeded? ==>
      r == CallTrace(Answer(true, Classify(first.result).value), None)
    ensures serverFound && first.Raised? ==> r == CallTrace(Failure(first.text), None)
    ensures r.retried.Some? ==>
      && serverFound && first.Replied? && Classify(first.result).Failed?
      && var message := ErrorMessage(Classify(first.result).error);
         message.Str? && ShouldCorrect(message.s)
         && Analyze(message.s, params).Some? && r.retried.value == Analyze(message.s, params).value.corrected
    ensures serverFound && first.Replied? && Classify(first.result).Failed? ==>
      var message := ErrorMessage(Classify(first.result).error);
      && (!message.Str? ==> r == CallTrace(Failure("'" + TypeName(message) + "' object has no attribute 'lower'"), None))
      && (message.Str? && ShouldCorrect(message.s) && Analyze(message.s, params).Some? ==>
            r.retried == Some(Analyze(message.s, params).value.corrected))
      && (message.Str? && (!ShouldCorrect(message.s) || Analyze(message.s, params).None?) ==>
            r == CallTrace(Failure(message.s), None))
    ensures r.retried.Some? && retry(r.retried.value).Raised? ==> r.response == Failure(retry(r.retried.value).text)
    ensures r.retried.Some? && retry(r.retried.value).Replied? && Classify(retry(r.retried.value).result).Succeeded? ==>
      r.response == Answer(true, Classify(retry(r.retried.value).result).value)
  {
    if !serverFound then CallTrace(Failure("404: Server not found"), None)
    else match first
      case Raised(text) => CallTrace(Failure(text), None)
      case Replied(result) =>
        match Classify(result)
        case Succeeded(value) => CallTrace(Answer(true, value), None)
        case Failed(error) =>
          var message := ErrorMessage(error);
          if !message.Str? then
            CallTrace(Failure("'" + TypeName(message) + "' object has no attribute 'lower'"), None)
          else if !ShouldCorrect(message.s) then CallTrace(Failure(message.s), None)
          else match Analyze(message.s, params)
            case None => CallTrace(Failure(message.s), None)
            case Some(correction) =>
              var answer := match retry(correction.corrected)
                case Raised(text) => Failure(text)
                case Replied(again) =>
                  match Classify(again)
                  case Succeeded(value) => Answer(true, value)
                  case Failed(_) => Failure(message.s);
              CallTrace(answer, Some(correction.corrected))
  }

  /**
   * The error the endpoint reports after a first failure: the original
   * message whenever no retry succeeds, unless the retry raised.
   */
  lemma FailureReportsOriginalMessage(params: Params, first: Json, retry: Params -> Attempt)
    requires Classify(first).Failed? && ErrorMessage(Classify(first).error).Str?
    ensures var message := ErrorMessage(Classify(first).error).s;
      var r := CallTool(true, params, Replied(first), retry);
      && (!ShouldCorrect(message) ==> r == CallTrace(Failure(message), None))
      && (r.retried.Some? && retry(r.retried.value).Replied? && Classify(retry(r.retried.value).result).Failed? ==>
            r.response == Failure(message))
      && (r.retried.None? ==> r.response == Failure(message))
  {
  }

  /** A message without any of the three words never leads to a retry, whatever the arguments. */
  lemma NoRetryWithoutValidationWords(params: Params, first: Attempt, retry: Params -> Attempt)
    requires first.Replied? && Classify(first.result).Failed?
    requires var m := ErrorMessage(Classify(first.result).error); m.Str? && !ShouldCorrect(m.s)
    ensures CallTool(true, params, first, retry).retried.None?
    ensures CallTool(true, params, first, retry).response == Failure(ErrorMessage(Classify(first.result).error).s)
  {
  }

  // ---------------------------------------------------------------------------
  // Health

  /** The stored status of a server whose process is not running: "error" only for a non-zero exit. */
  function StatusAfter(h: Supervisor.Health): (r: string)
    ensures r == "error" <==> h.Status() == "exited" && h.ExitCode() != Some(0)
    ensures r != "error" ==> r == "stopped"
  {
    if h.Gone? && h.exitCode != 0 then "error" else "stopped"
  }

  /** The stored status agrees with the manager's own status: "error" is a registered process that exited non-zero. */
  lemma StatusAfterAgrees(t: Supervisor.Table, id: int, poll: Supervisor.Poll)
    ensures StatusAfter(Supervisor.CheckHealth(t, id, poll)) == "error" <==>
      Supervisor.ServerStatus(t, id, poll) == "error" && poll(id) != Some(0)
  {
  }

  /**
   * `get_server_health`: an unknown id or a remote server is refused; the
   * health is returned, and when the process is not running the dead
   * processes are cleaned up and the server's row is marked stopped, with
   * status "error" for a non-zero exit.
   */
  method ServerHealth(db: Store, t: Supervisor.Table, id: int, poll: Supervisor.Poll)
    returns (r: Result<Supervisor.Health>, db': Store, t': Supervisor.Table)
    requires Supervisor.Valid(t)
    ensures ServerIndex(db.servers, id).None? ==> r == Err("Server not found") && db' == db && t' == t
    ensures ServerIndex(db.servers, id).Some? && db.servers[ServerIndex(db.servers, id).value].serverType != "local" ==>
      r == Err("Health check only available for local servers") && db' == db && t' == t
    ensures ServerIndex(db.servers, id).Some? && db.servers[ServerIndex(db.servers, id).value].serverType == "local" ==>
      r == Ok(Supervisor.CheckHealth(t, id, poll))
    ensures r.Ok? ==> r.value == Supervisor.CheckHealth(t, id, poll)
    ensures r.Ok? && r.value.Running() ==> db' == db && t' == t
    ensures r.Ok? && !r.value.Running() ==>
      db' == UpdateServerStatus(UpdateProcessStatus(db, id, "stopped"), id, StatusAfter(r.value))
    ensures r.Ok? && !r.value.Running() ==> forall k ::
      Get(t'.processes, k) == if poll(k).Some? then None else Get(t.processes, k)
    ensures Supervisor.Valid(t')
  {
    db', t' := db, t;
    match ServerIndex(db.servers, id)
    case None =>
      r := Err("Server not found");
    case Some(i) =>
      if db.servers[i].serverType != "local" {
        r := Err("Health check only available for local servers");
      } else {
        var health := Supervisor.CheckHealth(t, id, poll);
        if !health.Running() {
          var _, cleaned := Supervisor.CleanupDead(t, poll);
          t' := cleaned;
          db' := UpdateProcessStatus(db', id, "stopped");
          db' := UpdateServerStatus(db', id, StatusAfter(health));
        }
        r := Ok(health);
      }
  }

  /** The rows `get_all_servers_health` marks: local servers in the snapshot that are not running. */
  predicate Marked(health: seq<Entry<int, Supervisor.Health>>, row: ServerRow) {
    row.serverType == "local" && HasKey(health, row.id) && !Get(health, row.id).value.Running()
  }

  /** A marked row after its two updates. */
  function MarkedRow(health: seq<Entry<int, Supervisor.Health>>, row: ServerRow): (r: ServerRow)
    requires HasKey(health, row.id)
    ensures r == row.(processStatus := "stopped", status := StatusAfter(Get(health, row.id).value))
  {
    row.(processStatus := "stopped", status := StatusAfter(Get(health, row.id).value))
  }

  /**
   * `get_all_servers_health`: the health of every managed server is taken
   * before the dead ones are cleaned up; only when something was cleaned up
   * are the rows of the local servers in that snapshot that are not running
   * marked stopped, or error for a non-zero exit. Every other row is kept.
   */
  method AllServersHealth(db: Store, t: Supervisor.Table, poll: Supervisor.Poll)
    returns (health: seq<Entry<int, Supervisor.Health>>, cleaned: nat, db': Store, t': Supervisor.Table)
    requires Supervisor.Valid(t) && Database.Valid(db)
    ensures health == Supervisor.AllHealth(t, poll)
    ensures cleaned == |Supervisor.DeadServers(t, poll)|
    ensures Supervisor.Valid(t')
    ensures forall k :: Get(t'.processes, k) == if poll(k).Some? then None else Get(t.processes, k)
    ensures db'.llmConfigs == db.llmConfigs && db'.tools == db.tools && |db'.servers| == |db.servers|
    ensures forall i :: 0 <= i < |db.servers| ==>
      db'.servers[i] == if cleaned > 0 && Marked(health, db.servers[i]) then MarkedRow(health, db.servers[i]) else db.servers[i]
  {
    health := Supervisor.AllHealth(t, poll);
    cleaned, t' := Supervisor.CleanupDead(t, poll);
    if cleaned > 0 {
      db' := MarkRows(db, health);
    } else {
      db' := db;
    }
  }

  /** The update loop of `get_all_servers_health` over the servers as listed before it starts. */
  method MarkRows(db: Store, health: seq<Entry<int, Supervisor.Health>>) returns (db': Store)
    requires Database.Valid(db)
    ensures db'.llmConfigs == db.llmConfigs && db'.tools == db.tools && |db'.servers| == |db.servers|
    ensures forall i :: 0 <= i < |db.servers| ==>
      db'.servers[i] == if Marked(health, db.servers[i]) then MarkedRow(health, db.servers[i]) else db.servers[i]
  {
    var servers := db.servers;
    db' := db;
    var k := 0;
    while k < |servers|
      invariant 0 <= k <= |servers|
      invariant db'.llmConfigs == db.llmConfigs && db'.tools == db.tools && |db'.servers| == |servers|
      invariant forall i :: 0 <= i < |servers| ==>
        db'.servers[i] == if i < k && Marked(health, servers[i]) then MarkedRow(health, servers[i]) else servers[i]
    {
      var row := servers[k];
      if Marked(health, row) {
        var h := Get(health, row.id).value;
        var before := db';
        db' := UpdateProcessStatus(db', row.id, "stopped");
        db' := UpdateServerStatus(db', row.id, StatusAfter(h));
        forall i | 0 <= i < |servers|
          ensures db'.servers[i] == if i < k + 1 && Marked(health, servers[i]) then MarkedRow(health, servers[i]) else servers[i]
        {
          if i != k {
            assert servers[i].id != row.id;
            assert before.servers[i].id == servers[i].id;
          }
        }
      }
      k := k + 1;
    }
  }

  // ---------------------------------------------------------------------------
  // Chat tools

  /** `{"type": "object", "properties": {}}` */
  const DefaultSchema: Json := Obj([Entry("type", Str("object")), Entry("properties", EmptyObj)])

  /** The schema a parsed text gives: a non-empty dict as is, anything else the default. */
  function SchemaFrom(parsed: Option<Json>): (r: Json)
    ensures r.Obj? && |r.entries| > 0
    ensures parsed.Some? && parsed.value.Obj? && |parsed.value.entries| > 0 ==> r == parsed.value
    ensures !(parsed.Some? && parsed.value.Obj? && |parsed.value.entries| > 0) ==> r == DefaultSchema
  {
    match parsed
    case Some(Obj(es)) => if |es| > 0 then Obj(es) else DefaultSchema
    case _ => DefaultSchema
  }

  /** One entry of the tool list handed to the LLM. */
  function ToolSpec(name: string, description: Option<string>, parameters: Json): Json {
    var text := match description case None => Null case Some(d) => Str(d);
    Obj([Entry("type", Str("function")),
         Entry("function", Obj([Entry("name", Str(name)), Entry("description", text), Entry("parameters", parameters)]))])
  }

  /** Whether a tool's server is enabled and connected. */
  predicate Offered(servers: seq<ServerRow>, t: ToolRow) {
    exists i :: 0 <= i < |servers| && servers[i].id == t.serverId && servers[i].isEnabled && servers[i].status == "connected"
  }

  /** The specs of the enabled summaries of one server; their schema comes from `json.loads("{}")`. */
  function SummarySpecs(summaries: seq<ToolSummary>): (r: seq<Json>)
    ensures forall x :: x in r <==> exists s :: s in summaries && s.isEnabled && x == ToolSpec(s.name, s.description, SchemaFrom(Some(EmptyObj)))
  {
    if |summaries| == 0 then []
    else
      var rest := SummarySpecs(summaries[1..]);
      assert forall s :: s in summaries <==> s == summaries[0] || s in summaries[1..];
      if summaries[0].isEnabled then [ToolSpec(summaries[0].name, summaries[0].description, SchemaFrom(Some(EmptyObj)))] + rest
      else rest
  }

  /**
   * The chat endpoint's tool list as written: the tools come from
   * `get_server_tools`, which returns no schema, so the stored schema is
   * never read and every tool gets the default schema.
   */
  function ChatToolsAsWritten(db: Store, excludeTools: Option<bool>): (r: seq<Json>)
    ensures excludeTools == Some(true) ==> r == []
    ensures excludeTools != Some(true) ==> forall x :: x in r <==>
      exists t :: t in db.tools && t.isEnabled && Offered(db.servers, t) && x == ToolSpec(t.name, t.description, DefaultSchema)
  {
    if excludeTools == Some(true) then []
    else AsWrittenFrom(db, db.servers)
  }

  function AsWrittenFrom(db: Store, servers: seq<ServerRow>): (r: seq<Json>)
    ensures forall x :: x in r <==>
      exists t :: t in db.tools && t.isEnabled && Offered(servers, t) && x == ToolSpec(t.name, t.description, DefaultSchema)
  {
    if |servers| == 0 then []
    else
      var rest := AsWrittenFrom(db, servers[1..]);
      var here := if servers[0].isEnabled && servers[0].status == "connected" then SummarySpecs(GetServerTools(db, servers[0].id)) else [];
      OfferedSplit(servers);
      forall x | x in here
        ensures exists t :: t in db.tools && t.isEnabled && Offered(servers, t) && x == ToolSpec(t.name, t.description, DefaultSchema)
      {
        var s :| s in GetServerTools(db, servers[0].id) && s.isEnabled && x == ToolSpec(s.name, s.description, DefaultSchema);
        var t :| t in db.tools && t.serverId == servers[0].id && s == Summary(t);
        assert Offered(servers, t) by { assert servers[0].id == t.serverId; }
      }
      forall t | t in db.tools && t.isEnabled && Offered(servers, t) && !Offered(servers[1..], t)
        ensures ToolSpec(t.name, t.description, DefaultSchema) in here
      {
        assert Summary(t) in GetServerTools(db, t.serverId);
      }
      here + rest
  }

  /** A tool is offered by a list of servers when it is offered by its first server or by the rest. */
  lemma OfferedSplit(servers: seq<ServerRow>)
    requires |servers| > 0
    ensures forall t :: Offered(servers, t) <==>
      (servers[0].id == t.serverId && servers[0].isEnabled && servers[0].status == "connected") || Offered(servers[1..], t)
  {
    forall t | Offered(servers, t)
      ensures (servers[0].id == t.serverId && servers[0].isEnabled && servers[0].status == "connected") || Offered(servers[1..], t)
    {
      var i :| 0 <= i < |servers| && servers[i].id == t.serverId && servers[i].isEnabled && servers[i].status == "connected";
      if i > 0 { assert servers[1..][i - 1] == servers[i]; }
    }
    forall t | Offered(servers[1..], t) ensures Offered(servers, t) {
      var i :| 0 <= i < |servers[1..]| && servers[1..][i].id == t.serverId && servers[1..][i].isEnabled && servers[1..][i].status == "connected";
      assert servers[i + 1] == servers[1..][i];
    }
  }

  /**
   * The chat endpoint's tool list as evidently intended: the schema stored
   * for each tool is parsed and used, falling back to the default when it
   * is unparsable, empty or not a dict.
   */
  function ChatTools(db: Store, excludeTools: Option<bool>, loads: string -> Option<Json>): (r: seq<Json>)
    ensures excludeTools == Some(true) ==> r == []
    ensures excludeTools != Some(true) ==> forall x :: x in r <==>
      exists t :: t in db.tools && t.isEnabled && Offered(db.servers, t) && x == ToolSpec(t.name, t.description, SchemaFrom(loads(t.schema)))
  {
    if excludeTools == Some(true) then []
    else ChatToolsFrom(db, db.servers, loads)
  }

  function ChatToolsFrom(db: Store, servers: seq<ServerRow>, loads: string -> Option<Json>): (r: seq<Json>)
    ensures forall x :: x in r <==>
      exists t :: t in db.tools && t.isEnabled && Offered(servers, t) && x == ToolSpec(t.name, t.description, SchemaFrom(loads(t.schema)))
  {
    if |servers| == 0 then []
    else
      var rest := ChatToolsFrom(db, servers[1..], loads);
      var here := if servers[0].isEnabled && servers[0].status == "connected" then RowSpecs(db.tools, servers[0].id, loads) else [];
      OfferedSplit(servers);
      here + rest
  }

  /** The specs of the enabled tools of one server, with their parsed schemas. */
  function RowSpecs(tools: seq<ToolRow>, serverId: int, loads: string -> Option<Json>): (r: seq<Json>)
    ensures forall x :: x in r <==>
      exists t :: t in tools && t.serverId == serverId && t.isEnabled && x == ToolSpec(t.name, t.description, SchemaFrom(loads(t.schema)))
  {
    if |tools| == 0 then []
    else
      var rest := RowSpecs(tools[1..], serverId, loads);
      assert forall t :: t in tools <==> t == tools[0] || t in tools[1..];
      if tools[0].serverId == serverId && tools[0].isEnabled then
        [ToolSpec(tools[0].name, tools[0].description, SchemaFrom(loads(tools[0].schema)))] + rest
      else rest
  }

  /**
   * The discrepancy: a tool whose stored schema parses to a non-empty dict
   * other than the default reaches the LLM with that schema under the
   * intended assembly, and as written it never does.
   */
  lemma AsWrittenDropsSchema(db: Store, t: ToolRow, loads: string -> Option<Json>, schema: Json)
    requires t in db.tools && t.isEnabled && Offered(db.servers, t)
    requires loads(t.schema) == Some(schema) && schema.Obj? && |schema.entries| > 0 && schema != DefaultSchema
    ensures ToolSpec(t.name, t.description, schema) in ChatTools(db, None, loads)
    ensures ToolSpec(t.name, t.description, schema) !in ChatToolsAsWritten(db, None)
  {
    assert SchemaFrom(loads(t.schema)) == schema;
  }

  /**
   * The intended round trip: a tool registered with a non-empty input schema
   * on an enabled, connected server is offered to the LLM with that schema,
   * given a `json.loads` that parses what `json.dumps` wrote.
   */
  lemma RegisteredSchemaReachesChat(db: Store, serverId: int, tool: Json, schema: Json, loads: string -> Option<Json>)
    requires AddMcpTools(db, serverId, [tool]).Ok?
    requires tool.Obj? && Get(tool.entries, "inputSchema") == Some(schema)
    requires schema.Obj? && |schema.entries| > 0 && loads(Dumps(schema)) == Some(schema)
    requires exists i :: 0 <= i < |db.servers| && db.servers[i].id == serverId && db.servers[i].isEnabled && db.servers[i].status == "connected"
    ensures var (name, description, _) := ToolFields(tool).value;
      ToolSpec(name, description, schema) in ChatTools(AddMcpTools(db, serverId, [tool]).value, None, loads)
  {
    var (name, description, text) := ToolFields(tool).value;
    var next := Replace(db, serverId, name, description, text);
    assert AddMcpTools(db, serverId, [tool]) == AddMcpTools(next, serverId, []);
    var row := next.tools[|next.tools| - 1];
    assert row == ToolRow(next.toolSeq, serverId, name, description, true, Dumps(schema));
    assert row in next.tools;
    assert Offered(next.servers, row);
  }
}

=== FILE: schemas.dfy ===
/**
 * The request and response records of the HTTP interface, with their field
 * defaults, the validation of a new server's configuration, and the set of
 * LLM providers.
 */
module Schemas {
  import opened Wrappers
  import opened Dict
  import opened Json
  import opened Text

  /** The LLM providers the system talks to. */
  datatype LlmProvider = OpenAi | Gemini | Bedrock {
    /** The enum's string value, as stored in the database. */
    function Value(): string {
      match this
      case OpenAi => "openai"
      case Gemini => "gemini"
      case Bedrock => "bedrock"
    }
  }

  /** `LLMProvider(s)`: the member whose value is `s`, `None` where Python raises `ValueError`. */
  function ParseProvider(s: string): (r: Option<LlmProvider>)
    ensures r.Some? ==> r.value.Value() == s
    ensures r.None? ==> forall p: LlmProvider :: p.Value() != s
  {
    if s == "openai" then Some(OpenAi)
    else if s == "gemini" then Some(Gemini)
    else if s == "bedrock" then Some(Bedrock)
    else None
  }

  /** Every provider's value parses back to that provider, and the three values are distinct. */
  lemma ProviderRoundTrip(p: LlmProvider)
    ensures ParseProvider(p.Value()) == Some(p)
  {
    match p
    case OpenAi =>
    case Gemini => assert "gemini"[0] != "openai"[0];
    case Bedrock => assert "bedrock"[0] != "openai"[0] && |"bedrock"| != |"gemini"|;
  }

  /** The body of a request to register an MCP server. */
  datatype ServerCreate = ServerCreate(
    name: string,
    serverType: string,
    url: Option<string>,
    apiKey: Option<string>,
    command: Option<string>,
    args: Option<seq<string>>,
    autoStart: bool,
    workingDirectory: Option<string>)

  /** A server registration that sets only its name: every other field takes its default. */
  function DefaultServerCreate(name: string): (c: ServerCreate)
    ensures c.name == name && c.serverType == "remote" && c.autoStart
    ensures c.url.None? && c.apiKey.None? && c.command.None? && c.args.None? && c.workingDirectory.None?
  {
    ServerCreate(name, "remote", None, None, None, None, true, None)
  }

  /**
   * `validate_server_config`: a remote server needs a non-empty URL, a local
   * one a non-empty command, and no other server type is accepted. `Err`
   * carries the text of the `ValueError`.
   */
  function ValidateServerConfig(c: ServerCreate): (r: Result<ServerCreate>)
    ensures r.Ok? <==> (c.serverType == "remote" && Given(c.url)) || (c.serverType == "local" && Given(c.command))
    ensures r.Ok? ==> r.value == c
    ensures c.serverType == "remote" && !Given(c.url) ==> r == Err("URL is required for remote servers")
    ensures c.serverType == "local" && !Given(c.command) ==> r == Err("Command is required for local servers")
    ensures c.serverType != "remote" && c.serverType != "local" ==> r == Err("server_type must be either \"remote\" or \"local\"")
  {
    if c.serverType == "remote" then
      if !Given(c.url) then Err("URL is required for remote servers") else Ok(c)
    else if c.serverType == "local" then
      if !Given(c.command) then Err("Command is required for local servers") else Ok(c)
    else Err("server_type must be either \"remote\" or \"local\"")
  }

  /** A registration that sets only its name is rejected: the default type is remote and the URL is missing. */
  lemma DefaultsNeedUrl(name: string)
    ensures ValidateServerConfig(DefaultServerCreate(name)) == Err("URL is required for remote servers")
  {
  }

  /** A message of the conversation as the client sends it. */
  datatype ChatMessage = ChatMessage(
    role: string,
    content: string,
    toolCalls: Option<seq<seq<Entry<string, Json>>>>,
    toolCallId: Option<string>)

  /** A message with only its role and content set. */
  function Message(role: string, content: string): (m: ChatMessage)
    ensures m.role == role && m.content == content && m.toolCalls.None? && m.toolCallId.None?
  {
    ChatMessage(role, content, None, None)
  }

  /** The body of a chat request. */
  datatype ChatRequest = ChatRequest(
    message: string,
    history: seq<ChatMessage>,
    llmConfigId: Option<int>,
    excludeTools: Option<bool>)

  /** A chat request with only its message set: an empty history, no configuration chosen, tools included. */
  function DefaultChatRequest(message: string): (r: ChatRequest)
    ensures r.message == message && r.history == [] && r.llmConfigId.None? && r.excludeTools == Some(false)
  {
    ChatRequest(message, [], None, Some(false))
  }

  /** The answer of the tool-call endpoint. */
  datatype ToolCallResponse = ToolCallResponse(success: bool, result: Json, error: Option<string>)

  /** A tool-call answer without an error text. */
  function Answer(success: bool, result: Json): (r: ToolCallResponse)
    ensures r.success == success && r.result == result && r.error.None?
  {
    ToolCallResponse(success, result, None)
  }
}

=== FILE: supervisor.dfy ===
/**
 * The local process supervisor: the table of child processes started for
 * local MCP servers, keyed by server id, with their launch configurations.
 *
 * The operating system is a parameter. Whatever `poll()` would answer about
 * a child at the time of a call is the `Poll` function. Whether the command
 * resolves on `PATH` is a boolean, and so is whether spawning succeeded. How
 * termination went is a `Termination`. The line the child writes back is a
 * `Reply`.
 */
module Supervisor {
  import opened Wrappers
  import opened Dict
  import opened Json
  import opened Text

  /** A spawned child process. */
  datatype Process = Process(pid: int)

  /** What `start_server` records about a server next to its process. */
  datatype Config = Config(
    name: string,
    command: string,
    args: seq<Json>,
    workingDirectory: Option<string>,
    logFile: string)

  /** The two dictionaries of the manager: `processes` and `server_configs`. */
  datatype Table = Table(processes: seq<Entry<int, Process>>, configs: seq<Entry<int, Config>>)

  /** The answer `poll()` gives for the process registered under each id: `None` while it runs, else its exit code. */
  type Poll = int -> Option<int>

  /** The table as the manager keeps it: both dictionaries hold the same ids. */
  ghost predicate Valid(t: Table) {
    && Distinct(t.processes)
    && Distinct(t.configs)
    && forall id :: HasKey(t.processes, id) <==> HasKey(t.configs, id)
  }

  /** The manager's state at construction. */
  const Empty: Table := Table([], [])

  lemma EmptyValid()
    ensures Valid(Empty)
  {
  }

  // ---------------------------------------------------------------------------
  // Registration and removal

  /** `processes[id] = p; server_configs[id] = c` */
  function Register(t: Table, id: int, p: Process, c: Config): (r: Table)
    ensures Valid(t) ==> Valid(r)
    ensures Get(r.processes, id) == Some(p) && Get(r.configs, id) == Some(c)
    ensures forall other :: other != id ==> Get(r.processes, other) == Get(t.processes, other)
    ensures forall other :: other != id ==> Get(r.configs, other) == Get(t.configs, other)
  {
    var r := Table(Put(t.processes, id, p), Put(t.configs, id, c));
    assert forall other :: HasKey(r.processes, other) <==> Get(r.processes, other).Some?;
    assert forall other :: HasKey(r.configs, other) <==> Get(r.configs, other).Some?;
    r
  }

  /** `cleanup_server(id)`: the id leaves both dictionaries; nothing else changes. */
  function Cleanup(t: Table, id: int): (r: Table)
    ensures Valid(t) ==> Valid(r)
    ensures Valid(t) ==> Get(r.processes, id) == None && Get(r.configs, id) == None
    ensures forall other :: other != id ==> Get(r.processes, other) == Get(t.processes, other)
    ensures forall other :: other != id ==> Get(r.configs, other) == Get(t.configs, other)
    ensures !HasKey(t.processes, id) && !HasKey(t.configs, id) ==> r == t
  {
    var r := Table(Pop(t.processes, id), Pop(t.configs, id));
    assert forall other :: HasKey(r.processes, other) <==> Get(r.processes, other).Some?;
    assert forall other :: HasKey(r.configs, other) <==> Get(r.configs, other).Some?;
    r
  }

  /**
   * Registering and then cleaning up an id is the same as cleaning it up:
   * a start that fails after registering also drops whatever was registered
   * under that id before.
   */
  lemma CleanupRegister(t: Table, id: int, p: Process, c: Config)
    requires Valid(t)
    ensures Cleanup(Register(t, id, p, c), id) == Cleanup(t, id)
  {
    PopPut(t.processes, id, p);
    PopPut(t.configs, id, c);
  }

  // ---------------------------------------------------------------------------
  // Queries

  /** `is_server_running(id)` */
  predicate IsRunning(t: Table, id: int, poll: Poll) {
    HasKey(t.processes, id) && poll(id).None?
  }

  /** `get_server_status(id)` */
  function ServerStatus(t: Table, id: int, poll: Poll): (r: string)
    ensures r == "stopped" <==> !HasKey(t.processes, id)
    ensures r == "running" <==> IsRunning(t, id, poll)
    ensures r == "error" <==> HasKey(t.processes, id) && poll(id).Some?
  {
    if !HasKey(t.processes, id) then "stopped"
    else if IsRunning(t, id, poll) then "running"
    else "error"
  }

  /** The dictionary `check_server_health` returns, one constructor per shape. */
  datatype Health =
    | NotFound
    | Alive(pid: int, name: string, command: Option<string>, logFile: Option<string>)
    | Gone(pid: int, exitCode: int, name: string, command: Option<string>, logFile: Option<string>)
  {
    /** `health["status"]` */
    function Status(): string {
      match this
      case NotFound => "not_found"
      case Alive(_, _, _, _) => "running"
      case Gone(_, _, _, _, _) => "exited"
    }

    /** `health["running"]` */
    predicate Running() {
      Alive?
    }

    /** `health["exit_code"]` */
    function ExitCode(): Option<int> {
      if Gone? then Some(exitCode) else None
    }
  }

  /** `config.get('name', f'ID-{id}')` */
  function NameOf(t: Table, id: int): string {
    match Get(t.configs, id)
    case Some(c) => c.name
    case None => "ID-" + IntToString(id)
  }

  /** `check_server_health(id)` */
  function CheckHealth(t: Table, id: int, poll: Poll): (h: Health)
    ensures h.NotFound? <==> !HasKey(t.processes, id)
    ensures h.Running() <==> IsRunning(t, id, poll)
    ensures h.Gone? ==> poll(id) == Some(h.exitCode)
    ensures !h.NotFound? ==> Some(Process(h.pid)) == Get(t.processes, id)
    ensures !h.NotFound? ==> h.name == NameOf(t, id)
    ensures !h.NotFound? ==> h.command == if HasKey(t.configs, id) then Some(Get(t.configs, id).value.command) else None
    ensures !h.NotFound? ==> h.logFile == if HasKey(t.configs, id) then Some(Get(t.configs, id).value.logFile) else None
  {
    match Get(t.processes, id)
    case None => NotFound
    case Some(p) =>
      var config := Get(t.configs, id);
      var command := if config.Some? then Some(config.value.command) else None;
      var logFile := if config.Some? then Some(config.value.logFile) else None;
      match poll(id)
      case None => Alive(p.pid, NameOf(t, id), command, logFile)
      case Some(code) => Gone(p.pid, code, NameOf(t, id), command, logFile)
  }

  /** The status text and the health report never disagree about a server. */
  lemma StatusMatchesHealth(t: Table, id: int, poll: Poll)
    ensures ServerStatus(t, id, poll) == "stopped" <==> CheckHealth(t, id, poll).Status() == "not_found"
    ensures ServerStatus(t, id, poll) == "running" <==> CheckHealth(t, id, poll).Status() == "running"
    ensures ServerStatus(t, id, poll) == "error" <==> CheckHealth(t, id, poll).Status() == "exited"
  {
  }

  /** `get_all_server_health()`: one report per registered id, in registration order. */
  function AllHealth(t: Table, poll: Poll): (r: seq<Entry<int, Health>>)
    ensures |r| == |t.processes|
    ensures forall i :: 0 <= i < |r| ==> r[i].key == t.processes[i].key
    ensures forall i :: 0 <= i < |r| ==> r[i].value == CheckHealth(t, r[i].key, poll)
    ensures forall i :: 0 <= i < |r| ==> !r[i].value.NotFound?
  {
    seq(|t.processes|, i requires 0 <= i < |t.processes| =>
      assert HasKey(t.processes, t.processes[i].key);
      Entry(t.processes[i].key, CheckHealth(t, t.processes[i].key, poll)))
  }

  /** The registered ids whose process passes `keep`, in registration order. */
  function Select(ps: seq<Entry<int, Process>>, keep: int -> bool): (r: seq<int>)
    ensures forall id :: id in r <==> HasKey(ps, id) && keep(id)
    ensures |r| <= |ps|
    ensures Distinct(ps) ==> NoRepeats(r)
  {
    if |ps| == 0 then []
    else
      var rest := Select(ps[1..], keep);
      assert forall id :: HasKey(ps, id) <==> id == ps[0].key || HasKey(ps[1..], id);
      if keep(ps[0].key) then
        assert Distinct(ps) ==> !HasKey(ps[1..], ps[0].key) && Distinct(ps[1..]) by {
          if Distinct(ps) {
            forall j | 0 <= j < |ps[1..]| ensures ps[1..][j].key != ps[0].key { assert ps[1..][j] == ps[j + 1]; }
          }
        }
        [ps[0].key] + rest
      else
        assert Distinct(ps) ==> Distinct(ps[1..]);
        rest
  }

  /** No id is listed twice. */
  predicate NoRepeats(ids: seq<int>) {
    forall i, j :: 0 <= i < j < |ids| ==> ids[i] != ids[j]
  }

  /** A list without repeats has as many members as entries. */
  lemma {:induction false} NoRepeatsCount(ids: seq<int>)
    requires NoRepeats(ids)
    ensures |set id | id in ids| == |ids|
  {
    if |ids| > 0 {
      var rest := ids[1..];
      assert NoRepeats(rest) by {
        forall i, j | 0 <= i < j < |rest| ensures rest[i] != rest[j] { assert rest[i] == ids[i + 1] && rest[j] == ids[j + 1]; }
      }
      NoRepeatsCount(rest);
      assert ids[0] !in rest by {
        forall j | 0 <= j < |rest| ensures rest[j] != ids[0] { assert rest[j] == ids[j + 1]; }
      }
      assert (set id | id in ids) == (set id | id in rest) + {ids[0]} by {
        assert ids == [ids[0]] + rest;
      }
    }
  }

  /** A process whose `poll()` answers `None`. */
  predicate LiveUnder(poll: Poll, id: int) {
    poll(id).None?
  }

  /** A process whose `poll()` answers an exit code. */
  predicate DeadUnder(poll: Poll, id: int) {
    poll(id).Some?
  }

  /** `get_running_servers()` */
  function RunningServers(t: Table, poll: Poll): (r: seq<int>)
    ensures forall id :: id in r <==> IsRunning(t, id, poll)
    ensures Distinct(t.processes) ==> NoRepeats(r)
  {
    Select(t.processes, id => LiveUnder(poll, id))
  }

  // ---------------------------------------------------------------------------
  // Starting a server

  /**
   * The `args` handed to `start_server`: a list is kept, a JSON text is
   * parsed by `loads` (standing for `json.loads`, `None` on a decode error),
   * and whatever is not a list by then becomes `[]`.
   */
  function NormaliseArgs(args: Json, loads: string -> Option<Json>): (r: seq<Json>)
    ensures args.Arr? ==> r == args.items
    ensures args.Str? && loads(args.s).Some? && loads(args.s).value.Arr? ==> r == loads(args.s).value.items
    ensures r != [] ==> args.Arr? || (args.Str? && loads(args.s) == Some(Arr(r)))
  {
    var parsed := if args.Str? then loads(args.s).GetOr(Arr([])) else args;
    if parsed.Arr? then parsed.items else []
  }

  /** The argument vector handed to the child: the command, then the arguments. */
  function CommandVector(command: string, args: seq<Json>): (r: seq<Json>)
    ensures |r| == |args| + 1 && r[0] == Str(command) && r[1..] == args
  {
    [Str(command)] + args
  }

  /** `logs/mcp-{name}-{id}.log`: the standard-output log of a server. */
  function LogFile(name: string, id: int): (r: string)
    ensures IsPrefix("logs/mcp-", r) && IsSuffix(".log", r)
  {
    var r := "logs/mcp-" + name + "-" + IntToString(id) + ".log";
    assert r == "logs/mcp-" + (name + "-" + IntToString(id) + ".log");
    assert r == ("logs/mcp-" + name + "-" + IntToString(id)) + ".log";
    r
  }

  /**
   * Whether `elapsed >= 1.0` holds after `k` steps of `elapsed += 0.1` in
   * binary64 arithmetic. Ten steps sum to 0.9999999999999999, so the test
   * first holds after the eleventh step.
   */
  predicate ReachedOneSecond(k: nat) {
    k >= 11
  }

  /** Whether `elapsed < 3.0` still holds after `k` steps of 0.1: the thirtieth step reaches 3.0000000000000013. */
  predicate BelowCeiling(k: nat) {
    k < 30
  }

  /**
   * The stabilisation loop of `start_server`: every 100 ms the new process is
   * polled (`polls(k)` is the answer to the poll after step `k + 1`); an exit
   * ends the wait as a crash, and one simulated second ends it as stable.
   * Returns the step of the crash, if any, and how many polls were made.
   */
  method Stabilise(polls: nat -> Option<int>) returns (crash: Option<nat>, made: nat)
    ensures crash.Some? <==> exists k :: 0 <= k < 11 && polls(k).Some?
    ensures crash.Some? ==> crash.value < 11 && polls(crash.value).Some? && made == crash.value + 1
    ensures crash.Some? ==> forall k :: 0 <= k < crash.value ==> polls(k).None?
    ensures crash.None? ==> made == 11
  {
    var steps: nat := 0;
    crash := None;
    while BelowCeiling(steps)
      invariant steps < 11
      invariant forall k :: 0 <= k < steps ==> polls(k).None?
      decreases 30 - steps
    {
      steps := steps + 1;
      if polls(steps - 1).Some? {
        return Some(steps - 1), steps;
      }
      if ReachedOneSecond(steps) {
        break;
      }
    }
    made := steps;
  }

  /**
   * `start_server`. `commandFound` is the verdict of `validate_command`;
   * `spawned` is the new process, or `None` when opening the logs or
   * spawning raised; `polls(k)` answers the `k`-th poll of the new process.
   * The stabilisation loop makes up to eleven polls, the debug line after it
   * one more whose answer is only printed, and the final check one more.
   */
  method Start(
    t: Table, id: int, name: string, command: string, args: Json, workingDirectory: Option<string>,
    commandFound: bool, loads: string -> Option<Json>, spawned: Option<Process>, polls: nat -> Option<int>)
    returns (ok: bool, r: Table)
    requires Valid(t)
    ensures Valid(r)
    ensures ok <==> commandFound && spawned.Some? && (forall k :: 0 <= k < 11 ==> polls(k).None?) && polls(12).None?
    ensures !commandFound ==> r == t
    ensures ok ==> r == Register(t, id, spawned.value, Launched(id, name, command, args, workingDirectory, loads))
    ensures commandFound && !ok ==> r == Cleanup(t, id)
  {
    if !commandFound {
      return false, t;
    }
    var config := Launched(id, name, command, args, workingDirectory, loads);
    if spawned.None? {
      return false, Cleanup(t, id);
    }
    r := Register(t, id, spawned.value, config);
    CleanupRegister(t, id, spawned.value, config);
    var crash, made := Stabilise(polls);
    if crash.Some? {
      return false, Cleanup(r, id);
    }
    // The debug line polls once (poll number `made`) and prints the answer.
    if polls(made + 1).None? {
      ok := true;
    } else {
      ok := false;
      r := Cleanup(r, id);
    }
  }

  /** The configuration `start_server` records. */
  function Launched(
    id: int, name: string, command: string, args: Json, workingDirectory: Option<string>,
    loads: string -> Option<Json>): (c: Config)
    ensures c.name == name && c.command == command && c.workingDirectory == workingDirectory
    ensures c.logFile == LogFile(name, id)
    ensures c.args == NormaliseArgs(args, loads)
  {
    Config(name, command, NormaliseArgs(args, loads), workingDirectory, LogFile(name, id))
  }

  // ---------------------------------------------------------------------------
  // Stopping servers

  /** How `terminate()` and the waits after it went for a running process. */
  datatype Termination =
    | Graceful   // exited within the ten-second wait after terminate()
    | Killed     // ignored terminate(), exited within five seconds of kill()
    | Stuck      // outlived both waits
    | Raised     // terminate(), kill() or a wait raised something other than a timeout

  /** What `stop_server` returns, with the table after it. */
  datatype Outcome = Outcome(ok: bool, table: Table)

  /** Whether stopping the server at `id` leaves its entry in place. */
  predicate Survives(t: Table, id: int, poll: Poll, term: Termination) {
    IsRunning(t, id, poll) && (term.Stuck? || term.Raised?)
  }

  /** `stop_server(id)` */
  function Stop(t: Table, id: int, poll: Poll, term: Termination): (r: Outcome)
    ensures r.ok <==> !Survives(t, id, poll, term)
    ensures !r.ok ==> r.table == t
    ensures r.ok ==> r.table == Cleanup(t, id)
    ensures !HasKey(t.processes, id) && !HasKey(t.configs, id) ==> r == Outcome(true, t)
  {
    if !HasKey(t.processes, id) then Outcome(true, Cleanup(t, id))
    else if poll(id).None? then
      match term
      case Graceful => Outcome(true, Cleanup(t, id))
      case Killed => Outcome(true, Cleanup(t, id))
      case Stuck => Outcome(false, t)
      case Raised => Outcome(false, t)
    else Outcome(true, Cleanup(t, id))
  }

  /** A second `stop_server` after a successful one reports success and changes nothing. */
  lemma StopTwice(t: Table, id: int, poll: Poll, term: Termination, poll': Poll, term': Termination)
    requires Valid(t)
    requires Stop(t, id, poll, term).ok
    ensures var once := Stop(t, id, poll, term).table;
      Stop(once, id, poll', term') == Outcome(true, once)
  {
  }

  /** The entries that are left after stopping `ids` one after the other. */
  ghost predicate StoppedAll(t: Table, r: Table, done: seq<int>, poll: Poll, term: int -> Termination) {
    && Valid(r)
    && (forall id :: Get(r.processes, id) ==
          if id in done && !Survives(t, id, poll, term(id)) then None else Get(t.processes, id))
    && (forall id :: Get(r.configs, id) ==
          if id in done && !Survives(t, id, poll, term(id)) then None else Get(t.configs, id))
  }

  /** One more `stop_server` keeps `StoppedAll` for one more id. */
  lemma StopStep(t: Table, r: Table, done: seq<int>, id: int, poll: Poll, term: int -> Termination)
    requires Valid(t)
    requires StoppedAll(t, r, done, poll, term)
    ensures StoppedAll(t, Stop(r, id, poll, term(id)).table, done + [id], poll, term)
  {
    var r' := Stop(r, id, poll, term(id)).table;
    assert HasKey(r.processes, id) <==> Get(r.processes, id).Some?;
    assert HasKey(t.processes, id) <==> Get(t.processes, id).Some?;
    assert forall other :: other in done + [id] <==> other in done || other == id;
  }

  /**
   * `shutdown_all()`: `stop_server` for every id registered when it began.
   * `term(id)` is how terminating the process at `id` goes. Exactly the
   * running processes that would not die stay registered.
   */
  method ShutdownAll(t: Table, poll: Poll, term: int -> Termination) returns (r: Table)
    requires Valid(t)
    ensures Valid(r)
    ensures forall id :: Get(r.processes, id) == if Survives(t, id, poll, term(id)) then Get(t.processes, id) else None
    ensures forall id :: Get(r.configs, id) == if Survives(t, id, poll, term(id)) then Get(t.configs, id) else None
  {
    var ids := Keys(t.processes);
    r := t;
    var i := 0;
    while i < |ids|
      invariant i <= |ids|
      invariant StoppedAll(t, r, ids[..i], poll, term)
    {
      StopStep(t, r, ids[..i], ids[i], poll, term);
      TakeOneMore(ids, i);
      r := Stop(r, ids[i], poll, term(ids[i])).table;
      i := i + 1;
    }
    assert ids[..i] == ids;
    StoppedEveryKey(t, r, poll, term);
  }

  /** Once every registered id is done, exactly the survivors are left. */
  lemma StoppedEveryKey(t: Table, r: Table, poll: Poll, term: int -> Termination)
    requires Valid(t) && StoppedAll(t, r, Keys(t.processes), poll, term)
    ensures Valid(r)
    ensures forall id :: Get(r.processes, id) == if Survives(t, id, poll, term(id)) then Get(t.processes, id) else None
    ensures forall id :: Get(r.configs, id) == if Survives(t, id, poll, term(id)) then Get(t.configs, id) else None
  {
    KeysCover(t);
  }

  /** The prefix one longer is the prefix with the next element appended. */
  lemma TakeOneMore(ids: seq<int>, i: nat)
    requires i < |ids|
    ensures ids[..i + 1] == ids[..i] + [ids[i]]
  {
  }

  /** An id that is not among the keys of `processes` is in neither dictionary. */
  lemma KeysCover(t: Table)
    requires Valid(t)
    ensures forall id :: id !in Keys(t.processes) ==> Get(t.processes, id) == None && Get(t.configs, id) == None
  {
  }

  /** The ids whose process has exited: the ones `cleanup_dead_processes` collects. */
  function DeadServers(t: Table, poll: Poll): (r: seq<int>)
    ensures forall id :: id in r <==> HasKey(t.processes, id) && poll(id).Some?
    ensures Distinct(t.processes) ==> NoRepeats(r)
  {
    Select(t.processes, id => DeadUnder(poll, id))
  }

  /** The entries left after cleaning up the ids in `done`. */
  ghost predicate CleanedUp(t: Table, r: Table, done: seq<int>) {
    && Valid(r)
    && (forall id :: Get(r.processes, id) == if id in done then None else Get(t.processes, id))
    && (forall id :: Get(r.configs, id) == if id in done then None else Get(t.configs, id))
  }

  /**
   * `cleanup_dead_processes()`: every server whose process has exited leaves
   * both dictionaries, the running ones stay as they were, and the count of
   * the removed ones is returned.
   */
  method CleanupDead(t: Table, poll: Poll) returns (count: nat, r: Table)
    requires Valid(t)
    ensures Valid(r)
    ensures forall id :: Get(r.processes, id) == if poll(id).Some? then None else Get(t.processes, id)
    ensures forall id :: Get(r.configs, id) == if poll(id).Some? then None else Get(t.configs, id)
    ensures count == |DeadServers(t, poll)|
    ensures count == |set i | 0 <= i < |t.processes| && poll(t.processes[i].key).Some? :: t.processes[i].key|
  {
    var dead := DeadServers(t, poll);
    r := t;
    var i := 0;
    while i < |dead|
      invariant i <= |dead|
      invariant CleanedUp(t, r, dead[..i])
    {
      assert dead[..i + 1] == dead[..i] + [dead[i]];
      r := Cleanup(r, dead[i]);
      i := i + 1;
    }
    assert dead[..i] == dead;
    forall id
      ensures (id in dead) == (poll(id).Some? && Get(t.processes, id).Some?)
    {
      assert HasKey(t.processes, id) <==> Get(t.processes, id).Some?;
    }
    NoRepeatsCount(dead);
    assert (set id | id in dead) == set i | 0 <= i < |t.processes| && poll(t.processes[i].key).Some? :: t.processes[i].key;
    count := |dead|;
  }

  // ---------------------------------------------------------------------------
  // Requests over the child's standard streams

  /** What came back on the child's standard output after the request was written. */
  datatype Reply =
    | Silent           // nothing readable within the timeout
    | Line(text: string)
    | Broken           // writing or reading raised

  /** What `send_request` wrote and what it returned. */
  datatype Exchange = Exchange(written: Option<string>, response: Option<Json>)

  /** The request framing: one line of JSON. */
  function Frame(request: Json): (w: string)
    ensures |w| >= 2 && w[|w| - 1] == '\n'
    ensures forall i :: 0 <= i < |w| - 1 ==> w[i] != '\n'
  {
    var d := Dumps(request);
    assert forall i :: 0 <= i < |d| ==> d[i] in d;
    d + "\n"
  }

  /** A reader that takes the text up to the first newline gets the whole request back. */
  lemma FrameRoundTrip(request: Json)
    ensures IndexOfChar(Frame(request), '\n') == Some(|Frame(request)| - 1)
    ensures Frame(request)[..|Frame(request)| - 1] == Dumps(request)
  {
    var w := Frame(request);
    assert '\n' !in w[..|w| - 1];
    IndexOfCharAt(w, '\n', |w| - 1);
  }

  /**
   * `send_request(id, request)`: nothing is written to a server that is not
   * running, nor for a request that is not a dict, whose `get` for the log
   * line raises before the write and is answered with `None`; otherwise the
   * request goes out as one line, and the first line
   * back, stripped, is parsed by `loads` (standing for `json.loads`, `None`
   * on a decode error). The reply is not matched to the request: whatever
   * JSON value the line holds is returned.
   */
  function SendRequest(t: Table, id: int, poll: Poll, request: Json, reply: Reply, loads: string -> Option<Json>): (r: Exchange)
    ensures r.written.Some? <==> IsRunning(t, id, poll) && request.Obj?
    ensures r.written.Some? ==> r.written.value == Frame(request)
    ensures r.response.Some? <==>
      IsRunning(t, id, poll) && request.Obj? && reply.Line? && Strip(reply.text) != "" && loads(Strip(reply.text)).Some?
    ensures r.response.Some? ==> r.response == loads(Strip(reply.text))
  {
    if !IsRunning(t, id, poll) || !request.Obj? then Exchange(None, None)
    else
      var response :=
        match reply
        case Line(text) => if Strip(text) != "" then loads(Strip(text)) else None
        case _ => None;
      Exchange(Some(Frame(request)), response)
  }

  /** A blank line back counts as no response, like a timeout. */
  lemma BlankReplyIsNone(t: Table, id: int, poll: Poll, request: Json, text: string, loads: string -> Option<Json>)
    requires forall i :: 0 <= i < |text| ==> IsSpace(text[i])
    ensures SendRequest(t, id, poll, request, Line(text), loads).response == None
  {
    StripEmptyIffBlank(text);
  }
}

=== FILE: text.dfy ===
/**
 * The handful of Python `str` operations the rest of the model relies on:
 * substring tests, `lower`, `replace(c, '')`, `rstrip`, `strip`, `split`,
 * `join`, `endswith`, `rsplit(sep, 1)` and integer formatting.
 */
module Text {
  import opened Wrappers

  /** Python's truthiness of an optional string: present and not empty. */
  predicate Given(s: Option<string>) {
    s.Some? && |s.value| > 0
  }

  /** `s.startswith(p)` */
  predicate IsPrefix(p: string, s: string) {
    |p| <= |s| && s[..|p|] == p
  }

  /** `s.endswith(suf)` */
  predicate IsSuffix(suf: string, s: string) {
    |suf| <= |s| && s[|s| - |suf|..] == suf
  }

  /** `sub` occurs in `s` starting at index `i`. */
  predicate OccursAt(s: string, sub: string, i: int) {
    0 <= i && i + |sub| <= |s| && s[i..i + |sub|] == sub
  }

  /** Python's `sub in s` for strings, as a left-to-right scan. */
  predicate Contains(s: string, sub: string)
    decreases |s|
  {
    IsPrefix(sub, s) || (|s| > 0 && Contains(s[1..], sub))
  }

  /** The scan agrees with the positional definition of a substring. */
  lemma {:induction false} ContainsIffOccurs(s: string, sub: string)
    ensures Contains(s, sub) <==> exists i :: OccursAt(s, sub, i)
    decreases |s|
  {
    if IsPrefix(sub, s) {
      assert OccursAt(s, sub, 0);
    } else if |s| > 0 {
      ContainsIffOccurs(s[1..], sub);
      if Contains(s[1..], sub) {
        var i :| OccursAt(s[1..], sub, i);
        assert s[1..][i..i + |sub|] == s[i + 1..i + 1 + |sub|];
        assert OccursAt(s, sub, i + 1);
      }
      if i :| OccursAt(s, sub, i) {
        assert i != 0;
        assert s[1..][i - 1..i - 1 + |sub|] == s[i..i + |sub|];
        assert OccursAt(s[1..], sub, i - 1);
      }
    } else {
      assert forall i :: !OccursAt(s, sub, i);
    }
  }

  /** ASCII case folding of one character. */
  function LowerChar(c: char): char {
    if 'A' <= c <= 'Z' then (c as int + 32) as char else c
  }

  /** `s.lower()`, restricted to ASCII letters. */
  function Lower(s: string): (r: string)
    ensures |r| == |s|
    ensures forall i :: 0 <= i < |s| ==> r[i] == LowerChar(s[i])
  {
    seq(|s|, i requires 0 <= i < |s| => LowerChar(s[i]))
  }

  /** `s.replace(c, '')` for a single character `c`. */
  function RemoveChar(s: string, c: char): (r: string)
    ensures c !in r
    ensures forall x :: x in r <==> x in s && x != c
    ensures |r| <= |s|
  {
    if |s| == 0 then ""
    else (if s[0] == c then "" else [s[0]]) + RemoveChar(s[1..], c)
  }

  /** `s.rstrip(c)` for a single character `c`. */
  function RStripChar(s: string, c: char): (r: string)
    ensures IsPrefix(r, s)
    ensures |r| == 0 || r[|r| - 1] != c
    ensures forall i :: |r| <= i < |s| ==> s[i] == c
  {
    if |s| > 0 && s[|s| - 1] == c then RStripChar(s[..|s| - 1], c) else s
  }

  /** The characters for which Python's `str.isspace()` holds; `\s` in a `str` pattern matches the same set. */
  predicate IsSpace(c: char) {
    var n := c as int;
    || 0x09 <= n <= 0x0d
    || 0x1c <= n <= 0x20
    || n == 0x85 || n == 0xa0 || n == 0x1680
    || 0x2000 <= n <= 0x200a
    || n == 0x2028 || n == 0x2029 || n == 0x202f || n == 0x205f || n == 0x3000
  }

  /** `s.lstrip()`; also the effect of a regex `\s*` followed by a non-space. */
  function LStrip(s: string): (r: string)
    ensures IsSuffix(r, s)
    ensures |r| == 0 || !IsSpace(r[0])
    ensures forall i :: 0 <= i < |s| - |r| ==> IsSpace(s[i])
  {
    if |s| > 0 && IsSpace(s[0]) then LStrip(s[1..]) else s
  }

  /** `s.rstrip()` */
  function RStrip(s: string): (r: string)
    ensures IsPrefix(r, s)
    ensures |r| == 0 || !IsSpace(r[|r| - 1])
    ensures forall i :: |r| <= i < |s| ==> IsSpace(s[i])
  {
    if |s| > 0 && IsSpace(s[|s| - 1]) then RStrip(s[..|s| - 1]) else s
  }

  /** `s.strip()` */
  function Strip(s: string): string {
    LStrip(RStrip(s))
  }

  /** A string strips to nothing exactly when every character is whitespace. */
  lemma StripEmptyIffBlank(s: string)
    ensures Strip(s) == "" <==> forall i :: 0 <= i < |s| ==> IsSpace(s[i])
  {
    var t := RStrip(s);
    assert forall i :: 0 <= i < |t| ==> s[i] == t[i];
  }

  /** The index of the first `c` in `s` (`s.find(c)` when not -1). */
  function IndexOfChar(s: string, c: char): (r: Option<nat>)
    ensures r.Some? ==> r.value < |s| && s[r.value] == c && c !in s[..r.value]
    ensures r.None? <==> c !in s
  {
    if |s| == 0 then None
    else if s[0] == c then Some(0)
    else match IndexOfChar(s[1..], c)
      case None => None
      case Some(i) =>
        assert s[..i + 1] == [s[0]] + s[1..][..i];
        Some(i + 1)
  }

  /** The first `c` is at `k` when `s[k]` is `c` and no `c` comes before it. */
  lemma IndexOfCharAt(s: string, c: char, k: nat)
    requires k < |s| && s[k] == c && c !in s[..k]
    ensures IndexOfChar(s, c) == Some(k)
  {
    assert s[k] in s;
  }

  /** `s.split(sep)` for a single-character separator: always at least one piece. */
  function Split(s: string, sep: char): (parts: seq<string>)
    ensures |parts| >= 1
    ensures forall i :: 0 <= i < |parts| ==> sep !in parts[i]
    decreases |s|
  {
    match IndexOfChar(s, sep)
    case None => [s]
    case Some(i) => [s[..i]] + Split(s[i + 1..], sep)
  }

  /** `sep.join(parts)` */
  function Join(parts: seq<string>, sep: string): string {
    if |parts| == 0 then ""
    else if |parts| == 1 then parts[0]
    else parts[0] + sep + Join(parts[1..], sep)
  }

  /** Joining the pieces of a split restores the string. */
  lemma {:induction false} JoinSplit(s: string, sep: char)
    ensures Join(Split(s, sep), [sep]) == s
    decreases |s|
  {
    match IndexOfChar(s, sep)
    case None =>
    case Some(i) =>
      var rest := Split(s[i + 1..], sep);
      assert Split(s, sep) == [s[..i]] + rest;
      JoinSplit(s[i + 1..], sep);
      assert Join(Split(s, sep), [sep]) == s[..i] + [sep] + Join(rest, [sep]);
      assert s == s[..i] + [sep] + s[i + 1..];
  }

  /** Splitting a join of separator-free pieces recovers the pieces. */
  lemma {:induction false} SplitJoin(parts: seq<string>, sep: char)
    requires |parts| >= 1
    requires forall i :: 0 <= i < |parts| ==> sep !in parts[i]
    ensures Split(Join(parts, [sep]), sep) == parts
    decreases |parts|
  {
    if |parts| == 1 {
      assert IndexOfChar(parts[0], sep).None?;
    } else {
      var rest := Join(parts[1..], [sep]);
      var s := parts[0] + [sep] + rest;
      assert sep !in parts[0];
      assert s[|parts[0]|] == sep;
      assert s[..|parts[0]|] == parts[0];
      var k := IndexOfChar(s, sep);
      assert k == Some(|parts[0]|);
      assert s[|parts[0]| + 1..] == rest;
      SplitJoin(parts[1..], sep);
    }
  }

  /** The last position at which `sub` occurs in `s`, if any. */
  function LastIndexOf(s: string, sub: string): (r: Option<nat>)
    ensures r.Some? ==> OccursAt(s, sub, r.value) && forall j :: r.value < j ==> !OccursAt(s, sub, j)
    ensures r.None? ==> forall j :: !OccursAt(s, sub, j)
    decreases |s|
  {
    if |sub| > |s| then None
    else if IsSuffix(sub, s) then Some(|s| - |sub|)
    else
      var r := LastIndexOf(s[..|s| - 1], sub);
      assert forall j :: OccursAt(s, sub, j) ==> OccursAt(s[..|s| - 1], sub, j) by {
        forall j | OccursAt(s, sub, j)
          ensures OccursAt(s[..|s| - 1], sub, j)
        {
          assert s[..|s| - 1][j..j + |sub|] == s[j..j + |sub|];
        }
      }
      match r
      case None => None
      case Some(i) =>
        assert s[..|s| - 1][i..i + |sub|] == s[i..i + |sub|];
        Some(i)
  }

  /** `s.rsplit(sep, 1)[0]`: everything before the last occurrence of `sep`, or all of `s`. */
  function RSplitHead(s: string, sep: string): (r: string)
    requires |sep| > 0
    ensures IsPrefix(r, s)
  {
    match LastIndexOf(s, sep)
    case None => s
    case Some(i) => s[..i]
  }

  /** The decimal digit `d` as a character. */
  function DigitChar(d: nat): char
    requires d < 10
  {
    ('0' as int + d) as char
  }

  /** `str(n)` for a natural number. */
  function NatToString(n: nat): (r: string)
    ensures |r| >= 1
    ensures forall i :: 0 <= i < |r| ==> '0' <= r[i] <= '9'
  {
    if n < 10 then [DigitChar(n)] else NatToString(n / 10) + [DigitChar(n % 10)]
  }

  /** `str(n)` for an integer. */
  function IntToString(n: int): string {
    if n < 0 then "-" + NatToString(-n) else NatToString(n)
  }
}

=== FILE: utf8.dfy ===
/**
 * UTF-8 as Python's `str.encode()` and strict `bytes.decode()` apply it:
 * the decoder accepts exactly the well-formed byte sequences (no overlong
 * forms, no surrogates, nothing above U+10FFFF).
 */
module Utf8 {
  import opened Wrappers

  type Byte = b: int | 0 <= b < 0x100

  /** A continuation byte `10xxxxxx`. */
  predicate IsCont(b: Byte) {
    0x80 <= b <= 0xbf
  }

  /** The bytes of one character. */
  function EncodeChar(c: char): (r: seq<Byte>)
    ensures 1 <= |r| <= 4
  {
    var n := c as int;
    if n < 0x80 then [n]
    else if n < 0x800 then [0xc0 + n / 0x40, 0x80 + n % 0x40]
    else if n < 0x1_0000 then [0xe0 + n / 0x1000, 0x80 + n / 0x40 % 0x40, 0x80 + n % 0x40]
    else [0xf0 + n / 0x4_0000, 0x80 + n / 0x1000 % 0x40, 0x80 + n / 0x40 % 0x40, 0x80 + n % 0x40]
  }

  /** `s.encode()` */
  function Encode(s: string): seq<Byte> {
    if |s| == 0 then [] else EncodeChar(s[0]) + Encode(s[1..])
  }

  /** The length of the well-formed sequence that starts `bs`, or 0 when it is malformed. */
  function SequenceLength(bs: seq<Byte>): (k: nat)
    ensures k <= |bs| && k <= 4
  {
    if |bs| == 0 then 0
    else
      var b0 := bs[0];
      if b0 < 0x80 then 1
      else if 0xc2 <= b0 <= 0xdf then
        if |bs| >= 2 && IsCont(bs[1]) then 2 else 0
      else if 0xe0 <= b0 <= 0xef then
        var lo := if b0 == 0xe0 then 0xa0 else 0x80;
        var hi := if b0 == 0xed then 0x9f else 0xbf;
        if |bs| >= 3 && lo <= bs[1] <= hi && IsCont(bs[2]) then 3 else 0
      else if 0xf0 <= b0 <= 0xf4 then
        var lo := if b0 == 0xf0 then 0x90 else 0x80;
        var hi := if b0 == 0xf4 then 0x8f else 0xbf;
        if |bs| >= 4 && lo <= bs[1] <= hi && IsCont(bs[2]) && IsCont(bs[3]) then 4 else 0
      else 0
  }

  /** The code point encoded by a well-formed sequence at the start of `bs`. */
  function DecodeChar(bs: seq<Byte>): char
    requires SequenceLength(bs) > 0
  {
    var k := SequenceLength(bs);
    var b0: int := bs[0];
    if k == 1 then b0 as char
    else
      var b1: int := bs[1];
      if k == 2 then ((b0 - 0xc0) * 0x40 + (b1 - 0x80)) as char
      else
        var b2: int := bs[2];
        if k == 3 then ((b0 - 0xe0) * 0x1000 + (b1 - 0x80) * 0x40 + (b2 - 0x80)) as char
        else
          var b3: int := bs[3];
          ((b0 - 0xf0) * 0x4_0000 + (b1 - 0x80) * 0x1000 + (b2 - 0x80) * 0x40 + (b3 - 0x80)) as char
  }

  /** Strict `bytes.decode()`: `None` where Python raises `UnicodeDecodeError`. */
  function Decode(bs: seq<Byte>): Option<string>
    decreases |bs|
  {
    if |bs| == 0 then Some("")
    else
      var k := SequenceLength(bs);
      if k == 0 then None
      else match Decode(bs[k..])
        case None => None
        case Some(rest) => Some([DecodeChar(bs)] + rest)
  }

  lemma DecodeEncodeTwo(c: char, rest: seq<Byte>)
    requires 0x80 <= c as int < 0x800
    ensures SequenceLength(EncodeChar(c) + rest) == 2
    ensures DecodeChar(EncodeChar(c) + rest) == c
  {
    var n := c as int;
    var bs := EncodeChar(c) + rest;
    assert bs[0] == 0xc0 + n / 0x40 && bs[1] == 0x80 + n % 0x40;
  }

  lemma DecodeEncodeThree(c: char, rest: seq<Byte>)
    requires 0x800 <= c as int < 0x1_0000
    ensures SequenceLength(EncodeChar(c) + rest) == 3
    ensures DecodeChar(EncodeChar(c) + rest) == c
  {
    var n := c as int;
    var bs := EncodeChar(c) + rest;
    var hi, mid, lo := n / 0x1000, n / 0x40 % 0x40, n % 0x40;
    assert n == hi * 0x1000 + mid * 0x40 + lo;
    assert bs[0] == 0xe0 + hi && bs[1] == 0x80 + mid && bs[2] == 0x80 + lo;
    assert hi == 0 ==> mid >= 0x20;
    assert hi == 0xd ==> mid < 0x20;
  }

  lemma DecodeEncodeFour(c: char, rest: seq<Byte>)
    requires 0x1_0000 <= c as int
    ensures SequenceLength(EncodeChar(c) + rest) == 4
    ensures DecodeChar(EncodeChar(c) + rest) == c
  {
    var n := c as int;
    var bs := EncodeChar(c) + rest;
    var top, hi, mid, lo := n / 0x4_0000, n / 0x1000 % 0x40, n / 0x40 % 0x40, n % 0x40;
    assert n == top * 0x4_0000 + hi * 0x1000 + mid * 0x40 + lo;
    assert bs[0] == 0xf0 + top && bs[1] == 0x80 + hi && bs[2] == 0x80 + mid && bs[3] == 0x80 + lo;
    assert top == 0 ==> hi >= 0x10;
    assert top == 4 ==> hi < 0x10;
  }

  /** One character survives encoding followed by decoding, whatever follows it. */
  lemma DecodeEncodeChar(c: char, rest: seq<Byte>)
    ensures SequenceLength(EncodeChar(c) + rest) == |EncodeChar(c)|
    ensures DecodeChar(EncodeChar(c) + rest) == c
  {
    var n := c as int;
    if n < 0x80 {
    } else if n < 0x800 {
      DecodeEncodeTwo(c, rest);
    } else if n < 0x1_0000 {
      DecodeEncodeThree(c, rest);
    } else {
      DecodeEncodeFour(c, rest);
    }
  }

  /** Decoding what was encoded gives the original text back. */
  lemma {:induction false} DecodeEncode(s: string)
    ensures Decode(Encode(s)) == Some(s)
  {
    if |s| > 0 {
      var head := EncodeChar(s[0]);
      var bs := Encode(s);
      assert bs == head + Encode(s[1..]);
      DecodeEncodeChar(s[0], Encode(s[1..]));
      assert bs[|head|..] == Encode(s[1..]);
      DecodeEncode(s[1..]);
      assert [s[0]] + s[1..] == s;
    }
  }
}

=== FILE: wrappers.dfy ===
/** Failure-carrying values shared by every module of the model. */
module Wrappers {

  /** A value that may be absent: Python's `None` versus a present value. */
  datatype Option<+T> = None | Some(value: T) {

    /** The carried value, or `default` when absent (Python's `x or default` on optionals). */
    function GetOr(default: T): T {
      match this
      case Some(v) => v
      case None => default
    }
  }

  /** The outcome of an operation that can raise: `Err` carries the text of the exception. */
  datatype Result<+T> = Ok(value: T) | Err(error: string) {

    /** Whether the operation raised; lets `:-` pass the exception on. */
    predicate IsFailure() {
      Err?
    }

    /** The same exception, as the result of the enclosing operation. */
    function PropagateFailure<U>(): Result<U>
      requires Err?
    {
      Err(error)
    }

    /** The value of an operation that did not raise. */
    function Extract(): T
      requires Ok?
    {
      value
    }
  }
}
